=== FILE: README.md ===
# osm-borders: TERYT cache core, in Dafny

This project models the caching core of osm-borders. osm-borders keeps local
copies of the Polish official register TERYT and uses them to build borders
and address data. The register has three catalogues:

- TERC, the administrative units;
- SIMC, the localities;
- ULIC, the streets.

Each catalogue lives in a named cache. The model covers:

- **The cache manager** (`converters/tools.py`). It works over an abstract
  key-value store and keeps one record per cache name in a reserved `meta`
  table: the status (`creating`/`ready`), the version and the update time. A
  cache is served only once it is ready, and only up to its version. Requests
  for a newer version raise `CacheExpired`.
- **The records** (`converters/teryt.py`):
  - TERC units are keyed by the code built from their segments;
  - SIMC localities are keyed by their symbol;
  - ULIC streets are grouped by street identifier into a multi-entry that holds
    one member per locality;
  - the cleaned display name of a street is modelled too.
- **The delta handlers.** A change record (`<zmiana>`) carries a before half
  (`...Przed`) and an after half (`...Po`), selected by tag suffix. Each
  catalogue has its own add/remove/modify/change handlers. They are dispatched
  on the operation letter and replayed in order. The first exception stops the
  replay and keeps the writes made before it.
- **`groupby`**, which the ULIC snapshot uses.
- **The version probe** of `BaseTerytCache`, which is trusted for an hour.
- **`get`**, which brings an expired cache up to date.

Modelling choices:

- Python `str | None` is `Option<string>` (`Text`). Its truthiness is spelled
  out (`Truthy`).
- Python dicts are insertion-ordered association lists (`Dict`). Store tables
  are maps.
- An exception is an `Err` of a `Result`. When writes may already have happened
  before the exception, the model returns an `Outcome` that carries the state
  reached.
- The remote service, the downloads and the clock are parameters:
  - `remote` is the version the service reports;
  - `delta` is the change records it returns;
  - `now` is the time.

## Model

| member | source | states |
|---|---|---|
| Base.Nvl | converters/teryt.py:72-75 | only `None` is replaced; an empty string is kept |
| Tables.Lookup | converters/tools.py:100-106 | a stored key yields its value; an absent key yields the default |
| Tables.Delete | converters/tools.py:111-112 | deleting an absent key raises `KeyError`; otherwise exactly that key disappears and every other key reads as before |
| Tables.Fresh | converters/tools.py:130-132 | a newly created table finds nothing under any key |
| Tables.Reload | converters/tools.py:70-72 | the reload completes exactly when every key of the contents is a string |
| Tables.ReloadContents | converters/tools.py:70-72 | after a reload, each key holds the value of its last entry in the contents; keys not in the contents are untouched |
| Tables.KeysAsWritten | converters/tools.py:114-115 | as written, `keys()` returns `None` whatever the table holds |
| Tables.StoredKeys | converters/tools.py:114-115 | as intended, `keys()` is exactly the set of keys `get` finds |
| Tables.KeysAsWrittenLosesKeys | converters/tools.py:114-115 | a key present in the table is missing from the as-written answer |
| Manager.GetTable | converters/tools.py:123-128 | opening a table that was never created raises `CacheNotInitialized` |
| Manager.GetCache | converters/tools.py:264-282 | `meta` is a forbidden name; a missing or not-ready cache raises `CacheNotInitialized`; a served table's stored version is at least the requested one; `CacheExpired` carries a stored version below the requested one |
| Manager.CreateCache | converters/tools.py:284-292 | `meta` is refused; otherwise the name is recorded as creating without a version, gets an empty table, and every other table is untouched |
| Manager.MarkReady | converters/tools.py:294-299 | fails on a name without a meta record; otherwise records ready, the version and the time, and leaves the tables alone |
| Manager.VersionAsWritten | converters/tools.py:301-302 | as written, `version` raises exactly when the name has no meta record |
| Manager.Version | converters/tools.py:301-302 | the stored version, or -1 when the name or its version is unknown |
| Manager.VersionAsWrittenDiffers | converters/tools.py:301-302 | the two agree on known names; on an unknown name the code raises where -1 is meant |
| Manager.GetCacheDependsOnMeta | converters/tools.py:264-282 | stores with equal meta records and the same tables present fail alike, with the same error |
| Manager.TransitionsKeepMetaReserved | converters/tools.py:284-299 | neither `create_cache` nor `mark_ready` makes `meta` a data table |
| Manager.CreatedIsNotReady | converters/tools.py:284-292 | right after `create_cache`, `get_cache` raises `CacheNotInitialized` at every version, `version` is -1 and the table is empty |
| Manager.ReadyServesUpToVersion | converters/tools.py:294-299 | after `mark_ready(v)` the table is served for no version and for every version up to `v`; `CacheExpired` is raised above `v` |
| Grouping.GroupBy | converters/tools.py:317-321 | a group is created only by appending to it: no group is empty, and there are no more groups than elements |
| Grouping.GroupByGet | converters/tools.py:317-321 | the group of a key is the values of the elements with that key, in input order; a key no element has gets no group |
| Grouping.GroupByUnique | converters/tools.py:317-321 | each key appears once among the groups |
| Grouping.SelectHas | converters/tools.py:317-321 | every element's value is in the group of its key |
| Grouping.SelectNone | converters/tools.py:317-321 | a key no element has selects nothing |
| Grouping.SelectKeyed | converters/tools.py:317-321 | with the identity as value function, every member of a group has the group's key |
| Grouping.GroupsPartition | converters/tools.py:317-321 | each element is found in the group of its key, and there is no group for a key no element has |
| Records.Concat4 | converters/teryt.py:370 | concatenating four segments raises `TypeError` exactly when one is `None`; otherwise the result is as long as the four together and starts with the first |
| Records.Overlay | converters/teryt.py:165-169 | only a truthy new value replaces the current one |
| Records.TagKey | converters/teryt.py:66-69 | the key is the lower-cased tag without its suffix, and empty for an empty suffix |
| Records.UpdateRecordToDict | converters/teryt.py:66-69 | the selected half has each key once |
| Records.MatchingLast | converters/teryt.py:66-69 | the last matching pair of a key is the last element with a matching tag yielding that key |
| Records.UpdateRecordLookup | converters/teryt.py:66-69 | each key holds the text of the last element whose tag ends with the suffix and yields that key; other keys are absent |
| Records.OtherHalfIgnored | converters/teryt.py:66-69 | an element of the other half does not change the selected half |
| Records.AfterHalfExample | converters/teryt.py:66-69 | a record with `WojPrzed` and `NazwaPo` splits into before `{woj}` and after `{nazwa}` |
| Delta.Replay | converters/teryt.py:640-647 | replaying no records leaves the table as it was |
| Delta.ReplayAppend | converters/teryt.py:640-647 | replaying `a + b` replays `a` and then `b` from where `a` stopped; a failure in `a` ends the replay |
| Delta.ReplayOne | converters/teryt.py:640-647 | replaying one record is applying it |
| Delta.ReplayKeeps | converters/teryt.py:640-647 | a property every handler keeps, whether it completes or raises, holds after any replay |
| Delta.StopsAtFirstFailure | converters/teryt.py:640-647 | the records after the first failing one are never applied |
| Terc.FromRow | converters/teryt.py:157-163 | a catalogue row gives a unit with its segments and name; the additional name defaults to empty |
| Terc.FromDictAsWritten | converters/teryt.py:231-239 | as written, `from_dict` raises `TypeError` on every input |
| Terc.FromDict | converters/teryt.py:231-239 | as intended, `from_dict` succeeds exactly when the six keys are present (else `KeyError`); falsy district, commune and kind become empty |
| Terc.FromDictAsWrittenFails | converters/teryt.py:231-239 | wherever the intended `from_dict` yields a unit, the written one raises |
| Terc.TercCode | converters/teryt.py:186-191 | the code is the concatenation of the truthy parts among `woj`, `powiat` and, only when `gmi` is truthy, `gmi` and `rodz` |
| Terc.ParentTerc | converters/teryt.py:193-199 | the parent code raises `TypeError` exactly when a segment it joins is `None` |
| Terc.ParentIsPrefix | converters/teryt.py:186-199 | the parent code is a prefix of the code, and a proper prefix unless both are empty |
| Terc.RodzNazwa | converters/teryt.py:175-177 | a truthy kind is looked up in the kind names; without one, codes of length 2 and 4 name the province and district tiers, and any other length raises |
| Terc.RodzNazwaTier | converters/teryt.py:175-177 | a unit without kind or commune and a two-digit province code is named the province tier and has no parent; with a two-digit district code too it is named the district tier and its parent is the province |
| Terc.UpdateFrom | converters/teryt.py:165-169 | truthy fields of the update overlay the unit; the district is written to `pow`, so `powiat` and `gmi` never change |
| Terc.UpdateFromIdempotent | converters/teryt.py:165-169 | applying the same update twice equals applying it once |
| Terc.UpdateFromKeepsCode | converters/teryt.py:165-191 | without a new province, and without a new kind for a commune, the code does not change |
| Terc.DistrictChangeIgnored | converters/teryt.py:165-191 | an update that renames only the district does not move the unit |
| Terc.HandleD | converters/teryt.py:740-749 | over the corrected `from_dict`, the add handler succeeds exactly when the after half converts, and stores the new unit under its code |
| Terc.HandleU | converters/teryt.py:751-757 | over the corrected `from_dict`, the remove handler succeeds exactly when the before code is stored, and deletes exactly that code |
| Terc.HandleM | converters/teryt.py:759-777 | over the corrected `from_dict`, modifying a code not in the table raises "non-existing record"; the handler succeeds exactly when the before code is stored; its tail, once the code is known, is `Terc.Modify` |
| Terc.ModifyMoves | converters/teryt.py:759-777 | the modified unit is found under its new code; the old code is gone when the code changed; every other unit is untouched |
| Terc.MoveFacts | converters/teryt.py:772-774 | after the writes of a modification (`Terc.Move`), the entry is under its new code, the old code is gone when it changed, and nothing else changed |
| Terc.AddInsertsOne | converters/teryt.py:740-749 | adding under a new code adds exactly that one key |
| Terc.Apply | converters/teryt.py:779-783 | a record whose operation is not `D`, `U` or `M` raises and leaves the table unchanged, and only such a record does |
| Terc.ApplyAsWritten | converters/teryt.py:740-783 | as written, every record raises before writing anything: an add, remove or modify record whose half has the six fields raises `TypeError` from `from_dict`, and any other raises for its unknown letter |
| Terc.ReplayAsWrittenChangesNothing | converters/teryt.py:635-647 | as written, replaying a TERC delta leaves the table as it was and halts at its first record |
| Terc.ApplyKeepsKeying | converters/teryt.py:740-783 | every handler keeps each unit stored under its own code |
| Terc.HandlersKeepKeying | converters/teryt.py:740-777 | each of add, remove and modify keeps each unit under its own code |
| Terc.ModifyKeepsKeying | converters/teryt.py:759-777 | modification re-keys the unit under its new code |
| Terc.StoreKeepsKeying | converters/teryt.py:749 | storing a unit under its own code keeps the keying |
| Terc.ReplayKeepsKeying | converters/teryt.py:635-647 | a whole delta keeps the keying, wherever it stops |
| Terc.PrzykladCode | converters/teryt.py:186-191 | province 02, district 14, commune 01, kind 1 give the code `0214011` |
| Terc.RenameInPlace | converters/teryt.py:759-777 | an update carrying only a name renames the unit under the same code and touches nothing else |
| Terc.RenameScenario | converters/teryt.py:759-777 | renaming unit `0214011` to `Nowy` leaves it under `0214011`, renamed |
| Simc.FromRow | converters/teryt.py:246-261 | an empty row gives an empty entry; otherwise the commune code is the four segments joined (`TypeError` if one is missing), and the parent is the superior locality exactly when it differs from the locality itself |
| Simc.FromDict | converters/teryt.py:277-285 | `terc`, `nazwa` and `sym` are required (`KeyError`); `rm` defaults to 0 (the text `"0"` here) and `parent` to `None` |
| Simc.UpdateFrom | converters/teryt.py:322-326 | truthy fields of the update overlay the locality |
| Simc.UpdateFromIdempotent | converters/teryt.py:322-326 | the update is idempotent, and an update without truthy fields changes nothing |
| Simc.SolrParent | converters/teryt.py:287-293 | a locality hangs under its superior locality when it has one, else under its commune, and raises when neither is known |
| Simc.RowParentResolution | converters/teryt.py:246-293 | a row subordinate to another locality hangs under it; a row that is its own superior hangs under its commune |
| Simc.HandleD | converters/teryt.py:664-673 | the add handler succeeds exactly when the after half converts with a symbol, and stores the entry under it |
| Simc.HandleU | converters/teryt.py:675-681 | the remove handler succeeds exactly when the before symbol is stored, and deletes exactly it |
| Simc.HandleZ | converters/teryt.py:683-701 | changing a symbol not in the table raises "non-existing record" and leaves the table unchanged; completion implies the symbol was stored |
| Simc.ChangeMoves | converters/teryt.py:683-701 | the changed entry is found under its new symbol, and the old symbol is gone when the symbol changed |
| Simc.ChangeKeepsOthers | converters/teryt.py:683-701 | a change touches no other symbol |
| Simc.ChangeCompletes | converters/teryt.py:683-701 | in a table keyed by symbol, a change of a stored symbol always completes |
| Simc.Apply | converters/teryt.py:714-719 | a record whose operation is not `D`, `U`, `Z` or `P` raises and leaves the table unchanged, and only such a record does |
| Simc.TransferIsChange | converters/teryt.py:703-712 | a transfer `P` has the same effect as a change `Z` |
| Simc.StoreKeepsKeying | converters/teryt.py:698 | storing an entry under its own symbol keeps the keying |
| Simc.ChangeKeepsKeying | converters/teryt.py:683-701 | a change keeps every entry under its own symbol, even when it raises halfway |
| Simc.ApplyKeepsKeying | converters/teryt.py:664-719 | every handler keeps every entry under its own symbol |
| Simc.ReplayKeepsKeying | converters/teryt.py:635-647 | a whole delta keeps the keying, wherever it stops |
| StreetName.Label | converters/teryt.py:469-471 | a `None` qualifier raises; the label is the mapping of the upper-cased code; an unknown code raises `KeyError`; the `cecha` property of a street entry (`Streets.Cecha`) is this label |
| StreetName.Mapper | converters/teryt.py:335-340 | an empty part stays empty; a cleaned part has no surrounding whitespace and is no longer than the input; a non-empty part with no qualifier raises; a leading code, or else a leading label, is cut (`StreetName.CodeCut`, `StreetName.LabelCut`) |
| StreetName.CodeCut | converters/teryt.py:336-337 | a part that starts with the qualifier code, in any letter case, loses the code and the rest is stripped |
| StreetName.LabelCut | converters/teryt.py:338-339 | a part that does not start with the code but starts with its label, in any letter case, loses the label and the rest is stripped |
| StreetName.CleanStreetName | converters/teryt.py:334-346 | raises exactly when a part's cleaning raises; empty exactly when both cleaned parts are empty |
| StreetName.LabelsTrimmed | converters/teryt.py:123-139 | no label has surrounding whitespace |
| StreetName.CleanShape | converters/teryt.py:334-346 | the cleaned name has no surrounding whitespace; when not empty, it is the label and the non-empty cleaned parts joined by single spaces |
| StreetName.EmptyPartsEmptyName | converters/teryt.py:344-345 | two empty parts give an empty name, even without a qualifier |
| StreetName.UnknownQualifierRaises | converters/teryt.py:338 | an unknown code raises once a non-empty part does not start with the code itself |
| StreetName.PlainPartUnchanged | converters/teryt.py:340 | a trimmed part that starts with neither `ul.` nor `ulica` is kept as it is |
| StreetName.RepeatedQualifierCut | converters/teryt.py:336-337 | `ul. Długa` under `UL.` is cleaned to `Długa` |
| StreetName.CleanFromParts | converters/teryt.py:346 | once both parts are cleaned, the name is the label followed by the non-empty parts |
| StreetName.RepeatedQualifierExample | converters/teryt.py:334-346 | `UL.` with parts `""` and `ul. Długa` gives `Ulica Długa` |
| StreetName.PlainPartsExample | converters/teryt.py:334-346 | `UL.` with parts `Adama` and `Mickiewicza` gives `Ulica Adama Mickiewicza` |
| Streets.RenameInverse | converters/teryt.py:350-362 | the change-record-name map and its inverse undo each other |
| Streets.Rename | converters/teryt.py:385-387 | the renamed half has each name once |
| Streets.RenameLookup | converters/teryt.py:385-387 | each catalogue name holds the text of the last field renamed to it |
| Streets.FromUpdate | converters/teryt.py:421-428 | each attribute is read from the last change-record field renamed to its catalogue name; building raises exactly when a commune segment is missing |
| Streets.FromFields | converters/teryt.py:364-370 | building a street entry raises exactly when a commune segment is `None`; otherwise the fields are read and missing name parts become empty |
| Streets.OverlayPart | converters/teryt.py:388-391 | only a truthy new name part replaces the current one |
| Streets.UpdateFrom | converters/teryt.py:384-393 | a truthy `cecha` raises (read-only property); otherwise truthy fields overlay and the commune code is rebuilt when a segment is given; the street identifier and stored qualifier never change |
| Streets.UpdateFromUniform | converters/teryt.py:384-393 | whether an update succeeds does not depend on the entry; applying it twice equals applying it once |
| Streets.StreetIdentifierIgnored | converters/teryt.py:388-391 | a new street identifier lands in `sym_ul`, so `symul` is never changed by an update |
| Streets.Nazwa | converters/teryt.py:465-467 | the display name has no surrounding whitespace; only a `None` or unknown qualifier can make it raise |
| Streets.NazwaOrder | converters/teryt.py:465-467 | the display name is the label, then the second name part, then the first |
| Streets.New | converters/teryt.py:477-481 | a one-member street; raises exactly when the member's label or name cannot be read |
| Streets.AddEntry | converters/teryt.py:490-503 | a member of another street raises; success exactly for a fitting member, which is inserted or replaced under its locality symbol while the street's label and name are kept |
| Streets.AddEntryLookup | converters/teryt.py:503 | after adding, the new member is under its symbol and every other member is where it was |
| Streets.RemoveBySym | converters/teryt.py:508-509 | removing an absent symbol raises `KeyError`; otherwise the street loses exactly one member |
| Streets.RemoveLookup | converters/teryt.py:508-509 | removing a member removes exactly that member and keeps the symbols unique |
| Streets.AddAll | converters/teryt.py:540-542 | adding a list keeps the street's identifier, label and name |
| Streets.AddAllOk | converters/teryt.py:540-542 | adding a list succeeds exactly when every member fits the street |
| Streets.AddAllGet | converters/teryt.py:540-542 | after adding, each symbol holds its last member in the list, or what it held before |
| Streets.AddAllUnique | converters/teryt.py:540-542 | adding members keeps the symbols unique |
| Streets.FromList | converters/teryt.py:536-543 | an empty list raises; a built street takes its identifier, label and name from the first member |
| Streets.FromListSpec | converters/teryt.py:536-543 | `from_list` succeeds exactly on a non-empty list of members fitting the first one's street; each symbol then holds its last member, once |
| Streets.CheckConsistent | converters/teryt.py:517-519 | serialising raises `Inconsistent object` exactly when a member belongs to another street |
| Streets.ConsistencyKept | converters/teryt.py:490-543 | adding and removing members keep a street consistent, and a street built from a list is consistent |
| Streets.FromListMembers | converters/teryt.py:536-543 | every member of a built street comes from the list, filed under its own symbol |
| Ulic.Found | converters/teryt.py:815-816 | a street is found exactly when it is stored and has members |
| Ulic.HandleD | converters/teryt.py:804-820 | adding succeeds exactly when the after half builds a member with a street identifier whose label and name can be read and, when that street is stored with members, the stored street carries the same identifier; afterwards the member is in that street and no other street changes |
| Ulic.Join | converters/teryt.py:815-820 | joining succeeds exactly when the member's label and name can be read and a stored street with members under its identifier carries that identifier; afterwards the member is found there and no other street changes |
| Ulic.HandleU | converters/teryt.py:857-872 | removing succeeds exactly when the before half builds, names a stored street holding the member, and that street has an identifier to be stored back under if members remain |
| Ulic.HandleM | converters/teryt.py:822-855 | "non-existing record" is raised without writing when the before half has no truthy street identifier, and also when no street with members is stored under it |
| Ulic.UpdateAll | converters/teryt.py:878-879 | every member is updated in place and keeps its symbol |
| Ulic.UpdateAllOk | converters/teryt.py:878-879 | updating all members fails exactly when the update fails on the first |
| Ulic.ChangeAll | converters/teryt.py:878-883 | the street takes the identifier, label and name of its last updated member and is never left empty |
| Ulic.HandleZ | converters/teryt.py:874-884 | the change succeeds exactly when the before half names a stored street whose members all take the update and whose last member has an identifier; the changed street is stored under that identifier, the before identifier is not deleted, and no other street changes |
| Ulic.Apply | converters/teryt.py:886-891 | a record whose operation is not `D`, `M`, `U` or `Z` raises and leaves the table unchanged, and only such a record does |
| Ulic.AddKeepsWellFormed | converters/teryt.py:804-820 | adding keeps every street under its identifier, non-empty, with unique symbols and only its own members |
| Ulic.JoinKeepsWellFormed | converters/teryt.py:815-820 | joining a member to the street of its own identifier keeps the table well formed |
| Ulic.RemoveKeepsWellFormed | converters/teryt.py:857-872 | removing keeps the table well formed |
| Ulic.ModifyInPlace | converters/teryt.py:822-855 | in a well-formed table a modified member keeps its street, so the moving branch is never taken |
| Ulic.ModifyKeepsWellFormed | converters/teryt.py:822-855 | modifying keeps the table well formed, whether it completes or raises |
| Ulic.UpdateAllKeepsStreet | converters/teryt.py:878-879 | updating the members keeps their symbols unique and their street |
| Ulic.ChangeAllKeepsStreet | converters/teryt.py:874-883 | on a well-formed street the change keeps the identifier and the symbols in order |
| Ulic.ChangeAllInPlace | converters/teryt.py:874-884 | in a well-formed table the change stores the street back under the same identifier, so not deleting the old one loses nothing |
| Ulic.ChangeAllKeepsWellFormed | converters/teryt.py:874-884 | the change keeps the table well formed |
| Ulic.ApplyKeepsWellFormed | converters/teryt.py:886-891 | every handler keeps the table well formed, whether it completes or raises |
| Ulic.ReplayKeepsWellFormed | converters/teryt.py:635-647 | a whole delta keeps the table well formed, wherever it stops |
| Ulic.StreetFromList | converters/teryt.py:536-543 | a street built from a list of one street's members is a well-formed street |
| Ulic.Aggregates | converters/teryt.py:904 | each group becomes the street `from_list` builds from it, under the same key; succeeds exactly when every group builds |
| Ulic.Snapshot | converters/teryt.py:902-904 | the snapshot contents have each street identifier once |
| Ulic.SnapshotWellFormed | converters/teryt.py:902-904 | a snapshot whose rows all have a street identifier loads into a well-formed table |
| Ulic.AddExtendsOrCreates | converters/teryt.py:804-820 | adding extends the stored street (keeping its label and name) or creates a one-member street; exactly one key is added at most |
| Ulic.JoinExtendsOrCreates | converters/teryt.py:815-820 | in a well-formed table the member extends the stored street or creates a one-member street, adding at most its key |
| Ulic.RemoveDeletesEmpty | converters/teryt.py:857-872 | removing the last member deletes the street; otherwise the street keeps its other members under the same identifier |
| Ulic.MemberKeptUnderOldSymbol | converters/teryt.py:837-838 | a member whose locality symbol changes is updated but stays filed under its old symbol |
| Ulic.AddSucceeds | converters/teryt.py:804-820 | in a well-formed table an add record is applied exactly when its after half builds a member with a street identifier whose label and name can be read |
| Ulic.RemoveSucceeds | converters/teryt.py:857-872 | in a well-formed table a remove record is applied exactly when its before half names a member of a stored street |
| Ulic.ChangeSucceeds | converters/teryt.py:874-884 | in a well-formed table a change record is applied exactly when its before half names a stored street whose members all take the update |
| Ulic.AddSecondMember | converters/teryt.py:804-820 | adding a member of another locality to a one-member street gives a street of two members, each found under its locality symbol |
| Ulic.MoveMember | converters/teryt.py:839-852 | the moving branch of modification: a member without an identifier raises; otherwise, when it completes, the member ends up in the street of its new identifier; when the identifier changed, the old street loses the member and is deleted when left empty, otherwise stored with the rest; only the old and new streets change |
| Ulic.Target | converters/teryt.py:847-851 | the street the moved member joins carries its identifier and holds it under its locality symbol; a stored street keeps its other members (insert or replace), otherwise a one-member street is started |
| Sync.CacheVersion | converters/teryt.py:599-603 | after the deadline the service is asked and trusted for 3600 s; before it the stored answer is returned |
| Sync.ProbeTrustedForAnHour | converters/teryt.py:599-603 | within an hour of a probe the version does not change whatever the service says; a new cache object always asks |
| Sync.CacheUpdate | converters/teryt.py:635-647 | the update replays the delta on the stored table, never writes `meta`, and keeps the writes made before a failure |
| Sync.GetAsWritten | converters/teryt.py:590-597 | as written, `get` never writes `meta` and never adds or drops a table |
| Sync.ExpiredNeverServed | converters/teryt.py:590-597 | as written, once the first attempt finds the cache expired, `get` never returns a table |
| Sync.EmptyDeltaRecursesToLimit | converters/teryt.py:590-597 | as written, with an empty delta every retry succeeds and changes nothing, so `get` ends only at the recursion limit |
| Sync.GetSynced | converters/teryt.py:590-597 | as intended, `get` adds or drops no table and serves a table only while its cache is ready |
| Sync.ExpiredServedAfterUpdate | converters/teryt.py:590-597 | as intended, an expired cache whose delta replays completely is served after one update, holding the replayed table, and its stored version is the probed one |
| Sync.CreateFromSnapshot | converters/teryt.py:611-618 | the name `meta` is refused without writing; a completed creation leaves the cache ready at the probed version, an interrupted one leaves it `creating`; no other table changes |
| Sync.SnapshotServed | converters/teryt.py:611-618 | after `create_cache` completes, the table holds exactly the snapshot contents and is served up to the probed version; an interrupted creation leaves the cache not initialised |
| Sync.Contents | converters/teryt.py:620-621 | the snapshot contents have each key once |
| Sync.ContentsKeyed | converters/teryt.py:620-621 | each key holds an entry with that key |
| Sync.TercSnapshotKeyed | converters/teryt.py:620-621 | a loaded TERC snapshot stores every unit under its code |
| Sync.SimcSnapshotKeyed | converters/teryt.py:620-621 | a loaded SIMC snapshot whose localities all have a symbol stores every locality under it |

## Left out

- The DynamoDB driver (`DynamoCache`, `DynamoCacheDriver`). Only the shelve driver's table contract is modelled. Serialisation (JSON/protobuf) is treated as the identity.
- The `to_dict`/`from_dict` conversions of SIMC and ULIC entries. Their integer conversions are left out, except the consistency check of `UlicMultiEntry.to_dict` and the TERC `from_dict` finding.
- Streets.CheckConsistent: `cache.add` serialises a street, so the check runs on every ULIC write, but the handlers do not call it. On the tables the handlers can reach this changes nothing: `Ulic.WellFormed` includes consistency and `Ulic.ApplyKeepsWellFormed` preserves it.
- Simc.FromDict: the `rm` default is the integer `0` in the source; the model's fields are texts, so it is the text `"0"`.
- Terc.HandleD, Terc.HandleU, Terc.HandleM: these are modelled over the corrected `Terc.FromDict`. As written they call the failing `from_dict`, so every TERC add, remove or modify record raises and no TERC delta ever applies; `Terc.ApplyAsWritten` and `Terc.ReplayAsWrittenChangesNothing` state that behaviour.
- The SOAP client, base64/zip decoding and XML parsing of catalogues (`_get_dict`, `_row_as_dict`). A catalogue arrives as a sequence of entries, and a change record as its operation text plus its flattened elements. These are I/O.
- Date conversion between versions and `datetime.date`. Versions are integers throughout.
- Logging. The differing-label and differing-name messages of `add_entry` are not modelled, but reading the label and name, which can raise, is. The messages also read `miejscowosc`, which is left out with the other lookups into other caches.
- Lookups into other caches (`woj`, `powiat`, `gmi`, `miejscowosc`, `rm`, `teryt()`, `simc()`, `wmrodz()`) and the `solr_json` documents. Only the SIMC document's parent is modelled.
- The WMRODZ dictionary and `init()`.
- The serializer passed by `_get_cache` when the version is falsy (the SIMC serializer for every cache). Serialisation is not modelled.
- `ShelveCache.get` of a stored falsy value. Stored records are never falsy here.
- Tables.Lookup: a stored value that deserialises to something falsy is not returned as `None`.
- Sync.CacheVersion: `time.time()` is read twice in the source; the model reads one `now` per call.
- Sync.GetAsWritten: the interpreter's recursion limit is modelled by the `fuel` parameter. It ends the recursion with a `RecursionError` value. One `now` and one `remote` serve the whole recursion, so the clock and the service's answer are fixed across retries, where the source reads the clock again on each retry.
- StreetName.Label: case mapping covers ASCII and the Polish letters only. There is no full Unicode case folding.
- StreetName.Mapper: `casefold()` is modelled by the same ASCII-and-Polish lower-casing, so qualifier prefixes in other scripts are not recognised as Python would.
- StreetName.CleanStreetName: inherits the ASCII-and-Polish `casefold()` of `StreetName.Mapper`.
- `CacheManager.__init__` and `get_or_create`. The `meta` table is assumed to exist.
- A change record without a `TypKorekty` element. It is treated like an unknown operation (`None`), where Python raises `AttributeError` on `None.text`; both stop the replay.

## Findings

| source | as written | input that shows it | evidently intended | confidence | as-written member | corrected member |
|---|---|---|---|---|---|---|
| converters/tools.py:301-302 | `meta.get(name, {})` passes a falsy default, so `ShelveCache.get` returns `None` and `.get('version', -1)` raises | any name without a meta record | -1 for an unknown name | high, not executed | Manager.VersionAsWritten | Manager.Version |
| converters/teryt.py:231-239 | `TercEntry(**{...})` calls the one-argument constructor with six keyword arguments, so every TERC add, remove and modify record raises (`Terc.ApplyAsWritten`) | any dict with the six keys | a unit built from the dict | high, not executed | Terc.FromDictAsWritten | Terc.FromDict |
| converters/teryt.py:590-597 | after `_cache_update` nothing records the new version, so every retry finds the cache expired again and replays the delta again, until a replay raises or the recursion limit is reached; no table is ever served | a ready cache at version 1 when the service reports version 2 and an empty delta (each retry then succeeds and recurses until `RecursionError`) | record the probed version after a complete update, then serve | high, not executed | Sync.GetAsWritten | Sync.GetSynced |
| converters/tools.py:114-115 | `keys()` has no `return` | any non-empty table | return the stored keys | high, not executed | Tables.KeysAsWritten | Tables.StoredKeys |

=== FILE: base.dfy ===
/**
 * Shared vocabulary of the model: optional values, Python's `str | None`
 * text values and their truthiness, the exceptions the cache code raises,
 * and the two result shapes used everywhere (`Result` for computations
 * that either succeed or raise, `Outcome` for table mutations that may
 * raise after some writes already happened).
 */
module Base {

  datatype Option<+T> = None | Some(value: T) {
    function GetOr(default: T): T {
      match this
      case Some(v) => v
      case None => default
    }
  }

  /** A Python value of type `str | None`: `dict.get` of a missing key, or an
      XML element without text, is `None`. */
  type Text = Option<string>

  /** Python truthiness of a `str | None`: neither `None` nor `""`. */
  predicate Truthy(t: Text) {
    t.Some? && t.value != ""
  }

  /** `nvl(obj, substitute)`: the substitute replaces `None` only (an empty
      string stays empty). */
  function Nvl(t: Text, substitute: string): (r: string)
    ensures t.Some? ==> r == t.value
    ensures t.None? ==> r == substitute
  {
    match t
    case Some(s) => s
    case None => substitute
  }

  /** The exceptions the modelled code raises, by meaning. */
  datatype Error =
    | ForbiddenName(name: string)        // ValueError("Forbidden cache name: meta")
    | NotInitialized(name: string)       // CacheNotInitialized
    | Expired(name: string, stored: int, requested: int)  // CacheExpired
    | MissingKey                         // KeyError
    | NoneValue                          // TypeError / AttributeError raised by using None
    | ReadOnlyAttribute                  // AttributeError: assigning the getter-only `cecha`
    | UnboundMember                      // UnboundLocalError: loop variable of an empty loop
    | ModifyNonexistent                  // ValueError("Modification of non-existing record")
    | UnknownOperation(op: Text)         // ValueError("Unkown TypKorekty ...")
    | SymulMismatch                      // ValueError("Symul ... different than expected ...")
    | EmptyList                          // ValueError("At least one entry is needed")
    | Inconsistent                       // ValueError("Inconsistent object")
    | ConstructorSignature               // TypeError: unexpected keyword arguments
    | RecursionLimit                     // RecursionError: the interpreter's stack limit

  datatype Result<+T> = Ok(value: T) | Err(error: Error) {
    predicate IsFailure() {
      Err?
    }

    function PropagateFailure<U>(): Result<U>
      requires Err?
    {
      Err(error)
    }

    function Extract(): T
      requires Ok?
    {
      value
    }
  }

  /** The state reached by a sequence of writes, and the exception that
      interrupted it, if any. Writes made before the exception are kept:
      the stores have no rollback. */
  datatype Outcome<+S> = Done(state: S) | Halted(state: S, error: Error)

  /** An operation that raises before writing anything leaves `before`. */
  function Lift<S>(before: S, r: Result<S>): (o: Outcome<S>)
    ensures r.Ok? ==> o == Done(r.value)
    ensures r.Err? ==> o == Halted(before, r.error)
  {
    match r
    case Ok(after) => Done(after)
    case Err(e) => Halted(before, e)
  }

  /** Store keys must be strings: using `None` as a shelve key raises. */
  function KeyOf(t: Text): (r: Result<string>)
    ensures r.Ok? <==> t.Some?
    ensures r.Ok? ==> Some(r.value) == t
  {
    match t
    case Some(k) => Ok(k)
    case None => Err(NoneValue)
  }
}

=== FILE: delta.dfy ===
/**
 * The replay loop of `_cache_update`: the change records of a delta are
 * applied to the table one after the other, in document order; the first
 * exception stops the loop and the writes of the records before it (and
 * those the failing handler made before raising) stay in the table.
 */
module Delta {
  import opened Base
  import opened Records

  /** Apply `changes` in order with the per-record step `apply`. */
  function Replay<S>(apply: (S, Change) -> Outcome<S>, s: S, changes: seq<Change>): (o: Outcome<S>)
    ensures |changes| == 0 ==> o == Done(s)
  {
    if |changes| == 0 then Done(s)
    else
      match Replay(apply, s, changes[..|changes| - 1])
      case Halted(partial, e) => Halted(partial, e)
      case Done(before) => apply(before, changes[|changes| - 1])
  }

  /** Replaying `a + b` is replaying `a`, then `b` from where `a` left off;
      a failure in `a` means `b` is never looked at. */
  lemma {:induction false} ReplayAppend<S>(apply: (S, Change) -> Outcome<S>, s: S, a: seq<Change>, b: seq<Change>)
    ensures Replay(apply, s, a + b) ==
      match Replay(apply, s, a)
      case Done(s') => Replay(apply, s', b)
      case Halted(p, e) => Halted(p, e)
    decreases |b|
  {
    if |b| == 0 {
      assert a + b == a;
    } else {
      var b' := b[..|b| - 1];
      assert (a + b)[..|a + b| - 1] == a + b';
      assert (a + b)[|a + b| - 1] == b[|b| - 1];
      ReplayAppend(apply, s, a, b');
    }
  }

  /** Replaying a single record is applying it. */
  lemma ReplayOne<S>(apply: (S, Change) -> Outcome<S>, s: S, c: Change)
    ensures Replay(apply, s, [c]) == apply(s, c)
  {
    assert [c][..0] == [];
  }

  /** A property every step keeps, on success and on failure alike, holds
      of whatever state a replay leaves. */
  lemma {:induction false} ReplayKeeps<S>(apply: (S, Change) -> Outcome<S>, inv: S -> bool, s: S, changes: seq<Change>)
    requires inv(s)
    requires forall x, c :: inv(x) ==> inv(apply(x, c).state)
    ensures inv(Replay(apply, s, changes).state)
  {
    if |changes| != 0 {
      ReplayKeeps(apply, inv, s, changes[..|changes| - 1]);
    }
  }

  /** A replay that failed on a prefix is the final outcome: the records
      after the failing one are not applied. */
  lemma StopsAtFirstFailure<S>(apply: (S, Change) -> Outcome<S>, s: S, a: seq<Change>, b: seq<Change>)
    requires Replay(apply, s, a).Halted?
    ensures Replay(apply, s, a + b) == Replay(apply, s, a)
  {
    ReplayAppend(apply, s, a, b);
  }
}

=== FILE: dicts.dfy ===
/**
 * Python's built-in `dict`: an insertion-ordered association list.
 * Assigning to a present key replaces its value in place; assigning to an
 * absent key appends; `del` of an absent key raises `KeyError`;
 * `dict(pairs)` assigns the pairs left to right, so the last pair for a
 * key wins and keys appear in order of first occurrence.
 */
module Dicts {
  import opened Base

  type Dict<K, V> = seq<(K, V)>

  function Keys<K, V>(d: Dict<K, V>): (ks: seq<K>)
    ensures |ks| == |d|
    ensures forall i :: 0 <= i < |d| ==> ks[i] == d[i].0
  {
    if |d| == 0 then [] else [d[0].0] + Keys(d[1..])
  }

  /** No key occurs twice; every dict built by the operations below has it. */
  predicate UniqueKeys<K(==), V(==)>(d: Dict<K, V>) {
    forall i, j :: 0 <= i < j < |d| ==> d[i].0 != d[j].0
  }

  /** `d.get(k)`: the value of the first pair with key `k`. */
  function Get<K(==), V(==)>(d: Dict<K, V>, k: K): (r: Option<V>)
    ensures r.Some? <==> k in Keys(d)
    ensures r.Some? ==> (k, r.value) in d
  {
    if |d| == 0 then None
    else if d[0].0 == k then Some(d[0].1)
    else Get(d[1..], k)
  }

  /** `d[k] = v`. */
  function Put<K(==), V(==)>(d: Dict<K, V>, k: K, v: V): (r: Dict<K, V>)
    ensures |r| == if k in Keys(d) then |d| else |d| + 1
  {
    if |d| == 0 then [(k, v)]
    else if d[0].0 == k then [(k, v)] + d[1..]
    else [d[0]] + Put(d[1..], k, v)
  }

  /** `del d[k]`; raises `KeyError` when `k` is absent. */
  function Del<K(==), V(==)>(d: Dict<K, V>, k: K): (r: Result<Dict<K, V>>)
    ensures r.Ok? <==> k in Keys(d)
    ensures r.Ok? ==> |r.value| == |d| - 1
    ensures r.Err? ==> r.error == MissingKey
  {
    if |d| == 0 then Err(MissingKey)
    else if d[0].0 == k then Ok(d[1..])
    else match Del(d[1..], k)
      case Ok(rest) => Ok([d[0]] + rest)
      case Err(e) => Err(e)
  }

  /** `dict(pairs)`: assign the pairs left to right. */
  function FromPairs<K(==), V(==)>(ps: seq<(K, V)>): Dict<K, V>
  {
    if |ps| == 0 then [] else Put(FromPairs(ps[..|ps| - 1]), ps[|ps| - 1].0, ps[|ps| - 1].1)
  }

  /** Reference meaning of a sequence of assignments: the value of the last
      pair with key `k`. */
  function LastValue<K(==), V(==)>(ps: seq<(K, V)>, k: K): Option<V>
  {
    if |ps| == 0 then None
    else if ps[|ps| - 1].0 == k then Some(ps[|ps| - 1].1)
    else LastValue(ps[..|ps| - 1], k)
  }

  lemma {:induction false} GetPut<K, V>(d: Dict<K, V>, k: K, v: V, k': K)
    ensures Get(Put(d, k, v), k') == if k' == k then Some(v) else Get(d, k')
  {
    if |d| != 0 && d[0].0 != k {
      GetPut(d[1..], k, v, k');
    }
  }

  lemma {:induction false} KeysPut<K, V>(d: Dict<K, V>, k: K, v: V)
    ensures k in Keys(d) ==> Keys(Put(d, k, v)) == Keys(d)
    ensures k !in Keys(d) ==> Keys(Put(d, k, v)) == Keys(d) + [k]
  {
    if |d| != 0 && d[0].0 != k {
      KeysPut(d[1..], k, v);
      assert Keys(Put(d, k, v)) == [d[0].0] + Keys(Put(d[1..], k, v));
      assert Keys(d) == [d[0].0] + Keys(d[1..]);
    }
  }

  /** Every pair of `Put(d, k, v)` is the new pair or an old one. */
  lemma {:induction false} PutPairs<K, V>(d: Dict<K, V>, k: K, v: V)
    ensures forall p :: p in Put(d, k, v) ==> p == (k, v) || p in d
    ensures (k, v) in Put(d, k, v)
  {
    if |d| != 0 && d[0].0 != k {
      PutPairs(d[1..], k, v);
    }
  }

  lemma {:induction false} PutUnique<K, V>(d: Dict<K, V>, k: K, v: V)
    requires UniqueKeys(d)
    ensures UniqueKeys(Put(d, k, v))
  {
    KeysPut(d, k, v);
    var r := Put(d, k, v);
    var kd, kr := Keys(d), Keys(r);
    forall i, j | 0 <= i < j < |r|
      ensures r[i].0 != r[j].0
    {
      assert kr[i] == r[i].0 && kr[j] == r[j].0;
      if k in kd {
        assert kd[i] == d[i].0 && kd[j] == d[j].0;
      } else if j < |d| {
        assert kd[i] == d[i].0 && kd[j] == d[j].0;
      } else {
        assert kr[j] == k && kr[i] == kd[i];
      }
    }
  }

  /** `Del` only drops pairs. */
  lemma {:induction false} DelSub<K, V>(d: Dict<K, V>, k: K)
    requires Del(d, k).Ok?
    ensures forall p :: p in Del(d, k).value ==> p in d
  {
    if d[0].0 != k {
      DelSub(d[1..], k);
      assert Del(d, k).value == [d[0]] + Del(d[1..], k).value;
    }
  }

  /** `Del` keeps every pair with another key. */
  lemma {:induction false} DelKeeps<K, V>(d: Dict<K, V>, k: K)
    requires Del(d, k).Ok?
    ensures forall p :: p in d && p.0 != k ==> p in Del(d, k).value
  {
    if d[0].0 != k {
      DelKeeps(d[1..], k);
      assert Del(d, k).value == [d[0]] + Del(d[1..], k).value;
      forall p | p in d && p.0 != k ensures p in Del(d, k).value {
        if p != d[0] {
          var i :| 0 <= i < |d| && d[i] == p;
          assert d[1..][i - 1] == p;
        }
      }
    } else {
      forall p | p in d && p.0 != k ensures p in Del(d, k).value {
        var i :| 0 <= i < |d| && d[i] == p;
        assert d[1..][i - 1] == p;
      }
    }
  }

  lemma TailUnique<K, V>(d: Dict<K, V>)
    requires |d| > 0 && UniqueKeys(d)
    ensures UniqueKeys(d[1..])
    ensures forall p :: p in d[1..] ==> p.0 != d[0].0
  {
    forall i, j | 0 <= i < j < |d[1..]| ensures d[1..][i].0 != d[1..][j].0 {
      assert d[1..][i] == d[i + 1] && d[1..][j] == d[j + 1];
    }
    forall p | p in d[1..] ensures p.0 != d[0].0 {
      var i :| 0 <= i < |d[1..]| && d[1..][i] == p;
      assert d[i + 1] == p;
    }
  }

  /** Under unique keys, `Del` removes exactly the pair of `k`. */
  lemma {:induction false} DelPairs<K, V>(d: Dict<K, V>, k: K)
    requires UniqueKeys(d)
    requires k in Keys(d)
    ensures Del(d, k).Ok?
    ensures forall p :: p in Del(d, k).value <==> p in d && p.0 != k
    ensures UniqueKeys(Del(d, k).value)
  {
    DelSub(d, k);
    DelKeeps(d, k);
    TailUnique(d);
    if d[0].0 != k {
      DelPairs(d[1..], k);
      var rest := Del(d[1..], k).value;
      var r := [d[0]] + rest;
      assert Del(d, k).value == r;
      forall i, j | 0 <= i < j < |r| ensures r[i].0 != r[j].0 {
        if i == 0 {
          assert r[j] == rest[j - 1];
          assert rest[j - 1] in rest;
        } else {
          assert r[i] == rest[i - 1] && r[j] == rest[j - 1];
        }
      }
    }
  }

  /** A key none of whose pairs is in the dict is not found. */
  lemma NotFound<K, V>(d: Dict<K, V>, k: K)
    requires forall i :: 0 <= i < |d| ==> d[i].0 != k
    ensures Get(d, k) == None
  {
  }

  lemma DelMissesKey<K, V>(d: Dict<K, V>, k: K)
    requires UniqueKeys(d)
    requires k in Keys(d)
    ensures Del(d, k).Ok?
    ensures Get(Del(d, k).value, k) == None
  {
    DelPairs(d, k);
    var r := Del(d, k).value;
    forall i | 0 <= i < |r| ensures r[i].0 != k {
      assert r[i] in r;
    }
    NotFound(r, k);
  }

  lemma {:induction false} DelKeepsOther<K, V>(d: Dict<K, V>, k: K, k': K)
    requires k in Keys(d)
    requires k' != k
    ensures Del(d, k).Ok?
    ensures Get(Del(d, k).value, k') == Get(d, k')
  {
    if d[0].0 != k {
      DelKeepsOther(d[1..], k, k');
      assert Del(d, k).value == [d[0]] + Del(d[1..], k).value;
    }
  }

  /** Under unique keys, looking up after `Del` misses `k` and sees every
      other key unchanged. */
  lemma GetDel<K, V>(d: Dict<K, V>, k: K, k': K)
    requires UniqueKeys(d)
    requires k in Keys(d)
    ensures Del(d, k).Ok?
    ensures Get(Del(d, k).value, k') == if k' == k then None else Get(d, k')
  {
    if k' == k {
      DelMissesKey(d, k);
    } else {
      DelKeepsOther(d, k, k');
    }
  }

  /** Under unique keys, a pair of the dict is what `Get` finds. */
  lemma {:induction false} UniqueGet<K, V>(d: Dict<K, V>, k: K, v: V)
    requires UniqueKeys(d)
    requires (k, v) in d
    ensures Get(d, k) == Some(v)
  {
    if d[0] != (k, v) {
      assert d[0].0 != k by {
        var i :| 0 <= i < |d| && d[i] == (k, v);
      }
      assert UniqueKeys(d[1..]) by {
        forall i, j | 0 <= i < j < |d[1..]| ensures d[1..][i].0 != d[1..][j].0 {
          assert d[1..][i] == d[i + 1] && d[1..][j] == d[j + 1];
        }
      }
      UniqueGet(d[1..], k, v);
    }
  }

  /** `dict(pairs)` keeps, for each key, the value of its last pair. */
  lemma {:induction false} GetFromPairs<K, V>(ps: seq<(K, V)>, k: K)
    ensures Get(FromPairs(ps), k) == LastValue(ps, k)
  {
    if |ps| != 0 {
      var last := ps[|ps| - 1];
      GetFromPairs(ps[..|ps| - 1], k);
      GetPut(FromPairs(ps[..|ps| - 1]), last.0, last.1, k);
    }
  }

  lemma {:induction false} FromPairsUnique<K, V>(ps: seq<(K, V)>)
    ensures UniqueKeys(FromPairs(ps))
  {
    if |ps| != 0 {
      FromPairsUnique(ps[..|ps| - 1]);
      PutUnique(FromPairs(ps[..|ps| - 1]), ps[|ps| - 1].0, ps[|ps| - 1].1);
    }
  }

  /** Every pair of `dict(pairs)` is one of the given pairs. */
  lemma {:induction false} FromPairsPairs<K, V>(ps: seq<(K, V)>)
    ensures forall p :: p in FromPairs(ps) ==> p in ps
  {
    if |ps| != 0 {
      var init := ps[..|ps| - 1];
      FromPairsPairs(init);
      PutPairs(FromPairs(init), ps[|ps| - 1].0, ps[|ps| - 1].1);
      forall p | p in FromPairs(ps) ensures p in ps {
        if p in FromPairs(init) {
          assert p in init;
          var i :| 0 <= i < |init| && init[i] == p;
          assert ps[i] == p;
        }
      }
    }
  }

  /** Under unique keys the last pair of a key is its only pair. */
  lemma {:induction false} UniqueLastValue<K, V>(d: Dict<K, V>, k: K)
    requires UniqueKeys(d)
    ensures LastValue(d, k) == Get(d, k)
  {
    if |d| != 0 {
      var init := d[..|d| - 1];
      var last := d[|d| - 1];
      assert UniqueKeys(init) by {
        forall i, j | 0 <= i < j < |init| ensures init[i].0 != init[j].0 {
          assert init[i] == d[i] && init[j] == d[j];
        }
      }
      UniqueLastValue(init, k);
      assert d == init + [last];
      GetAppend(init, last, k);
      if last.0 == k {
        forall i | 0 <= i < |init| ensures Keys(init)[i] != k {
          assert init[i] == d[i];
        }
      }
    }
  }

  lemma {:induction false} GetAppend<K, V>(d: Dict<K, V>, p: (K, V), k: K)
    ensures Get(d + [p], k) == if Get(d, k).Some? then Get(d, k) else if p.0 == k then Some(p.1) else None
  {
    if |d| != 0 {
      assert (d + [p])[1..] == d[1..] + [p];
      GetAppend(d[1..], p, k);
    }
  }
}

=== FILE: grouping.dfy ===
/**
 * `groupby(lst, keyfunc, valuefunc)`: a `defaultdict(list)` to which every
 * element's value is appended under its key, in input order.
 */
module Grouping {
  import opened Base
  import opened Dicts

  /** `rv[k].append(u)` on a `defaultdict(list)`: an absent key first gets
      an empty list, at the end of the dict. */
  function Append<K(==), U(==)>(d: Dict<K, seq<U>>, k: K, u: U): Dict<K, seq<U>> {
    Put(d, k, Get(d, k).GetOr([]) + [u])
  }

  /** `groupby(xs, key, val)`: a group only appears when an element is
      appended to it, so there are no empty groups and no more groups than
      elements. */
  function GroupBy<T, K(==), U(==)>(xs: seq<T>, key: T -> K, val: T -> U): (r: Dict<K, seq<U>>)
    ensures |r| <= |xs|
    ensures forall p :: p in r ==> p.1 != []
  {
    if |xs| == 0 then []
    else
      var g := GroupBy(xs[..|xs| - 1], key, val);
      var k := key(xs[|xs| - 1]);
      PutPairs(g, k, Get(g, k).GetOr([]) + [val(xs[|xs| - 1])]);
      Append(g, k, val(xs[|xs| - 1]))
  }

  /** Reference meaning of one group: the values of the elements with key
      `k`, in input order. */
  function Select<T, K(==), U>(xs: seq<T>, key: T -> K, val: T -> U, k: K): seq<U> {
    if |xs| == 0 then []
    else Select(xs[..|xs| - 1], key, val, k) + (if key(xs[|xs| - 1]) == k then [val(xs[|xs| - 1])] else [])
  }

  /** The group of `k` is exactly `Select(xs, key, val, k)`, and a key has a
      group only when some element has that key. */
  lemma {:induction false} GroupByGet<T, K, U>(xs: seq<T>, key: T -> K, val: T -> U, k: K)
    ensures Get(GroupBy(xs, key, val), k) == if Select(xs, key, val, k) == [] then None else Some(Select(xs, key, val, k))
  {
    if |xs| != 0 {
      var init := xs[..|xs| - 1];
      var last := xs[|xs| - 1];
      var g := GroupBy(init, key, val);
      var s := Select(init, key, val, k);
      var grown := Get(g, key(last)).GetOr([]) + [val(last)];
      assert GroupBy(xs, key, val) == Put(g, key(last), grown);
      GroupByGet(init, key, val, k);
      GetPut(g, key(last), grown, k);
      if key(last) == k {
        assert Select(xs, key, val, k) == s + [val(last)];
        assert Get(g, k).GetOr([]) == s;
        assert Get(GroupBy(xs, key, val), k) == Some(s + [val(last)]);
        assert Select(xs, key, val, k) != [];
      } else {
        assert Select(xs, key, val, k) == s;
        assert Get(GroupBy(xs, key, val), k) == Get(g, k);
      }
    }
  }

  lemma {:induction false} GroupByUnique<T, K, U>(xs: seq<T>, key: T -> K, val: T -> U)
    ensures UniqueKeys(GroupBy(xs, key, val))
  {
    if |xs| != 0 {
      var init := xs[..|xs| - 1];
      GroupByUnique(init, key, val);
      var g := GroupBy(init, key, val);
      PutUnique(g, key(xs[|xs| - 1]), Get(g, key(xs[|xs| - 1])).GetOr([]) + [val(xs[|xs| - 1])]);
    }
  }

  /** Every element lands in the group of its key. */
  lemma {:induction false} SelectHas<T, K, U>(xs: seq<T>, key: T -> K, val: T -> U, i: nat)
    requires i < |xs|
    ensures val(xs[i]) in Select(xs, key, val, key(xs[i]))
  {
    if i < |xs| - 1 {
      assert xs[..|xs| - 1][i] == xs[i];
      SelectHas(xs[..|xs| - 1], key, val, i);
    }
  }

  /** A key no element has gets no group. */
  lemma {:induction false} SelectNone<T, K, U>(xs: seq<T>, key: T -> K, val: T -> U, k: K)
    requires forall i :: 0 <= i < |xs| ==> key(xs[i]) != k
    ensures Select(xs, key, val, k) == []
  {
    if |xs| != 0 {
      assert forall i :: 0 <= i < |xs| - 1 ==> xs[..|xs| - 1][i] == xs[i];
      SelectNone(xs[..|xs| - 1], key, val, k);
    }
  }

  /** With the identity as `valuefunc`, every member of a group has the
      group's key. */
  lemma {:induction false} SelectKeyed<T, K>(xs: seq<T>, key: T -> K, val: T -> T, k: K)
    requires forall x :: val(x) == x
    ensures forall u :: u in Select(xs, key, val, k) ==> key(u) == k
  {
    if |xs| != 0 {
      SelectKeyed(xs[..|xs| - 1], key, val, k);
    }
  }

  /** The groups partition the input: each element's key has a group
      holding it, and no group exists for a key no element has. */
  lemma GroupsPartition<T, K, U>(xs: seq<T>, key: T -> K, val: T -> U, k: K)
    ensures forall i :: 0 <= i < |xs| && key(xs[i]) == k ==>
      Get(GroupBy(xs, key, val), k).Some? && val(xs[i]) in Get(GroupBy(xs, key, val), k).value
    ensures (forall i :: 0 <= i < |xs| ==> key(xs[i]) != k) ==> Get(GroupBy(xs, key, val), k) == None
  {
    GroupByGet(xs, key, val, k);
    forall i | 0 <= i < |xs| && key(xs[i]) == k
      ensures val(xs[i]) in Select(xs, key, val, k)
    {
      SelectHas(xs, key, val, i);
    }
    if forall i :: 0 <= i < |xs| ==> key(xs[i]) != k {
      SelectNone(xs, key, val, k);
    }
  }
}

=== FILE: manager.dfy ===
/**
 * The cache manager: a registry of named tables plus the reserved `meta`
 * table holding, per cache name, its status, version and last update time.
 * A cache is visible to readers only once its status is `ready`;
 * `create_cache` (status `creating`, empty table) and `mark_ready` (status
 * `ready`, version, time) are the only transitions.
 */
module Manager {
  import opened Base
  import opened Tables

  const META: string := "meta"

  datatype Status = Creating | Ready

  /** One record of the `meta` table. `version` is `None` until `mark_ready`
      writes it; `updated` is seconds since the epoch. */
  datatype MetaRecord = MetaRecord(status: Status, version: Option<int>, updated: real)

  /** The driver's tables: the `meta` table, kept apart, and every other
      named table. */
  datatype Store<V> = Store(meta: Table<MetaRecord>, tables: map<string, Table<V>>)

  /** The name `meta` never names a data table: the meta records live in
      the driver's table of that name. */
  predicate MetaReserved<V>(s: Store<V>) {
    META !in s.tables
  }

  /** Python truthiness of the optional requested version: `None` and `0`
      skip the version check. */
  predicate Requested(version: Option<int>) {
    version.Some? && version.value != 0
  }

  /** `ShelveCacheDriver.get_table`: opening a table that was never created
      raises `CacheNotInitialized`. */
  function GetTable<V>(s: Store<V>, name: string): (r: Result<Table<V>>)
    ensures r.Ok? <==> name in s.tables
    ensures r.Ok? ==> r.value == s.tables[name]
    ensures r.Err? ==> r.error == NotInitialized(name)
  {
    if name in s.tables then Ok(s.tables[name]) else Err(NotInitialized(name))
  }

  /** `CacheManager.get_cache(name, version)`. */
  function GetCache<V>(s: Store<V>, name: string, version: Option<int>): (r: Result<Table<V>>)
    ensures name == META ==> r == Err(ForbiddenName(name))
    ensures name != META && (name !in s.meta || s.meta[name].status != Ready) ==> r == Err(NotInitialized(name))
    ensures r.Ok? ==> name in s.meta && s.meta[name].status == Ready && GetTable(s, name) == r
    ensures r.Ok? && Requested(version) ==>
      s.meta[name].version.Some? && s.meta[name].version.value >= version.value
    ensures r.Err? && r.error.Expired? ==>
      name in s.meta && Requested(version) && s.meta[name].version == Some(r.error.stored)
      && r.error.stored < version.value && r.error.requested == version.value
  {
    if name == META then Err(ForbiddenName(name))
    else if name !in s.meta then Err(NotInitialized(name))
    else
      var m := s.meta[name];
      if m.status != Ready then Err(NotInitialized(name))
      else if !Requested(version) then GetTable(s, name)
      else if m.version.None? then Err(MissingKey)
      else if m.version.value >= version.value then GetTable(s, name)
      else Err(Expired(name, m.version.value, version.value))
  }

  /** `CacheManager.create_cache(name)`: records `{status: creating,
      updated: 0}` (any version is dropped) and opens a new, empty table. */
  function CreateCache<V>(s: Store<V>, name: string): (r: Result<Store<V>>)
    ensures name == META <==> r.Err?
    ensures r.Err? ==> r.error == ForbiddenName(name)
    ensures r.Ok? ==> r.value.meta == s.meta[name := MetaRecord(Creating, None, 0.0)]
    ensures r.Ok? ==> name in r.value.tables && r.value.tables[name] == Fresh()
    ensures r.Ok? ==> forall n :: n != name ==> GetTable(r.value, n) == GetTable(s, n)
  {
    if name == META then Err(ForbiddenName(name))
    else Ok(Store(s.meta[name := MetaRecord(Creating, None, 0.0)], s.tables[name := Fresh()]))
  }

  /** `CacheManager.mark_ready(name, version)`: fails on a name without a
      meta record (`None['status'] = ...`), otherwise sets status `ready`,
      the version and the time. The tables are not touched. */
  function MarkReady<V>(s: Store<V>, name: string, version: int, now: real): (r: Result<Store<V>>)
    ensures r.Ok? <==> name in s.meta
    ensures r.Err? ==> r.error == NoneValue
    ensures r.Ok? ==> r.value.tables == s.tables
    ensures r.Ok? ==> r.value.meta == s.meta[name := MetaRecord(Ready, Some(version), now)]
  {
    if name !in s.meta then Err(NoneValue)
    else Ok(s.(meta := s.meta[name := MetaRecord(Ready, Some(version), now)]))
  }

  /** `CacheManager.version(name)` as written: `meta.get(name, {})` passes a
      falsy default, so `ShelveCache.get` returns `None` for an unknown name
      and `.get('version', -1)` then raises. */
  function VersionAsWritten<V>(s: Store<V>, name: string): (r: Result<int>)
    ensures r.Err? <==> name !in s.meta
  {
    match Lookup(s.meta, name, None)
    case None => Err(NoneValue)
    case Some(m) => Ok(m.version.GetOr(-1))
  }

  /** `CacheManager.version(name)` as intended: the stored version, or -1
      when the name or its version is unknown. Total. */
  function Version<V>(s: Store<V>, name: string): (r: int)
    ensures name in s.meta && s.meta[name].version.Some? ==> r == s.meta[name].version.value
    ensures name !in s.meta || s.meta[name].version.None? ==> r == -1
  {
    if name in s.meta then s.meta[name].version.GetOr(-1) else -1
  }

  /** The two agree on every known name; on an unknown name the code as
      written raises where -1 is meant. */
  lemma VersionAsWrittenDiffers<V>(s: Store<V>, name: string)
    ensures name in s.meta ==> VersionAsWritten(s, name) == Ok(Version(s, name))
    ensures name !in s.meta ==> VersionAsWritten(s, name).Err? && Version(s, name) == -1
  {
  }

  /** `get_cache` answers from `meta` alone, except that a successful
      answer is the table itself: stores with equal meta records fail or
      succeed alike. */
  lemma GetCacheDependsOnMeta<V>(s: Store<V>, s': Store<V>, name: string, version: Option<int>)
    requires s.meta == s'.meta
    requires name in s.tables <==> name in s'.tables
    ensures GetCache(s, name, version).Err? <==> GetCache(s', name, version).Err?
    ensures GetCache(s, name, version).Err? ==> GetCache(s, name, version) == GetCache(s', name, version)
  {
  }

  /** Both transitions keep `meta` out of the data tables. */
  lemma TransitionsKeepMetaReserved<V>(s: Store<V>, name: string, version: int, now: real)
    requires MetaReserved(s)
    ensures CreateCache(s, name).Ok? ==> MetaReserved(CreateCache(s, name).value)
    ensures MarkReady(s, name, version, now).Ok? ==> MetaReserved(MarkReady(s, name, version, now).value)
  {
  }

  /** Right after `create_cache` the cache is invisible: every `get_cache`
      raises `CacheNotInitialized`, `version` is -1 and the table is empty. */
  lemma CreatedIsNotReady<V>(s: Store<V>, name: string, version: Option<int>)
    requires CreateCache(s, name).Ok?
    ensures GetCache(CreateCache(s, name).value, name, version) == Err(NotInitialized(name))
    ensures Version(CreateCache(s, name).value, name) == -1
    ensures CreateCache(s, name).value.tables[name] == map[]
  {
  }

  /** After `mark_ready(name, v)`, `get_cache(name, w)` returns the table for
      every `w <= v` (and for no requested version at all), and raises
      `CacheExpired` for every non-zero `w > v`. */
  lemma ReadyServesUpToVersion<V>(s: Store<V>, name: string, v: int, now: real, w: Option<int>)
    requires name != META && name in s.tables
    requires MarkReady(s, name, v, now).Ok?
    ensures !Requested(w) || w.value <= v ==>
      GetCache(MarkReady(s, name, v, now).value, name, w) == Ok(s.tables[name])
    ensures Requested(w) && w.value > v ==>
      GetCache(MarkReady(s, name, v, now).value, name, w) == Err(Expired(name, v, w.value))
    ensures Version(MarkReady(s, name, v, now).value, name) == v
  {
  }
}

=== FILE: records.dfy ===
/**
 * The field dictionaries the TERYT records are built from. A catalogue row
 * and either half of a change record both become a `dict` from lower-case
 * field names to element texts; a text is `None` when the XML element has
 * none. `update_record_to_dict` selects one half of a change record by the
 * suffix of the element tags (`Przed` = before, `Po` = after).
 */
module Records {
  import opened Base
  import opened Dicts
  import opened Strings

  /** A field dictionary, in insertion order. */
  type Record = Dict<string, Text>

  /** One XML element of a change record, flattened: its tag and its text. */
  datatype Elem = Elem(tag: string, text: Text)

  /** One `<zmiana>` of a delta: the text of its `TypKorekty` element (`None`
      when it has none) and every element below it. */
  datatype Change = Change(op: Text, elems: seq<Elem>)

  /** `dct.get(key)`: `None` for a missing key. */
  function Field(d: Record, k: string): (r: Text)
    ensures Get(d, k).None? ==> r == None
    ensures Get(d, k).Some? ==> r == Get(d, k).value
  {
    match Get(d, k)
    case Some(t) => t
    case None => None
  }

  /** `dct[key]`: `KeyError` for a missing key. */
  function Index(d: Record, k: string): (r: Result<Text>)
    ensures r.Ok? <==> k in Keys(d)
    ensures r.Ok? ==> r.value == Field(d, k)
    ensures r.Err? ==> r.error == MissingKey
  {
    match Get(d, k)
    case Some(t) => Ok(t)
    case None => Err(MissingKey)
  }

  /** `a + b + c + d` on `str | None` values: `TypeError` as soon as one of
      them is `None`. */
  function Concat4(a: Text, b: Text, c: Text, d: Text): (r: Result<string>)
    ensures r.Ok? <==> a.Some? && b.Some? && c.Some? && d.Some?
    ensures r.Err? ==> r.error == NoneValue
    ensures r.Ok? ==> |r.value| == |a.value| + |b.value| + |c.value| + |d.value|
    ensures r.Ok? ==> r.value[..|a.value|] == a.value
  {
    if a.None? || b.None? || c.None? || d.None? then Err(NoneValue)
    else Ok(a.value + b.value + c.value + d.value)
  }

  /** `if new_val: setattr(self, attr, new_val)`: only a truthy new value
      replaces the current one. */
  function Overlay(current: Text, given: Text): (r: Text)
    ensures Truthy(given) ==> r == given
    ensures !Truthy(given) ==> r == current
  {
    if Truthy(given) then given else current
  }

  /** The key an element contributes: its tag, lower-cased, without the
      suffix (`tag.lower()[:-len(suffix)]`, which is empty for an empty
      suffix). */
  function TagKey(tag: string, suffix: string): (r: string)
    requires |suffix| <= |tag|
    ensures |suffix| > 0 ==> |r| == |tag| - |suffix|
    ensures |suffix| == 0 ==> r == ""
  {
    if |suffix| == 0 then "" else Lower(tag)[..|tag| - |suffix|]
  }

  predicate Matches(e: Elem, suffix: string) {
    EndsWith(e.tag, suffix)
  }

  /** The `(key, text)` pairs of the elements whose tag ends with `suffix`
      (case-sensitively), in document order. */
  function Matching(elems: seq<Elem>, suffix: string): (ps: seq<(string, Text)>)
    ensures |ps| <= |elems|
  {
    if |elems| == 0 then []
    else
      var e := elems[|elems| - 1];
      Matching(elems[..|elems| - 1], suffix) + (if Matches(e, suffix) then [(TagKey(e.tag, suffix), e.text)] else [])
  }

  /** `update_record_to_dict(obj, suffix)`. */
  function UpdateRecordToDict(elems: seq<Elem>, suffix: string): (r: Record)
    ensures UniqueKeys(r)
  {
    FromPairsUnique(Matching(elems, suffix));
    FromPairs(Matching(elems, suffix))
  }

  /** Reference meaning of one key: the text of the last element whose tag
      ends with `suffix` and yields key `k`; `None` when there is none. */
  function LastMatch(elems: seq<Elem>, suffix: string, k: string): Option<Text> {
    if |elems| == 0 then None
    else
      var e := elems[|elems| - 1];
      if Matches(e, suffix) && TagKey(e.tag, suffix) == k then Some(e.text)
      else LastMatch(elems[..|elems| - 1], suffix, k)
  }

  lemma {:induction false} MatchingLast(elems: seq<Elem>, suffix: string, k: string)
    ensures LastValue(Matching(elems, suffix), k) == LastMatch(elems, suffix, k)
  {
    if |elems| != 0 {
      var init := elems[..|elems| - 1];
      var e := elems[|elems| - 1];
      MatchingLast(init, suffix, k);
      if Matches(e, suffix) {
        var ps := Matching(elems, suffix);
        assert ps == Matching(init, suffix) + [(TagKey(e.tag, suffix), e.text)];
        assert ps[..|ps| - 1] == Matching(init, suffix);
      } else {
        assert Matching(elems, suffix) == Matching(init, suffix);
      }
    }
  }

  /** Each key of the selected half holds the text of the last element
      yielding that key; keys no element yields are absent. */
  lemma UpdateRecordLookup(elems: seq<Elem>, suffix: string, k: string)
    ensures Get(UpdateRecordToDict(elems, suffix), k) == LastMatch(elems, suffix, k)
  {
    GetFromPairs(Matching(elems, suffix), k);
    MatchingLast(elems, suffix, k);
  }

  /** Elements of the other half do not contribute. */
  lemma OtherHalfIgnored(elems: seq<Elem>, e: Elem, suffix: string)
    requires !Matches(e, suffix)
    ensures UpdateRecordToDict(elems + [e], suffix) == UpdateRecordToDict(elems, suffix)
  {
    assert (elems + [e])[..|elems|] == elems;
    assert Matching(elems + [e], suffix) == Matching(elems, suffix);
  }

  /** A `Modify` record carrying the before-key and the new name: the after
      half holds only the name. */
  lemma AfterHalfExample()
    ensures UpdateRecordToDict([Elem("WojPrzed", Some("02")), Elem("NazwaPo", Some("Nowy"))], "Po")
      == [("nazwa", Some("Nowy"))]
    ensures UpdateRecordToDict([Elem("WojPrzed", Some("02")), Elem("NazwaPo", Some("Nowy"))], "Przed")
      == [("woj", Some("02"))]
  {
    var elems := [Elem("WojPrzed", Some("02")), Elem("NazwaPo", Some("Nowy"))];
    assert elems[..1] == [Elem("WojPrzed", Some("02"))];
    assert Lower("NazwaPo") == "nazwapo";
    assert Lower("WojPrzed") == "wojprzed";
    assert !EndsWith("WojPrzed", "Po");
    assert !EndsWith("NazwaPo", "Przed");
    assert EndsWith("NazwaPo", "Po") && TagKey("NazwaPo", "Po") == "nazwa";
    assert EndsWith("WojPrzed", "Przed") && TagKey("WojPrzed", "Przed") == "woj";
    assert Matching(elems[..1], "Po") == [];
    assert Matching(elems, "Po") == [("nazwa", Some("Nowy"))];
    assert Matching(elems, "Przed") == [("woj", Some("02"))];
  }
}

=== FILE: simc.dfy ===
/**
 * SIMC: the localities. An entry is stored under its locality symbol
 * `sym`; `parent` names the locality it is subordinate to, if any, and
 * `terc` the commune it lies in. The delta handlers are `D` (add), `U`
 * (remove), `Z` (change) and `P` (transfer, handled exactly like `Z`).
 */
module Simc {
  import opened Base
  import opened Dicts
  import opened Records
  import opened Tables
  import Delta

  datatype SimcEntry = SimcEntry(terc: Text, rmId: Text, nazwa: Text, sym: Text, parent: Text)

  /** `SimcEntry(dct)`, from a catalogue row. An empty dict gives an entry
      with every field `None`; otherwise the commune code is the
      concatenation of the four segments (`TypeError` if one is missing), and
      `parent` is `sympod` exactly when it differs from `sym`. */
  function FromRow(d: Record): (r: Result<SimcEntry>)
    ensures |d| == 0 ==> r == Ok(SimcEntry(None, None, None, None, None))
    ensures |d| != 0 ==>
      (r.Ok? <==> Field(d, "woj").Some? && Field(d, "pow").Some? && Field(d, "gmi").Some? && Field(d, "rodz_gmi").Some?)
    ensures |d| != 0 && r.Ok? ==>
      && r.value.sym == Field(d, "sym") && r.value.nazwa == Field(d, "nazwa") && r.value.rmId == Field(d, "rm")
      && r.value.terc == Some(Concat4(Field(d, "woj"), Field(d, "pow"), Field(d, "gmi"), Field(d, "rodz_gmi")).value)
    ensures |d| != 0 && r.Ok? ==>
      (r.value.parent.Some? <==> Field(d, "sympod").Some? && Field(d, "sympod") != Field(d, "sym"))
    ensures r.Ok? && r.value.parent.Some? ==> r.value.parent == Field(d, "sympod") && r.value.parent != r.value.sym
  {
    if |d| == 0 then Ok(SimcEntry(None, None, None, None, None))
    else
      var terc :- Concat4(Field(d, "woj"), Field(d, "pow"), Field(d, "gmi"), Field(d, "rodz_gmi"));
      var sym := Field(d, "sym");
      var sympod := Field(d, "sympod");
      Ok(SimcEntry(Some(terc), Field(d, "rm"), Field(d, "nazwa"), sym, if sym != sympod then sympod else None))
  }

  /** `SimcEntry.from_dict`: `terc`, `nazwa` and `sym` are required
      (`KeyError`), `rm` defaults to 0 and `parent` to `None`. */
  function FromDict(d: Record): (r: Result<SimcEntry>)
    ensures r.Ok? <==> "terc" in Keys(d) && "nazwa" in Keys(d) && "sym" in Keys(d)
    ensures r.Err? ==> r.error == MissingKey
    ensures r.Ok? ==> r.value.terc == Field(d, "terc") && r.value.nazwa == Field(d, "nazwa") && r.value.sym == Field(d, "sym")
    ensures r.Ok? ==> r.value.rmId == (if "rm" in Keys(d) then Field(d, "rm") else Some("0"))
    ensures r.Ok? ==> r.value.parent == Field(d, "parent")
  {
    var terc :- Index(d, "terc");
    var rm := if "rm" in Keys(d) then Field(d, "rm") else Some("0");
    var nazwa :- Index(d, "nazwa");
    var sym :- Index(d, "sym");
    var parent := if "parent" in Keys(d) then Field(d, "parent") else None;
    Ok(SimcEntry(terc, rm, nazwa, sym, parent))
  }

  /** `SimcEntry.update_from`: overlays the truthy ones among `terc`,
      `rm_id`, `nazwa`, `sym` and `parent`. */
  function UpdateFrom(e: SimcEntry, other: Record): (r: SimcEntry)
    ensures r.terc == Overlay(e.terc, Field(other, "terc")) && r.rmId == Overlay(e.rmId, Field(other, "rm_id"))
    ensures r.nazwa == Overlay(e.nazwa, Field(other, "nazwa")) && r.sym == Overlay(e.sym, Field(other, "sym"))
    ensures r.parent == Overlay(e.parent, Field(other, "parent"))
  {
    SimcEntry(Overlay(e.terc, Field(other, "terc")), Overlay(e.rmId, Field(other, "rm_id")),
              Overlay(e.nazwa, Field(other, "nazwa")), Overlay(e.sym, Field(other, "sym")),
              Overlay(e.parent, Field(other, "parent")))
  }

  /** Overlaying the same fields twice changes nothing more, and an after
      half without truthy fields changes nothing at all. */
  lemma UpdateFromIdempotent(e: SimcEntry, other: Record)
    ensures UpdateFrom(UpdateFrom(e, other), other) == UpdateFrom(e, other)
    ensures (forall k :: !Truthy(Field(other, k))) ==> UpdateFrom(e, other) == e
  {
  }

  /** The `parent` of the search document: the superior locality when there
      is one, else the commune (`TypeError` when neither is known). */
  function SolrParent(e: SimcEntry): (r: Result<string>)
    ensures Truthy(e.parent) ==> r == Ok("simc_" + e.parent.value)
    ensures !Truthy(e.parent) && e.terc.Some? ==> r == Ok("terc_" + e.terc.value)
    ensures r.Err? <==> !Truthy(e.parent) && e.terc.None?
  {
    if Truthy(e.parent) then Ok("simc_" + e.parent.value)
    else if e.terc.None? then Err(NoneValue)
    else Ok("terc_" + e.terc.value)
  }

  /** A row whose superior locality is another locality is placed under
      that locality, and a row that is its own superior under its commune. */
  lemma RowParentResolution(d: Record)
    requires |d| != 0 && FromRow(d).Ok?
    ensures Truthy(Field(d, "sympod")) && Field(d, "sympod") != Field(d, "sym") ==>
      SolrParent(FromRow(d).value) == Ok("simc_" + Field(d, "sympod").value)
    ensures Field(d, "sympod") == Field(d, "sym") ==>
      SolrParent(FromRow(d).value) == Ok("terc_" + Concat4(Field(d, "woj"), Field(d, "pow"), Field(d, "gmi"), Field(d, "rodz_gmi")).value)
  {
  }

  type SimcTable = Table<SimcEntry>

  /** Every entry is stored under its own symbol. */
  predicate KeyedBySym(t: SimcTable) {
    forall k :: k in t ==> t[k].sym == Some(k)
  }

  /** `_handle_d`: the after half becomes a new entry, added under its
      symbol (a `None` symbol makes the store raise). */
  function HandleD(t: SimcTable, after: Record): (r: Result<SimcTable>)
    ensures r.Ok? <==> FromDict(after).Ok? && FromDict(after).value.sym.Some?
    ensures r.Ok? ==> r.value == t[FromDict(after).value.sym.value := FromDict(after).value]
  {
    var e :- FromDict(after);
    var key :- KeyOf(e.sym);
    Ok(t[key := e])
  }

  /** `_handle_u`: the entry under the symbol of the before half is deleted. */
  function HandleU(t: SimcTable, before: Record): (r: Result<SimcTable>)
    ensures r.Ok? <==> FromDict(before).Ok? && FromDict(before).value.sym.Some? && FromDict(before).value.sym.value in t
    ensures r.Ok? ==> r.value == t - {FromDict(before).value.sym.value}
  {
    var prior :- FromDict(before);
    var key :- KeyOf(prior.sym);
    Delete(t, key)
  }

  /** `_handle_z` (and `_handle_p`): the entry under the before symbol is
      overlaid with the after half; if its symbol changed the before symbol
      is deleted; then the entry is added under its symbol. Adding under a
      `None` symbol raises after the delete. */
  function HandleZ(t: SimcTable, before: Record, after: Record): (o: Outcome<SimcTable>)
    ensures FromDict(before).Ok? && FromDict(before).value.sym.Some? && FromDict(before).value.sym.value !in t
      ==> o == Halted(t, ModifyNonexistent)
    ensures o.Done? ==> FromDict(before).Ok? && FromDict(before).value.sym.Some? && FromDict(before).value.sym.value in t
  {
    var prior := FromDict(before);
    if prior.Err? then Halted(t, prior.error)
    else if prior.value.sym.None? then Halted(t, NoneValue)
    else
      var key := prior.value.sym.value;
      match Lookup(t, key, None)
      case None => Halted(t, ModifyNonexistent)
      case Some(entry) =>
        var updated := UpdateFrom(entry, after);
        // the before symbol was just found, so deleting it cannot fail
        var t' := if prior.value.sym != updated.sym then t - {key} else t;
        match updated.sym
        case None => Halted(t', NoneValue)
        case Some(k) => Done(t'[k := updated])
  }

  /** A changed entry is reachable under its new symbol, and the before
      symbol is gone when the symbol changed. */
  lemma ChangeMoves(t: SimcTable, before: Record, after: Record)
    requires HandleZ(t, before, after).Done?
    ensures var key := FromDict(before).value.sym.value;
            var updated := UpdateFrom(t[key], after);
            var t' := HandleZ(t, before, after).state;
            && updated.sym.Some?
            && Lookup(t', updated.sym.value, None) == Some(updated)
            && (updated.sym.value != key ==> key !in t')
  {
    var key := FromDict(before).value.sym.value;
    var updated := UpdateFrom(t[key], after);
    var t' := if FromDict(before).value.sym != updated.sym then t - {key} else t;
    assert HandleZ(t, before, after).state == t'[updated.sym.value := updated];
  }

  /** A change touches no entry but the one it moves. */
  lemma ChangeKeepsOthers(t: SimcTable, before: Record, after: Record, k: string)
    requires HandleZ(t, before, after).Done?
    requires k != FromDict(before).value.sym.value
    requires k != UpdateFrom(t[FromDict(before).value.sym.value], after).sym.value
    ensures Lookup(HandleZ(t, before, after).state, k, None) == Lookup(t, k, None)
  {
    var key := FromDict(before).value.sym.value;
    var updated := UpdateFrom(t[key], after);
    var t' := if FromDict(before).value.sym != updated.sym then t - {key} else t;
    assert HandleZ(t, before, after).state == t'[updated.sym.value := updated];
  }

  /** On a table keyed by symbol, a change whose before symbol is present
      always completes. */
  lemma ChangeCompletes(t: SimcTable, before: Record, after: Record)
    requires KeyedBySym(t)
    requires FromDict(before).Ok? && FromDict(before).value.sym.Some? && FromDict(before).value.sym.value in t
    ensures HandleZ(t, before, after).Done?
  {
  }

  /** The operation letters `SimcCache.change_handlers` knows. */
  const OPS: set<string> := {"D", "U", "Z", "P"}

  /** One change record, dispatched on its operation letter. */
  function Apply(t: SimcTable, c: Change): (o: Outcome<SimcTable>)
    ensures (c.op.None? || c.op.value !in OPS) <==> o == Halted(t, UnknownOperation(c.op))
  {
    var before := UpdateRecordToDict(c.elems, "Przed");
    var after := UpdateRecordToDict(c.elems, "Po");
    match c.op
    case Some("D") => Lift(t, HandleD(t, after))
    case Some("U") => Lift(t, HandleU(t, before))
    case Some("Z") => HandleZ(t, before, after)
    case Some("P") => HandleZ(t, before, after)
    case _ => Halted(t, UnknownOperation(c.op))
  }

  /** A transfer is handled exactly like a change. */
  lemma TransferIsChange(t: SimcTable, elems: seq<Elem>)
    ensures Apply(t, Change(Some("P"), elems)) == Apply(t, Change(Some("Z"), elems))
  {
  }

  lemma StoreKeepsKeying(t: SimcTable, k: string, e: SimcEntry)
    requires KeyedBySym(t)
    requires e.sym == Some(k)
    ensures KeyedBySym(t[k := e])
  {
  }

  lemma ChangeKeepsKeying(t: SimcTable, before: Record, after: Record)
    requires KeyedBySym(t)
    ensures KeyedBySym(HandleZ(t, before, after).state)
  {
    var prior := FromDict(before);
    if prior.Ok? && prior.value.sym.Some? && prior.value.sym.value in t {
      var key := prior.value.sym.value;
      var updated := UpdateFrom(t[key], after);
      var t' := if prior.value.sym != updated.sym then t - {key} else t;
      assert KeyedBySym(t');
      if updated.sym.Some? {
        StoreKeepsKeying(t', updated.sym.value, updated);
      }
    }
  }

  /** Every handler keeps each entry under its own symbol, whether it
      completes or raises. */
  lemma ApplyKeepsKeying(t: SimcTable, c: Change)
    requires KeyedBySym(t)
    ensures KeyedBySym(Apply(t, c).state)
  {
    var before := UpdateRecordToDict(c.elems, "Przed");
    var after := UpdateRecordToDict(c.elems, "Po");
    match c.op
    case Some("D") =>
      if HandleD(t, after).Ok? {
        StoreKeepsKeying(t, FromDict(after).value.sym.value, FromDict(after).value);
      }
    case Some("U") =>
    case Some("Z") => ChangeKeepsKeying(t, before, after);
    case Some("P") => ChangeKeepsKeying(t, before, after);
    case _ =>
  }

  lemma ReplayKeepsKeying(t: SimcTable, changes: seq<Change>)
    requires KeyedBySym(t)
    ensures KeyedBySym(Delta.Replay(Apply, t, changes).state)
  {
    forall x, c | KeyedBySym(x) ensures KeyedBySym(Apply(x, c).state) {
      ApplyKeepsKeying(x, c);
    }
    Delta.ReplayKeeps(Apply, KeyedBySym, t, changes);
  }
}

=== FILE: streetname.dfy ===
/**
 * `_clean_street_name`: the display name of a street. The street
 * catalogue gives a qualifier code (`cecha`, e.g. `UL.`) and up to two name
 * parts; a part that repeats the qualifier, or its label (`Ulica`), at the
 * start has it cut off, and the label is put in front of the remaining
 * non-empty parts.
 */
module StreetName {
  import opened Base
  import opened Strings

  /** `_ULIC_CECHA_MAPPING.get(code)`: the label of a qualifier code. */
  function CechaLabel(code: string): Option<string> {
    if code == "UL." then Some("Ulica")
    else if code == "AL." then Some("Aleja")
    else if code == "PL." then Some("Plac")
    else if code == "SKWER" then Some("Skwer")
    else if code == "BULW." then Some("Bulwar")
    else if code == "RONDO" then Some("Rondo")
    else if code == "PARK" then Some("Park")
    else if code == "RYNEK" then Some("Rynek")
    else if code == "SZOSA" then Some("Szosa")
    else if code == "DROGA" then Some("Droga")
    else if code == "OS." then Some("Osiedle")
    else if code == "OGRÓD" then Some("Ogród")
    else if code == "WYSPA" then Some("Wyspa")
    else if code == "WYB." then Some("Wybrzeże")
    else if code == "INNE" then Some("")
    else None
  }

  /** `_ULIC_CECHA_MAPPING[cecha.upper()]`: `AttributeError` on `None`,
      `KeyError` on an unknown code. */
  function Label(cecha: Text): (r: Result<string>)
    ensures cecha.None? ==> r == Err(NoneValue)
    ensures cecha.Some? ==> (r.Ok? <==> CechaLabel(Upper(cecha.value)).Some?)
    ensures cecha.Some? && r.Ok? ==> r.value == CechaLabel(Upper(cecha.value)).value
    ensures r.Err? && cecha.Some? ==> r.error == MissingKey
  {
    match cecha
    case None => Err(NoneValue)
    case Some(c) =>
      match CechaLabel(Upper(c))
      case None => Err(MissingKey)
      case Some(caption) => Ok(caption)
  }

  /** The inner `mapper` for one name part: an empty part stays empty; a
      part starting (case-insensitively) with the code loses that many
      characters; else a part starting with the label loses the label; the
      rest is stripped. Looking the label up raises for an unknown code. */
  function Mapper(cecha: Text, name: string): (r: Result<string>)
    ensures name == "" ==> r == Ok("")
    ensures r.Ok? ==> Trimmed(r.value) && |r.value| <= |name|
    ensures name != "" && cecha.None? ==> r == Err(NoneValue)
    ensures r.Err? ==> r.error == NoneValue || r.error == MissingKey
  {
    if name == "" then Ok("")
    else if cecha.None? then Err(NoneValue)
    else
      var c := cecha.value;
      if StartsWith(Casefold(name), Casefold(c)) then Ok(Strip(name[|c|..]))
      else
        var caption :- Label(cecha);
        if StartsWith(Casefold(name), Casefold(caption)) then Ok(Strip(name[|caption|..]))
        else Ok(Strip(name))
  }

  /** `_clean_street_name(cecha, nazwa1, nazwa2)`. */
  function CleanStreetName(cecha: Text, nazwa1: string, nazwa2: string): (r: Result<string>)
    ensures Mapper(cecha, nazwa1).Err? ==> r == Mapper(cecha, nazwa1)
    ensures Mapper(cecha, nazwa1).Ok? && Mapper(cecha, nazwa2).Err? ==> r == Mapper(cecha, nazwa2)
    ensures r.Ok? <==> Mapper(cecha, nazwa1).Ok? && Mapper(cecha, nazwa2).Ok?
    ensures r.Ok? ==> (r.value == "" <==> Mapper(cecha, nazwa1).value == "" && Mapper(cecha, nazwa2).value == "")
    ensures r.Err? ==> r.error == NoneValue || r.error == MissingKey
  {
    var n1 :- Mapper(cecha, nazwa1);
    var n2 :- Mapper(cecha, nazwa2);
    if n1 == "" && n2 == "" then Ok("")
    else
      // a non-empty part went through `mapper`, so `cecha` is not `None` here
      var caption := if cecha.None? then "" else CechaLabel(Upper(cecha.value)).GetOr("");
      assert [caption, n1, n2][1] == n1 && [caption, n1, n2][2] == n2;
      Ok(JoinNonEmpty([caption, n1, n2]))
  }

  /** Every label is trimmed. */
  lemma LabelsTrimmed(code: string)
    ensures Trimmed(CechaLabel(code).GetOr(""))
  {
    var l := CechaLabel(code).GetOr("");
    if l != "" {
      assert 'A' <= l[0] <= 'Z' && 'a' <= l[|l| - 1] <= 'z';
      LetterNotSpace(l[0]);
      LetterNotSpace(l[|l| - 1]);
    }
  }

  lemma LetterNotSpace(c: char)
    requires 'A' <= c <= 'Z' || 'a' <= c <= 'z'
    ensures !IsSpace(c)
  {
  }

  /** The cleaned name has no surrounding whitespace, and when it is not
      empty it is the label and the cleaned parts joined by single spaces. */
  lemma CleanShape(cecha: Text, nazwa1: string, nazwa2: string)
    requires CleanStreetName(cecha, nazwa1, nazwa2).Ok?
    ensures Trimmed(CleanStreetName(cecha, nazwa1, nazwa2).value)
    ensures CleanStreetName(cecha, nazwa1, nazwa2).value != "" ==>
      cecha.Some? &&
      CleanStreetName(cecha, nazwa1, nazwa2).value ==
        JoinNonEmpty([CechaLabel(Upper(cecha.value)).GetOr(""), Mapper(cecha, nazwa1).value, Mapper(cecha, nazwa2).value])
  {
    var n1 := Mapper(cecha, nazwa1).value;
    var n2 := Mapper(cecha, nazwa2).value;
    if !(n1 == "" && n2 == "") {
      CleanJoin(cecha, nazwa1, nazwa2);
      var caption := CechaLabel(Upper(cecha.value)).GetOr("");
      LabelsTrimmed(Upper(cecha.value));
      JoinTrimmed([caption, n1, n2]);
    }
  }

  /** A non-empty cleaned name is the label and the two cleaned parts joined. */
  lemma CleanJoin(cecha: Text, nazwa1: string, nazwa2: string)
    requires CleanStreetName(cecha, nazwa1, nazwa2).Ok?
    requires Mapper(cecha, nazwa1).value != "" || Mapper(cecha, nazwa2).value != ""
    ensures cecha.Some?
    ensures CleanStreetName(cecha, nazwa1, nazwa2).value ==
      JoinNonEmpty([CechaLabel(Upper(cecha.value)).GetOr(""), Mapper(cecha, nazwa1).value, Mapper(cecha, nazwa2).value])
  {
  }

  /** Two empty parts give an empty name whatever the qualifier, even none. */
  lemma EmptyPartsEmptyName(cecha: Text)
    ensures CleanStreetName(cecha, "", "") == Ok("")
  {
  }

  /** An unknown qualifier raises as soon as a non-empty part does not start
      with the code itself. */
  lemma UnknownQualifierRaises(c: string, nazwa1: string, nazwa2: string)
    requires CechaLabel(Upper(c)).None?
    requires nazwa1 != "" && !StartsWith(Casefold(nazwa1), Casefold(c))
    ensures CleanStreetName(Some(c), nazwa1, nazwa2) == Err(MissingKey)
  {
  }

  /** A name part that starts with neither the code nor the label of `UL.`
      and has no surrounding whitespace passes through unchanged. */
  lemma PlainPartUnchanged(name: string)
    requires |name| >= 1 && Lower(name)[0] != 'u'
    requires Trimmed(name)
    ensures Mapper(Some("UL."), name) == Ok(name)
  {
    assert Casefold("UL.") == "ul.";
    assert Upper("UL.") == "UL.";
    assert Casefold("Ulica") == "ulica";
    assert !StartsWith(Casefold(name), "ul.") by {
      if |name| >= 3 { assert Casefold(name)[..3][0] == Lower(name)[0]; }
    }
    assert !StartsWith(Casefold(name), "ulica") by {
      if |name| >= 5 { assert Casefold(name)[..5][0] == Lower(name)[0]; }
    }
  }

  /** A name part that starts with the qualifier code, in any letter case,
      loses the code, and the rest is stripped. */
  lemma CodeCut(c: string, p: string, x: string)
    requires |p| == |c| && Casefold(p) == Casefold(c) && p + x != ""
    ensures Mapper(Some(c), p + x) == Ok(Strip(x))
  {
    var n := p + x;
    assert Casefold(n)[..|c|] == Casefold(p);
    assert n[|c|..] == x;
  }

  /** A name part that does not start with the code but starts with the
      code's label, in any letter case, loses the label, and the rest is
      stripped. */
  lemma LabelCut(c: string, l: string, p: string, x: string)
    requires CechaLabel(Upper(c)) == Some(l)
    requires |p| == |l| && Casefold(p) == Casefold(l) && p + x != ""
    requires !StartsWith(Casefold(p + x), Casefold(c))
    ensures Mapper(Some(c), p + x) == Ok(Strip(x))
  {
    var n := p + x;
    assert Casefold(n)[..|l|] == Casefold(p);
    assert n[|l|..] == x;
  }

  /** The qualifier repeated in front of a name part is cut off. */
  lemma RepeatedQualifierCut(c: string, name: string)
    requires c == "UL." && name == "ul. Długa"
    ensures Mapper(Some(c), name) == Ok("Długa")
  {
    assert Casefold(c) == "ul.";
    assert Casefold(name)[..3] == "ul.";
    assert name[3..] == " Długa";
    LetterNotSpace('D');
    LetterNotSpace('a');
    StripOneSpace(" Długa");
    assert " Długa"[1..] == "Długa";
  }

  /** A single leading space before a word is stripped. */
  lemma StripOneSpace(s: string)
    requires |s| >= 2 && s[0] == ' ' && !IsSpace(s[1]) && !IsSpace(s[|s| - 1])
    ensures Strip(s) == s[1..]
  {
    assert IsSpace(s[0]);
    assert LStrip(s) == LStrip(s[1..]) == s[1..];
  }

  /** Once both parts are mapped, the name is the label of the qualifier
      followed by the non-empty mapped parts. */
  lemma CleanFromParts(c: string, nazwa1: string, nazwa2: string, m1: string, m2: string)
    requires Mapper(Some(c), nazwa1) == Ok(m1) && Mapper(Some(c), nazwa2) == Ok(m2)
    requires m1 != "" || m2 != ""
    ensures CleanStreetName(Some(c), nazwa1, nazwa2) == Ok(JoinNonEmpty([CechaLabel(Upper(c)).GetOr(""), m1, m2]))
  {
  }

  /** The non-empty ones among three parts, joined by single spaces. */
  lemma JoinThree(a: string, b: string, c: string)
    requires a != "" && c != ""
    ensures JoinNonEmpty([a, b, c]) == if b == "" then a + " " + c else a + " " + b + " " + c
  {
    assert [c][1..] == [];
    assert JoinNonEmpty([c]) == c;
    assert [b, c][1..] == [c];
    assert JoinNonEmpty([b, c]) == if b == "" then c else b + " " + c;
    assert [a, b, c][1..] == [b, c];
    assert a + " " + (b + " " + c) == a + " " + b + " " + c;
  }

  /** The label of `UL.`. */
  lemma UlicaLabel(c: string)
    requires c == "UL."
    ensures CechaLabel(Upper(c)).GetOr("") == "Ulica"
  {
    assert Upper(c) == "UL.";
  }

  /** The literal concatenations of the two examples below, proved apart
      from them so that the examples stay cheap to check. */
  lemma UlicaDluga()
    ensures "Ulica" + " " + "Długa" == "Ulica Długa"
  {
  }

  lemma UlicaAdamaMickiewicza()
    ensures "Ulica" + " " + "Adama" + " " + "Mickiewicza" == "Ulica Adama Mickiewicza"
  {
  }

  /** ... and the label takes its place. */
  lemma RepeatedQualifierExample(c: string, nazwa2: string)
    requires c == "UL." && nazwa2 == "ul. Długa"
    ensures CleanStreetName(Some(c), "", nazwa2) == Ok("Ulica Długa")
  {
    RepeatedQualifierCut(c, nazwa2);
    CleanFromParts(c, "", nazwa2, "", "Długa");
    UlicaLabel(c);
    JoinThree("Ulica", "", "Długa");
    UlicaDluga();
  }

  /** Plain parts keep their order after the label. */
  lemma PlainPartsExample(c: string, nazwa1: string, nazwa2: string)
    requires c == "UL." && nazwa1 == "Adama" && nazwa2 == "Mickiewicza"
    ensures CleanStreetName(Some(c), nazwa1, nazwa2) == Ok("Ulica Adama Mickiewicza")
  {
    LetterNotSpace('A');
    LetterNotSpace('a');
    LetterNotSpace('M');
    PlainPartUnchanged(nazwa1);
    PlainPartUnchanged(nazwa2);
    CleanFromParts(c, nazwa1, nazwa2, "Adama", "Mickiewicza");
    UlicaLabel(c);
    JoinThree("Ulica", "Adama", "Mickiewicza");
    UlicaAdamaMickiewicza();
  }
}

=== FILE: streets.dfy ===
/**
 * ULIC: the streets. A `UlicEntry` is one street in one locality; the
 * cache stores a `UlicMultiEntry` per street identifier `symul`, holding
 * the street's members keyed by locality symbol `sym`, together with the
 * qualifier label and display name of the member it was built from.
 */
module Streets {
  import opened Base
  import opened Dicts
  import opened Strings
  import opened Records
  import opened StreetName

  /** One street in one locality. `symUl` is the attribute `sym_ul` that
      `update_from` creates (it writes `sym_ul`, never `symul`); it is `None`
      until an update carries a street identifier. */
  datatype UlicEntry = UlicEntry(
    sym: Text, symul: Text, symUl: Text, cechaOrig: Text,
    nazwa1: string, nazwa2: string, terc: string)

  /** `_init_to_update_map`: the catalogue field name of each change-record
      field name. */
  function UpdateName(init: string): Option<string> {
    if init == "woj" then Some("woj")
    else if init == "pow" then Some("pow")
    else if init == "gmi" then Some("gmi")
    else if init == "rodz_gmi" then Some("rodz")
    else if init == "sym" then Some("identyfikatormiejscowosci")
    else if init == "sym_ul" then Some("identyfikatornazwyulicy")
    else if init == "cecha" then Some("cecha")
    else if init == "nazwa_1" then Some("nazwa1")
    else if init == "nazwa_2" then Some("nazwa2")
    else if init == "stan_na" then Some("stan")
    else None
  }

  /** `_update_to_init_map.get(k, k)`: a change-record field name is renamed
      to its catalogue name; other names are kept. */
  function InitName(k: string): string {
    if k == "woj" then "woj"
    else if k == "pow" then "pow"
    else if k == "gmi" then "gmi"
    else if k == "rodz" then "rodz_gmi"
    else if k == "identyfikatormiejscowosci" then "sym"
    else if k == "identyfikatornazwyulicy" then "sym_ul"
    else if k == "cecha" then "cecha"
    else if k == "nazwa1" then "nazwa_1"
    else if k == "nazwa2" then "nazwa_2"
    else if k == "stan" then "stan_na"
    else k
  }

  /** The two maps are inverse to each other: renaming the change-record
      name of a catalogue field gives the catalogue name back, and a name
      that renaming changes is the change-record name of its result. */
  lemma RenameInverse(name: string)
    ensures UpdateName(name).Some? ==> InitName(UpdateName(name).value) == name
    ensures InitName(name) != name ==> UpdateName(InitName(name)) == Some(name)
  {
  }

  function RenamedPairs(d: Record): (ps: seq<(string, Text)>)
    ensures |ps| == |d|
    ensures forall i :: 0 <= i < |d| ==> ps[i] == (InitName(d[i].0), d[i].1)
  {
    seq(|d|, i requires 0 <= i < |d| => (InitName(d[i].0), d[i].1))
  }

  /** The dict comprehension renaming a change-record half to catalogue
      names; when two names rename to the same one, the later wins. */
  function Rename(d: Record): (r: Record)
    ensures UniqueKeys(r)
  {
    FromPairsUnique(RenamedPairs(d));
    FromPairs(RenamedPairs(d))
  }

  /** Each catalogue name holds the text of the last field renamed to it. */
  lemma RenameLookup(d: Record, k: string)
    ensures Get(Rename(d), k) == LastValue(RenamedPairs(d), k)
  {
    GetFromPairs(RenamedPairs(d), k);
  }

  /** `UlicEntry(dct)`: the commune code is the concatenation of the four
      segments (`TypeError` when one is missing); missing name parts become
      empty. */
  function FromFields(d: Record): (r: Result<UlicEntry>)
    ensures r.Ok? <==> Concat4(Field(d, "woj"), Field(d, "pow"), Field(d, "gmi"), Field(d, "rodz_gmi")).Ok?
    ensures r.Err? ==> r.error == NoneValue
    ensures r.Ok? ==>
      && r.value.sym == Field(d, "sym") && r.value.symul == Field(d, "sym_ul") && r.value.symUl == None
      && r.value.cechaOrig == Field(d, "cecha")
      && r.value.nazwa1 == Nvl(Field(d, "nazwa_1"), "") && r.value.nazwa2 == Nvl(Field(d, "nazwa_2"), "")
      && r.value.terc == Concat4(Field(d, "woj"), Field(d, "pow"), Field(d, "gmi"), Field(d, "rodz_gmi")).value
  {
    var terc :- Concat4(Field(d, "woj"), Field(d, "pow"), Field(d, "gmi"), Field(d, "rodz_gmi"));
    Ok(UlicEntry(Field(d, "sym"), Field(d, "sym_ul"), None, Field(d, "cecha"),
                 Nvl(Field(d, "nazwa_1"), ""), Nvl(Field(d, "nazwa_2"), ""), terc))
  }

  /** The text of the last field of a change-record half whose name renames
      to `k`, or `None`. */
  function Renamed(d: Record, k: string): Text {
    LastValue(RenamedPairs(d), k).GetOr(None)
  }

  /** `UlicEntry.from_update`: a change-record half, renamed, then built.
      Each attribute is read from the last field renamed to its catalogue
      name, so `identyfikatormiejscowosci` becomes `sym` and
      `identyfikatornazwyulicy` becomes `symul`; the build raises exactly
      when a commune segment is missing. */
  function FromUpdate(d: Record): (r: Result<UlicEntry>)
    ensures r.Ok? <==> && Renamed(d, "woj").Some? && Renamed(d, "pow").Some?
                       && Renamed(d, "gmi").Some? && Renamed(d, "rodz_gmi").Some?
    ensures r.Err? ==> r.error == NoneValue
    ensures r.Ok? ==> && r.value.sym == Renamed(d, "sym") && r.value.symul == Renamed(d, "sym_ul")
                      && r.value.cechaOrig == Renamed(d, "cecha") && r.value.symUl == None
                      && r.value.nazwa1 == Nvl(Renamed(d, "nazwa_1"), "")
                      && r.value.nazwa2 == Nvl(Renamed(d, "nazwa_2"), "")
  {
    RenameLookup(d, "woj");
    RenameLookup(d, "pow");
    RenameLookup(d, "gmi");
    RenameLookup(d, "rodz_gmi");
    RenameLookup(d, "sym");
    RenameLookup(d, "sym_ul");
    RenameLookup(d, "cecha");
    RenameLookup(d, "nazwa_1");
    RenameLookup(d, "nazwa_2");
    FromFields(Rename(d))
  }

  /** Some segment of the commune code is truthy in `d`. */
  predicate TouchesTerc(d: Record) {
    Truthy(Field(d, "woj")) || Truthy(Field(d, "pow")) || Truthy(Field(d, "gmi")) || Truthy(Field(d, "rodz_gmi"))
  }

  /** A truthy new name part replaces the current one. */
  function OverlayPart(current: string, given: Text): (r: string)
    ensures Truthy(given) ==> r == given.value
    ensures !Truthy(given) ==> r == current
  {
    if Truthy(given) then given.value else current
  }

  /** `UlicEntry.update_from`: the truthy ones among `sym`, `sym_ul`,
      `nazwa_1` and `nazwa_2` are written, and the commune code is rebuilt
      when any of its segments is truthy. A truthy `cecha` raises, because
      `cecha` is a getter-only property; `symul` and the stored qualifier
      never change. */
  function UpdateFrom(e: UlicEntry, obj: Record): (r: Result<UlicEntry>)
    ensures var d := Rename(obj);
      r.Ok? <==> (!Truthy(Field(d, "cecha")) &&
        (TouchesTerc(d) ==> Concat4(Field(d, "woj"), Field(d, "pow"), Field(d, "gmi"), Field(d, "rodz_gmi")).Ok?))
    ensures Truthy(Field(Rename(obj), "cecha")) ==> r == Err(ReadOnlyAttribute)
    ensures r.Err? ==> r.error == ReadOnlyAttribute || r.error == NoneValue
    ensures r.Ok? ==> var d := Rename(obj);
      && r.value.symul == e.symul && r.value.cechaOrig == e.cechaOrig
      && r.value.sym == Overlay(e.sym, Field(d, "sym")) && r.value.symUl == Overlay(e.symUl, Field(d, "sym_ul"))
      && r.value.nazwa1 == OverlayPart(e.nazwa1, Field(d, "nazwa_1"))
      && r.value.nazwa2 == OverlayPart(e.nazwa2, Field(d, "nazwa_2"))
      && r.value.terc == (if TouchesTerc(d)
                          then Concat4(Field(d, "woj"), Field(d, "pow"), Field(d, "gmi"), Field(d, "rodz_gmi")).value
                          else e.terc)
  {
    var d := Rename(obj);
    if Truthy(Field(d, "cecha")) then Err(ReadOnlyAttribute)
    else
      var e' := e.(sym := Overlay(e.sym, Field(d, "sym")), symUl := Overlay(e.symUl, Field(d, "sym_ul")),
                   nazwa1 := OverlayPart(e.nazwa1, Field(d, "nazwa_1")),
                   nazwa2 := OverlayPart(e.nazwa2, Field(d, "nazwa_2")));
      if TouchesTerc(d) then
        var terc :- Concat4(Field(d, "woj"), Field(d, "pow"), Field(d, "gmi"), Field(d, "rodz_gmi"));
        Ok(e'.(terc := terc))
      else Ok(e')
  }

  /** Whether an update succeeds depends on the update alone, not on the
      entry; and applying it twice is applying it once. */
  lemma UpdateFromUniform(e: UlicEntry, e': UlicEntry, obj: Record)
    ensures UpdateFrom(e, obj).Ok? <==> UpdateFrom(e', obj).Ok?
    ensures UpdateFrom(e, obj).Ok? ==> UpdateFrom(UpdateFrom(e, obj).value, obj) == UpdateFrom(e, obj)
  {
  }

  /** An update carrying a new street identifier lands in `sym_ul`, so the
      key of the street (`symul`) is never changed by an update. */
  lemma StreetIdentifierIgnored(e: UlicEntry, obj: Record, id: string)
    requires Field(Rename(obj), "sym_ul") == Some(id) && id != ""
    requires UpdateFrom(e, obj).Ok?
    ensures UpdateFrom(e, obj).value.symul == e.symul
    ensures UpdateFrom(e, obj).value.symUl == Some(id)
  {
  }

  /** The `cecha` property: the label of the stored qualifier. */
  function Cecha(e: UlicEntry): (r: Result<string>) {
    Label(e.cechaOrig)
  }

  /** The `nazwa` property: the cleaned name, built from `nazwa_2` first and
      `nazwa_1` second. */
  function Nazwa(e: UlicEntry): (r: Result<string>)
    ensures r.Ok? ==> Trimmed(r.value)
    ensures r.Err? ==> r.error == NoneValue || r.error == MissingKey
  {
    var r := CleanStreetName(e.cechaOrig, e.nazwa2, e.nazwa1);
    if r.Ok? then CleanShape(e.cechaOrig, e.nazwa2, e.nazwa1); r else r
  }

  /** The display name puts the second name part first: a street whose
      first part is the surname and second part the given name reads
      given name, then surname. */
  lemma NazwaOrder(e: UlicEntry)
    requires Nazwa(e).Ok? && Nazwa(e).value != ""
    ensures e.cechaOrig.Some?
    ensures Nazwa(e).value == JoinNonEmpty([CechaLabel(Upper(e.cechaOrig.value)).GetOr(""),
                                            Mapper(e.cechaOrig, e.nazwa2).value,
                                            Mapper(e.cechaOrig, e.nazwa1).value])
  {
    CleanShape(e.cechaOrig, e.nazwa2, e.nazwa1);
  }

  /** A street and its members, keyed by locality symbol. */
  datatype UlicMultiEntry = UlicMultiEntry(symul: Text, cecha: string, nazwa: string, entries: Dict<Text, UlicEntry>)

  /** `UlicMultiEntry(entry)`: a one-member street; reading the member's
      label and name raises for an unknown or missing qualifier. */
  function New(e: UlicEntry): (r: Result<UlicMultiEntry>)
    ensures r.Ok? <==> Cecha(e).Ok? && Nazwa(e).Ok?
    ensures r.Ok? ==> r.value.symul == e.symul && r.value.entries == [(e.sym, e)]
    ensures r.Ok? ==> r.value.cecha == Cecha(e).value && r.value.nazwa == Nazwa(e).value
    ensures r.Err? && Cecha(e).Err? ==> r.error == Cecha(e).error
    ensures r.Err? ==> r.error == NoneValue || r.error == MissingKey
  {
    var cecha :- Cecha(e);
    var nazwa :- Nazwa(e);
    Ok(UlicMultiEntry(e.symul, cecha, nazwa, [(e.sym, e)]))
  }

  /** `v` can join street `symul`: it belongs to it and its label and name
      can be read. */
  predicate Fits(v: UlicEntry, symul: Text) {
    v.symul == symul && Cecha(v).Ok? && Nazwa(v).Ok?
  }

  /** `add_entry`: a member of another street raises; otherwise the member's
      label and name are read (for the log, so they can raise) and the
      member is inserted or replaced under its symbol. */
  function AddEntry(m: UlicMultiEntry, v: UlicEntry): (r: Result<UlicMultiEntry>)
    ensures m.symul != v.symul ==> r == Err(SymulMismatch)
    ensures r.Ok? <==> Fits(v, m.symul)
    ensures r.Ok? ==> r.value.symul == m.symul && r.value.cecha == m.cecha && r.value.nazwa == m.nazwa
    ensures r.Ok? ==> r.value.entries == Put(m.entries, v.sym, v)
    ensures r.Err? ==> r.error == SymulMismatch || r.error == NoneValue || r.error == MissingKey
  {
    if m.symul != v.symul then Err(SymulMismatch)
    else
      var _ :- Cecha(v);
      var _ :- Nazwa(v);
      Ok(m.(entries := Put(m.entries, v.sym, v)))
  }

  /** After `add_entry`, the new member is found under its symbol and every
      other member is where it was. */
  lemma AddEntryLookup(m: UlicMultiEntry, v: UlicEntry, k: Text)
    requires AddEntry(m, v).Ok?
    ensures Get(AddEntry(m, v).value.entries, k) == if k == v.sym then Some(v) else Get(m.entries, k)
  {
    GetPut(m.entries, v.sym, v, k);
  }

  /** `remove_by_sym`: `KeyError` when no member has that symbol. */
  function RemoveBySym(m: UlicMultiEntry, sym: Text): (r: Result<UlicMultiEntry>)
    ensures r.Ok? <==> sym in Keys(m.entries)
    ensures r.Err? ==> r.error == MissingKey
    ensures r.Ok? ==> r.value.symul == m.symul && r.value.cecha == m.cecha && r.value.nazwa == m.nazwa
    ensures r.Ok? ==> |r.value.entries| == |m.entries| - 1
  {
    var entries :- Del(m.entries, sym);
    Ok(m.(entries := entries))
  }

  /** Removing a member removes exactly that member. */
  lemma RemoveLookup(m: UlicMultiEntry, sym: Text, k: Text)
    requires UniqueKeys(m.entries)
    requires sym in Keys(m.entries)
    ensures RemoveBySym(m, sym).Ok?
    ensures Get(RemoveBySym(m, sym).value.entries, k) == if k == sym then None else Get(m.entries, k)
    ensures UniqueKeys(RemoveBySym(m, sym).value.entries)
  {
    GetDel(m.entries, sym, k);
    DelPairs(m.entries, sym);
  }

  /** The `(sym, member)` pairs of a list of members. */
  function SymPairs(lst: seq<UlicEntry>): (ps: seq<(Text, UlicEntry)>)
    ensures |ps| == |lst|
    ensures forall i :: 0 <= i < |lst| ==> ps[i] == (lst[i].sym, lst[i])
  {
    seq(|lst|, i requires 0 <= i < |lst| => (lst[i].sym, lst[i]))
  }

  /** Every member of the list belongs to street `symul` and has a readable
      label and name. */
  predicate Admissible(lst: seq<UlicEntry>, symul: Text) {
    |lst| == 0 || (Admissible(lst[..|lst| - 1], symul) && Fits(lst[|lst| - 1], symul))
  }

  lemma {:induction false} AdmissibleAt(lst: seq<UlicEntry>, symul: Text, i: nat)
    requires i < |lst|
    ensures Admissible(lst, symul) ==> Fits(lst[i], symul)
  {
    if i < |lst| - 1 {
      AdmissibleAt(lst[..|lst| - 1], symul, i);
    }
  }

  /** `add_entry` for each member of `lst` in order, stopping at the first
      that raises. */
  function AddAll(m: UlicMultiEntry, lst: seq<UlicEntry>): (r: Result<UlicMultiEntry>)
    ensures r.Ok? ==> r.value.symul == m.symul && r.value.cecha == m.cecha && r.value.nazwa == m.nazwa
  {
    if |lst| == 0 then Ok(m)
    else
      var rv :- AddAll(m, lst[..|lst| - 1]);
      AddEntry(rv, lst[|lst| - 1])
  }

  /** Adding a list succeeds exactly when every member is admissible. */
  lemma {:induction false} AddAllOk(m: UlicMultiEntry, lst: seq<UlicEntry>)
    ensures AddAll(m, lst).Ok? <==> Admissible(lst, m.symul)
  {
    if |lst| != 0 {
      AddAllOk(m, lst[..|lst| - 1]);
    }
  }

  /** After adding a list, each symbol holds the last member of the list
      with that symbol, or what it held before when no member has it. */
  lemma {:induction false} AddAllGet(m: UlicMultiEntry, lst: seq<UlicEntry>, k: Text)
    requires AddAll(m, lst).Ok?
    ensures Get(AddAll(m, lst).value.entries, k) ==
        if LastValue(SymPairs(lst), k).Some? then LastValue(SymPairs(lst), k) else Get(m.entries, k)
  {
    if |lst| != 0 {
      var init := lst[..|lst| - 1];
      AddAllGet(m, init, k);
      assert SymPairs(lst)[..|lst| - 1] == SymPairs(init);
      AddEntryLookup(AddAll(m, init).value, lst[|lst| - 1], k);
    }
  }

  /** Adding members keeps the symbols unique. */
  lemma {:induction false} AddAllUnique(m: UlicMultiEntry, lst: seq<UlicEntry>)
    requires UniqueKeys(m.entries)
    requires AddAll(m, lst).Ok?
    ensures UniqueKeys(AddAll(m, lst).value.entries)
  {
    if |lst| != 0 {
      var rv := AddAll(m, lst[..|lst| - 1]).value;
      AddAllUnique(m, lst[..|lst| - 1]);
      PutUnique(rv.entries, lst[|lst| - 1].sym, lst[|lst| - 1]);
    }
  }

  /** `from_list`: an empty list raises; otherwise the street is built from
      the first member and, when there are more, every member (the first
      included) is added in order. */
  function FromList(lst: seq<UlicEntry>): (r: Result<UlicMultiEntry>)
    ensures |lst| == 0 ==> r == Err(EmptyList)
    ensures r.Ok? ==> |lst| > 0 && r.value.symul == lst[0].symul
    ensures r.Ok? ==> Cecha(lst[0]).Ok? && Nazwa(lst[0]).Ok?
    ensures r.Ok? ==> r.value.cecha == Cecha(lst[0]).value && r.value.nazwa == Nazwa(lst[0]).value
  {
    if |lst| < 1 then Err(EmptyList)
    else
      var rv :- New(lst[0]);
      if |lst| > 1 then AddAll(rv, lst) else Ok(rv)
  }

  /** A key absent from the pairs' last values occurs in no pair. */
  lemma {:induction false} LastValueNone<K, V>(ps: seq<(K, V)>, k: K, i: nat)
    requires i < |ps| && ps[i].0 == k
    ensures LastValue(ps, k).Some?
  {
    if ps[|ps| - 1].0 != k {
      LastValueNone(ps[..|ps| - 1], k, i);
    }
  }

  /** `from_list` succeeds exactly on a non-empty list whose members all
      belong to the first member's street and have readable labels and
      names; the members are then keyed by symbol, the last member with a
      symbol winning, and no symbol appears twice. */
  lemma FromListSpec(lst: seq<UlicEntry>, k: Text)
    ensures FromList(lst).Ok? <==> |lst| > 0 && Admissible(lst, lst[0].symul)
    ensures FromList(lst).Ok? ==> Get(FromList(lst).value.entries, k) == LastValue(SymPairs(lst), k)
    ensures FromList(lst).Ok? ==> UniqueKeys(FromList(lst).value.entries)
  {
    if |lst| > 0 {
      var e := lst[0];
      if New(e).Ok? {
        var rv := New(e).value;
        AddAllOk(rv, lst);
        if |lst| > 1 {
          if AddAll(rv, lst).Ok? {
            AddAllGet(rv, lst, k);
            AddAllUnique(rv, lst);
            if LastValue(SymPairs(lst), k).None? && k == e.sym {
              LastValueNone(SymPairs(lst), k, 0);
            }
          }
        } else {
          assert SymPairs(lst) == [(e.sym, e)];
          assert SymPairs(lst)[..0] == [];
        }
      } else {
        AdmissibleAt(lst, lst[0].symul, 0);
      }
    }
  }

  /** Every member belongs to the street. */
  predicate Consistent(m: UlicMultiEntry) {
    forall i :: 0 <= i < |m.entries| ==> m.entries[i].1.symul == m.symul
  }

  /** The check `to_dict` makes before serialising: every member must
      belong to the street (`ValueError` otherwise). The serialised form
      itself is not modelled. */
  function CheckConsistent(m: UlicMultiEntry): (r: Result<UlicMultiEntry>)
    ensures r.Ok? <==> Consistent(m)
    ensures r.Ok? ==> r.value == m
    ensures r.Err? ==> r.error == Inconsistent
  {
    if forall i :: 0 <= i < |m.entries| ==> m.entries[i].1.symul == m.symul then Ok(m) else Err(Inconsistent)
  }

  /** Adding and removing members keep a street consistent, and a street
      built from a list is consistent. */
  lemma ConsistencyKept(m: UlicMultiEntry, v: UlicEntry, sym: Text, lst: seq<UlicEntry>)
    ensures Consistent(m) && AddEntry(m, v).Ok? ==> CheckConsistent(AddEntry(m, v).value).Ok?
    ensures Consistent(m) && RemoveBySym(m, sym).Ok? ==> CheckConsistent(RemoveBySym(m, sym).value).Ok?
    ensures FromList(lst).Ok? ==> CheckConsistent(FromList(lst).value).Ok?
  {
    if Consistent(m) && AddEntry(m, v).Ok? {
      PutPairs(m.entries, v.sym, v);
      var r := AddEntry(m, v).value;
      forall i | 0 <= i < |r.entries| ensures r.entries[i].1.symul == r.symul {
        assert r.entries[i] in Put(m.entries, v.sym, v);
      }
    }
    if Consistent(m) && RemoveBySym(m, sym).Ok? {
      DelSub(m.entries, sym);
      var r := RemoveBySym(m, sym).value;
      forall i | 0 <= i < |r.entries| ensures r.entries[i].1.symul == r.symul {
        assert r.entries[i] in Del(m.entries, sym).value;
      }
    }
    if FromList(lst).Ok? {
      FromListMembers(lst);
    }
  }

  /** The members of a street built from a list are members of the list,
      each under its own symbol. */
  lemma FromListMembers(lst: seq<UlicEntry>)
    requires FromList(lst).Ok?
    ensures Consistent(FromList(lst).value)
    ensures forall p :: p in FromList(lst).value.entries ==> p.1 in lst && p.0 == p.1.sym
  {
    var r := FromList(lst).value;
    FromListSpec(lst, None);
    forall p | p in r.entries ensures p.1 in lst && p.0 == p.1.sym && p.1.symul == r.symul {
      MemberFromList(lst, p);
    }
  }

  lemma MemberFromList(lst: seq<UlicEntry>, p: (Text, UlicEntry))
    requires FromList(lst).Ok?
    requires p in FromList(lst).value.entries
    ensures p.1 in lst && p.0 == p.1.sym && p.1.symul == FromList(lst).value.symul
  {
    var r := FromList(lst).value;
    FromListSpec(lst, p.0);
    UniqueGet(r.entries, p.0, p.1);
    var ps := SymPairs(lst);
    assert LastValue(ps, p.0) == Some(p.1);
    LastValueMember(ps, p.0);
    var i :| 0 <= i < |ps| && ps[i] == (p.0, p.1);
    assert lst[i] == p.1;
    AdmissibleAt(lst, lst[0].symul, i);
  }

  /** The last value of a key comes from a pair with that key. */
  lemma {:induction false} LastValueMember<K, V>(ps: seq<(K, V)>, k: K)
    requires LastValue(ps, k).Some?
    ensures (k, LastValue(ps, k).value) in ps
  {
    if ps[|ps| - 1].0 != k {
      LastValueMember(ps[..|ps| - 1], k);
    }
  }
}

=== FILE: strings.dfy ===
/**
 * The few Python string operations the street-name logic uses:
 * `lower`/`upper`/`casefold`, `strip`, `startswith`/`endswith` and
 * `" ".join`. Case mapping covers the ASCII letters and the Polish
 * diacritic letters (enough for every qualifier of the street catalogue,
 * `OGRÓD` included) and keeps the length of the string.
 */
module Strings {

  function LowerChar(c: char): char {
    if 'A' <= c <= 'Z' then (c as int + 32) as char
    else if c == 'Ą' then 'ą'
    else if c == 'Ć' then 'ć'
    else if c == 'Ę' then 'ę'
    else if c == 'Ł' then 'ł'
    else if c == 'Ń' then 'ń'
    else if c == 'Ó' then 'ó'
    else if c == 'Ś' then 'ś'
    else if c == 'Ź' then 'ź'
    else if c == 'Ż' then 'ż'
    else c
  }

  function UpperChar(c: char): char {
    if 'a' <= c <= 'z' then (c as int - 32) as char
    else if c == 'ą' then 'Ą'
    else if c == 'ć' then 'Ć'
    else if c == 'ę' then 'Ę'
    else if c == 'ł' then 'Ł'
    else if c == 'ń' then 'Ń'
    else if c == 'ó' then 'Ó'
    else if c == 'ś' then 'Ś'
    else if c == 'ź' then 'Ź'
    else if c == 'ż' then 'Ż'
    else c
  }

  function Lower(s: string): (r: string)
    ensures |r| == |s|
  {
    seq(|s|, i requires 0 <= i < |s| => LowerChar(s[i]))
  }

  function Upper(s: string): (r: string)
    ensures |r| == |s|
  {
    seq(|s|, i requires 0 <= i < |s| => UpperChar(s[i]))
  }

  /** `str.casefold`; for the letters modelled it coincides with `lower`. */
  function Casefold(s: string): (r: string)
    ensures |r| == |s|
  {
    Lower(s)
  }

  /** The characters Python's `str.strip()` removes. */
  const SPACES: set<char> := {
    ' ', '\t', '\n', '\r', '\U{0B}', '\U{0C}', '\U{1C}', '\U{1D}', '\U{1E}', '\U{1F}',
    '\U{85}', '\U{A0}', '\U{1680}', '\U{2028}', '\U{2029}', '\U{202F}', '\U{205F}', '\U{3000}'
  }

  predicate IsSpace(c: char) {
    c in SPACES || '\U{2000}' <= c <= '\U{200A}'
  }

  function LStrip(s: string): (r: string)
    ensures |r| <= |s| && r == s[|s| - |r|..]
    ensures r == "" || !IsSpace(r[0])
    ensures forall i :: 0 <= i < |s| - |r| ==> IsSpace(s[i])
  {
    if |s| > 0 && IsSpace(s[0]) then LStrip(s[1..]) else s
  }

  function RStrip(s: string): (r: string)
    ensures |r| <= |s| && r == s[..|r|]
    ensures r == "" || !IsSpace(r[|r| - 1])
    ensures forall i :: |r| <= i < |s| ==> IsSpace(s[i])
  {
    if |s| > 0 && IsSpace(s[|s| - 1]) then RStrip(s[..|s| - 1]) else s
  }

  /** No whitespace at either end. */
  predicate Trimmed(s: string) {
    s == "" || (!IsSpace(s[0]) && !IsSpace(s[|s| - 1]))
  }

  /** `str.strip()`: the longest infix with no surrounding whitespace; a
      string without surrounding whitespace is returned unchanged. */
  function Strip(s: string): (r: string)
    ensures Trimmed(r)
    ensures |r| <= |s|
    ensures Trimmed(s) ==> r == s
  {
    var l := LStrip(s);
    var r := RStrip(l);
    assert r != "" ==> r[0] == l[0];
    assert r != "" ==> r[|r| - 1] == l[|r| - 1];
    r
  }

  function StartsWith(s: string, prefix: string): bool {
    |prefix| <= |s| && s[..|prefix|] == prefix
  }

  function EndsWith(s: string, suffix: string): bool {
    |suffix| <= |s| && s[|s| - |suffix|..] == suffix
  }

  /** `" ".join(x for x in parts if x)`. */
  function JoinNonEmpty(parts: seq<string>): (r: string)
    ensures r == "" <==> forall i :: 0 <= i < |parts| ==> parts[i] == ""
  {
    if |parts| == 0 then ""
    else
      var rest := JoinNonEmpty(parts[1..]);
      assert forall i :: 1 <= i < |parts| ==> parts[1..][i - 1] == parts[i];
      if parts[0] == "" then rest
      else if rest == "" then parts[0]
      else parts[0] + " " + rest
  }

  /** Joining trimmed parts with single spaces gives a trimmed string. */
  lemma {:induction false} JoinTrimmed(parts: seq<string>)
    requires forall i :: 0 <= i < |parts| ==> Trimmed(parts[i])
    ensures Trimmed(JoinNonEmpty(parts))
  {
    if |parts| != 0 {
      var rest := JoinNonEmpty(parts[1..]);
      assert forall i :: 0 <= i < |parts| - 1 ==> parts[1..][i] == parts[i + 1];
      JoinTrimmed(parts[1..]);
      if parts[0] != "" && rest != "" {
        var r := parts[0] + " " + rest;
        assert r[0] == parts[0][0];
        assert r[|r| - 1] == rest[|rest| - 1];
      }
    }
  }
}

=== FILE: sync.dfy ===
/**
 * `BaseTerytCache`: keeping a cache in step with the remote catalogue. The
 * remote version is probed at most once an hour; a cache whose stored
 * version is older than the probed one is brought up to date by replaying
 * the delta between the two versions, and a new cache is filled from a
 * full snapshot. The remote service, the download and the clock are
 * parameters: `remote` is the version the service reports, `delta` the
 * change records it returns for a pair of versions, `now` the time.
 */
module Sync {
  import opened Base
  import opened Dicts
  import opened Records
  import opened Tables
  import opened Manager
  import Delta
  import Terc
  import Simc

  /** How long a probed version is trusted, in seconds. */
  const VERSION_TTL: real := 3600.0

  /** The probe state of one cache object: the last probed version and the
      time until which it is trusted. A new object has version 0 and a
      deadline of 0, so its first call probes. */
  datatype Probe = Probe(version: int, deadline: real)

  const INITIAL_PROBE: Probe := Probe(0, 0.0)

  /** `cache_version`: after the deadline the service is asked and the
      answer is trusted for another hour; before it, the stored answer is
      returned without asking. */
  function CacheVersion(p: Probe, now: real, remote: int): (r: (int, Probe))
    ensures now > p.deadline ==> r == (remote, Probe(remote, now + VERSION_TTL))
    ensures now <= p.deadline ==> r == (p.version, p)
  {
    if now > p.deadline then (remote, Probe(remote, now + VERSION_TTL)) else (p.version, p)
  }

  /** Within an hour of a probe the version does not change, whatever the
      service would answer; a fresh object always asks. */
  lemma ProbeTrustedForAnHour(p: Probe, now: real, later: real, remote: int, remote': int)
    requires now > p.deadline
    requires later <= now + VERSION_TTL
    ensures var (v, p1) := CacheVersion(p, now, remote);
      v == remote && CacheVersion(p1, later, remote').0 == v
    ensures now > 0.0 ==> CacheVersion(INITIAL_PROBE, now, remote).0 == remote
  {
  }

  /** `_cache_update`: the table at the stored version is opened and the
      delta replayed on it, record by record. The writes of the records
      applied before a failure stay in the table; `meta` is never written,
      so the stored version stays what it was. */
  function CacheUpdate<V>(s: Store<V>, name: string, stored: int, changes: seq<Change>,
                          apply: (Table<V>, Change) -> Outcome<Table<V>>): (o: Outcome<Store<V>>)
    ensures o.state.meta == s.meta
    ensures GetCache(s, name, Some(stored)).Err? ==> o == Halted(s, GetCache(s, name, Some(stored)).error)
    ensures GetCache(s, name, Some(stored)).Ok? ==>
      var replayed := Delta.Replay(apply, GetCache(s, name, Some(stored)).value, changes);
      && o.state == s.(tables := s.tables[name := replayed.state])
      && (o.Halted? <==> replayed.Halted?)
      && (o.Halted? ==> o.error == replayed.error)
  {
    match GetCache(s, name, Some(stored))
    case Err(e) => Halted(s, e)
    case Ok(t) =>
      match Delta.Replay(apply, t, changes)
      case Done(t') => Done(s.(tables := s.tables[name := t']))
      case Halted(t', e) => Halted(s.(tables := s.tables[name := t']), e)
  }

  /** The state a cache object and the store are in between calls. */
  datatype Session<V> = Session(store: Store<V>, probe: Probe)

  /** What `get` returns: the table or the exception, and the state reached
      (writes made before an exception stay). */
  datatype Got<V> = Got(session: Session<V>, table: Result<Table<V>>)

  /** `BaseTerytCache.get` as written: on `CacheExpired` the delta from the
      stored version to the probed one is replayed and `get` called again.
      Nothing records the new version, so every retry finds the cache just
      as expired and replays the same delta again on the updated table,
      until a replay raises or the interpreter's recursion limit, modelled
      by `fuel`, is reached; either way no table is served. */
  function GetAsWritten<V>(ses: Session<V>, name: string, now: real, remote: int,
                           delta: (int, int) -> seq<Change>,
                           apply: (Table<V>, Change) -> Outcome<Table<V>>, fuel: nat): (g: Got<V>)
    ensures g.session.store.meta == ses.store.meta
    ensures g.session.store.tables.Keys == ses.store.tables.Keys
    decreases fuel
  {
    var (v, p1) := CacheVersion(ses.probe, now, remote);
    match GetCache(ses.store, name, Some(v))
    case Ok(t) => Got(Session(ses.store, p1), Ok(t))
    case Err(e) =>
      if !e.Expired? then Got(Session(ses.store, p1), Err(e))
      else if fuel == 0 then Got(Session(ses.store, p1), Err(RecursionLimit))
      else
        var stored := Version(ses.store, name);
        var (current, p2) := CacheVersion(p1, now, remote);
        match CacheUpdate(ses.store, name, stored, delta(stored, current), apply)
        case Halted(s', e') => Got(Session(s', p2), Err(e'))
        case Done(s') => GetAsWritten(Session(s', p2), name, now, remote, delta, apply, fuel - 1)
  }

  /** The replay leaves `meta` and the table's presence as they were, so a
      cache found expired is expired again on the retry: `get` as written
      never returns a table once its first attempt finds it expired. */
  lemma {:induction false} ExpiredNeverServed<V>(ses: Session<V>, name: string, now: real, remote: int,
                                                 delta: (int, int) -> seq<Change>,
                                                 apply: (Table<V>, Change) -> Outcome<Table<V>>, fuel: nat)
    requires GetCache(ses.store, name, Some(CacheVersion(ses.probe, now, remote).0)).Err?
    requires GetCache(ses.store, name, Some(CacheVersion(ses.probe, now, remote).0)).error.Expired?
    ensures GetAsWritten(ses, name, now, remote, delta, apply, fuel).table.Err?
    decreases fuel
  {
    var (v, p1) := CacheVersion(ses.probe, now, remote);
    if fuel > 0 {
      var stored := Version(ses.store, name);
      var (current, p2) := CacheVersion(p1, now, remote);
      var o := CacheUpdate(ses.store, name, stored, delta(stored, current), apply);
      if o.Done? {
        var s' := o.state;
        assert current == v && CacheVersion(p2, now, remote).0 == v;
        GetCacheDependsOnMeta(ses.store, s', name, Some(v));
        ExpiredNeverServed(Session(s', p2), name, now, remote, delta, apply, fuel - 1);
      }
    }
  }

  /** With an empty delta every replay succeeds and changes nothing, so
      `get` as written retries until the recursion limit. */
  lemma {:induction false} EmptyDeltaRecursesToLimit<V>(ses: Session<V>, name: string, now: real, remote: int,
                                                        delta: (int, int) -> seq<Change>,
                                                        apply: (Table<V>, Change) -> Outcome<Table<V>>, fuel: nat)
    requires forall a, b :: delta(a, b) == []
    requires name in ses.store.tables
    requires GetCache(ses.store, name, Some(CacheVersion(ses.probe, now, remote).0)).Err?
    requires GetCache(ses.store, name, Some(CacheVersion(ses.probe, now, remote).0)).error.Expired?
    ensures GetAsWritten(ses, name, now, remote, delta, apply, fuel).table == Err(RecursionLimit)
    decreases fuel
  {
    var (v, p1) := CacheVersion(ses.probe, now, remote);
    if fuel > 0 {
      var stored := Version(ses.store, name);
      var (current, p2) := CacheVersion(p1, now, remote);
      assert stored == ses.store.meta[name].version.value;
      assert GetCache(ses.store, name, Some(stored)) == Ok(ses.store.tables[name]);
      assert ses.store.(tables := ses.store.tables[name := ses.store.tables[name]]) == ses.store;
      var o := CacheUpdate(ses.store, name, stored, delta(stored, current), apply);
      assert o == Done(ses.store);
      assert current == v && CacheVersion(p2, now, remote).0 == v;
      EmptyDeltaRecursesToLimit(Session(ses.store, p2), name, now, remote, delta, apply, fuel - 1);
    }
  }

  /** `get` as intended: after a complete replay the probed version is
      recorded with `mark_ready`, so the retry finds the cache current. */
  function GetSynced<V>(ses: Session<V>, name: string, now: real, remote: int,
                        delta: (int, int) -> seq<Change>,
                        apply: (Table<V>, Change) -> Outcome<Table<V>>): (g: Got<V>)
    ensures g.session.store.tables.Keys == ses.store.tables.Keys
    ensures g.table.Ok? ==> name in g.session.store.meta && g.session.store.meta[name].status == Ready
  {
    var (v, p1) := CacheVersion(ses.probe, now, remote);
    match GetCache(ses.store, name, Some(v))
    case Ok(t) => Got(Session(ses.store, p1), Ok(t))
    case Err(e) =>
      if !e.Expired? then Got(Session(ses.store, p1), Err(e))
      else
        var stored := Version(ses.store, name);
        var (current, p2) := CacheVersion(p1, now, remote);
        match CacheUpdate(ses.store, name, stored, delta(stored, current), apply)
        case Halted(s', e') => Got(Session(s', p2), Err(e'))
        case Done(s') =>
          match MarkReady(s', name, current, now)
          case Err(e') => Got(Session(s', p2), Err(e'))
          case Ok(s'') =>
            var (w, p3) := CacheVersion(p2, now, remote);
            Got(Session(s'', p3), GetCache(s'', name, Some(w)))
  }

  /** An expired cache whose delta replays completely is served after one
      update: the table returned is the stored table with the delta
      replayed on it, and the stored version is now the probed one. */
  lemma ExpiredServedAfterUpdate<V>(ses: Session<V>, name: string, now: real, remote: int,
                                    delta: (int, int) -> seq<Change>,
                                    apply: (Table<V>, Change) -> Outcome<Table<V>>)
    requires GetCache(ses.store, name, Some(CacheVersion(ses.probe, now, remote).0)).Err?
    requires GetCache(ses.store, name, Some(CacheVersion(ses.probe, now, remote).0)).error.Expired?
    requires name in ses.store.tables
    requires var stored := Version(ses.store, name);
      var v := CacheVersion(ses.probe, now, remote).0;
      Delta.Replay(apply, ses.store.tables[name], delta(stored, v)).Done?
    ensures var stored := Version(ses.store, name);
      var v := CacheVersion(ses.probe, now, remote).0;
      var g := GetSynced(ses, name, now, remote, delta, apply);
      && g.table == Ok(Delta.Replay(apply, ses.store.tables[name], delta(stored, v)).state)
      && Version(g.session.store, name) == v
  {
    var s := ses.store;
    var v := CacheVersion(ses.probe, now, remote).0;
    var stored := Version(s, name);
    assert GetCache(s, name, Some(stored)) == Ok(s.tables[name]);
  }

  /** `create_cache` of a `BaseTerytCache`: probe the version, create the
      cache, load the snapshot's contents, mark it ready with the probed
      version. A `None` key in the contents raises during the load and
      leaves the cache created but not ready. */
  function CreateFromSnapshot<V>(ses: Session<V>, name: string, now: real, remote: int,
                                 contents: Dict<Text, V>): (o: Outcome<Session<V>>)
    ensures o.state.probe == CacheVersion(ses.probe, now, remote).1
    ensures name == META ==> o.Halted? && o.error == ForbiddenName(name) && o.state.store == ses.store
    ensures o.Done? ==> && name in o.state.store.meta && o.state.store.meta[name].status == Ready
                        && Version(o.state.store, name) == CacheVersion(ses.probe, now, remote).0
    ensures o.Halted? && name != META ==> name in o.state.store.meta && o.state.store.meta[name].status == Creating
    ensures forall n :: n != name ==> GetTable(o.state.store, n) == GetTable(ses.store, n)
  {
    var (v, p1) := CacheVersion(ses.probe, now, remote);
    match CreateCache(ses.store, name)
    case Err(e) => Halted(Session(ses.store, p1), e)
    case Ok(s1) =>
      match Reload(s1.tables[name], contents)
      case Halted(t, e) => Halted(Session(s1.(tables := s1.tables[name := t]), p1), e)
      case Done(t) =>
        var s2 := s1.(tables := s1.tables[name := t]);
        Done(Session(MarkReady(s2, name, v, now).value, p1))
  }

  /** A completed creation serves the loaded table at every version up to
      the probed one, and the table holds exactly the snapshot's contents;
      an interrupted one leaves the cache invisible to readers. */
  lemma SnapshotServed<V>(ses: Session<V>, name: string, now: real, remote: int,
                          contents: Dict<Text, V>, w: int, k: string)
    requires name != META
    ensures var o := CreateFromSnapshot(ses, name, now, remote, contents);
      o.Halted? ==> GetCache(o.state.store, name, Some(w)) == Err(NotInitialized(name))
    ensures var o := CreateFromSnapshot(ses, name, now, remote, contents);
      var v := CacheVersion(ses.probe, now, remote).0;
      o.Done? ==>
        && Version(o.state.store, name) == v
        && (w <= v ==> GetCache(o.state.store, name, Some(w)).Ok?)
        && (w <= v ==> Lookup(GetCache(o.state.store, name, Some(w)).value, k, None) == LastValue(contents, Some(k)))
  {
    var o := CreateFromSnapshot(ses, name, now, remote, contents);
    if o.Done? {
      ReloadContents(Fresh(), contents, k);
    }
  }

  /** `_data_to_cache_contents` of the TERC and SIMC caches: each entry
      under its cache key, the last entry of a key winning. */
  function Contents<E(==)>(entries: seq<E>, key: E -> Text): (r: Dict<Text, E>)
    ensures UniqueKeys(r)
  {
    var ps := seq(|entries|, i requires 0 <= i < |entries| => (key(entries[i]), entries[i]));
    FromPairsUnique(ps);
    FromPairs(ps)
  }

  /** Each key holds one of the entries with that key. */
  lemma ContentsKeyed<E>(entries: seq<E>, key: E -> Text, p: (Text, E))
    requires p in Contents(entries, key)
    ensures p.1 in entries && key(p.1) == p.0
  {
    var ps := seq(|entries|, i requires 0 <= i < |entries| => (key(entries[i]), entries[i]));
    FromPairsPairs(ps);
    var i :| 0 <= i < |ps| && ps[i] == p;
  }

  function TercKey(e: Terc.TercEntry): Text {
    Some(Terc.TercCode(e))
  }

  function SimcKey(e: Simc.SimcEntry): Text {
    e.sym
  }

  /** A loaded TERC snapshot stores every unit under its code. */
  lemma TercSnapshotKeyed(entries: seq<Terc.TercEntry>)
    ensures Reload(Fresh(), Contents(entries, TercKey)).Done?
    ensures Terc.KeyedByTerc(Reload(Fresh(), Contents(entries, TercKey)).state)
  {
    var contents := Contents(entries, TercKey);
    forall i | 0 <= i < |contents| ensures contents[i].0.Some? {
      ContentsKeyed(entries, TercKey, contents[i]);
    }
    var t := Reload(Fresh(), contents).state;
    forall k | k in t ensures Terc.TercCode(t[k]) == k {
      ReloadContents(Fresh(), contents, k);
      UniqueLastValue(contents, Some(k));
      ContentsKeyed(entries, TercKey, (Some(k), t[k]));
    }
  }

  /** A loaded SIMC snapshot whose localities all have a symbol stores
      every locality under its symbol. */
  lemma SimcSnapshotKeyed(entries: seq<Simc.SimcEntry>)
    requires forall i :: 0 <= i < |entries| ==> entries[i].sym.Some?
    ensures Reload(Fresh(), Contents(entries, SimcKey)).Done?
    ensures Simc.KeyedBySym(Reload(Fresh(), Contents(entries, SimcKey)).state)
  {
    var contents := Contents(entries, SimcKey);
    forall i | 0 <= i < |contents| ensures contents[i].0.Some? {
      ContentsKeyed(entries, SimcKey, contents[i]);
    }
    var t := Reload(Fresh(), contents).state;
    forall k | k in t ensures t[k].sym == Some(k) {
      ReloadContents(Fresh(), contents, k);
      UniqueLastValue(contents, Some(k));
      ContentsKeyed(entries, SimcKey, (Some(k), t[k]));
    }
  }
}

=== FILE: tables.dfy ===
/**
 * The table contract of the embedded (shelve-backed) store, with the
 * serializer treated as opaque: a table maps string keys to records.
 * `get` of an absent key yields the default (`None` unless a truthy
 * default is given), `add` overwrites, `delete` of an absent key raises
 * `KeyError`, `reload` adds every entry of a dict in order, and the driver's
 * `create` opens a new, empty table.
 */
module Tables {
  import opened Base
  import opened Dicts

  type Table<V> = map<string, V>

  /** `ShelveCache.get(name, default)`. A falsy default (the `None` default,
      or an empty dict) is passed as `None`: the code returns `None` then. */
  function Lookup<V>(t: Table<V>, k: string, default: Option<V>): (r: Option<V>)
    ensures k in t ==> r == Some(t[k])
    ensures k !in t ==> r == default
  {
    if k in t then Some(t[k]) else default
  }

  /** `ShelveCache.delete`: `del shelve[name]`. */
  function Delete<V>(t: Table<V>, k: string): (r: Result<Table<V>>)
    ensures r.Ok? <==> k in t
    ensures r.Err? ==> r.error == MissingKey
    ensures r.Ok? ==> Lookup(r.value, k, None) == None
    ensures r.Ok? ==> forall j :: j != k ==> Lookup(r.value, j, None) == Lookup(t, j, None)
  {
    if k in t then Ok(t - {k}) else Err(MissingKey)
  }

  /** `ShelveCacheDriver.create`: `shelve.open(..., flag='n')` always starts
      from an empty table, whatever the file held. */
  function Fresh<V>(): (t: Table<V>)
    ensures forall k :: Lookup(t, k, None) == None
  {
    map[]
  }

  /** `Cache.reload`: `add` every entry of `contents` in order. A `None` key
      makes the store raise; the entries added before it stay. */
  function Reload<V>(t: Table<V>, contents: Dict<Text, V>): (o: Outcome<Table<V>>)
    ensures o.Done? <==> forall i :: 0 <= i < |contents| ==> contents[i].0.Some?
  {
    if |contents| == 0 then Done(t)
    else
      var last := contents[|contents| - 1];
      assert forall i :: 0 <= i < |contents| - 1 ==> contents[..|contents| - 1][i] == contents[i];
      match Reload(t, contents[..|contents| - 1])
      case Halted(partial, e) => Halted(partial, e)
      case Done(before) =>
        match last.0
        case Some(k) => Done(before[k := last.1])
        case None => Halted(before, NoneValue)
  }

  /** After a reload with string keys, every key of `contents` holds the
      value of its last entry and every other key is untouched. */
  lemma {:induction false} ReloadContents<V>(t: Table<V>, contents: Dict<Text, V>, k: string)
    requires forall i :: 0 <= i < |contents| ==> contents[i].0.Some?
    ensures Reload(t, contents).Done?
    ensures LastValue(contents, Some(k)).Some? ==>
      Lookup(Reload(t, contents).state, k, None) == LastValue(contents, Some(k))
    ensures LastValue(contents, Some(k)).None? ==>
      Lookup(Reload(t, contents).state, k, None) == Lookup(t, k, None)
  {
    if |contents| != 0 {
      ReloadContents(t, contents[..|contents| - 1], k);
    }
  }

  /** `ShelveCache.keys` as written: the body calls `self.shelve.keys()` but
      has no `return`, so the caller always receives `None`. */
  function KeysAsWritten<V>(t: Table<V>): (r: Option<set<string>>)
    ensures r == None
  {
    None
  }

  /** `ShelveCache.keys` as intended: the keys `get` finds. */
  function StoredKeys<V>(t: Table<V>): (r: set<string>)
    ensures forall k :: k in r <==> Lookup(t, k, None).Some?
  {
    t.Keys
  }

  /** The missing `return` loses every key of a non-empty table. */
  lemma KeysAsWrittenLosesKeys<V>(t: Table<V>, k: string)
    requires k in t
    ensures KeysAsWritten(t).None?
    ensures k in StoredKeys(t)
  {
  }
}

=== FILE: terc.dfy ===
/**
 * TERC: the administrative units. An entry carries the segments of its
 * code (province `woj`, district `powiat`, commune `gmi`, commune kind
 * `rodz`) and is stored under its code `terc`. The delta handlers are `D`
 * (add), `U` (remove) and `M` (modify), each reading the before (`Przed`)
 * or after (`Po`) half of a change record.
 */
module Terc {
  import opened Base
  import opened Dicts
  import opened Records
  import opened Tables
  import Delta

  /** A `TercEntry`. `pow` is the attribute `update_from` writes when the
      after half carries a district (the constructor reads the district into
      `powiat`); nothing reads it back. `None` there means never written. */
  datatype TercEntry = TercEntry(
    woj: Text, powiat: Text, gmi: Text, rodz: Text,
    nazwadod: string, nazwa: Text, pow: Text)

  /** `TercEntry(dct)`, from a catalogue row. */
  function FromRow(d: Record): (e: TercEntry)
    ensures e.woj == Field(d, "woj") && e.powiat == Field(d, "pow") && e.gmi == Field(d, "gmi")
    ensures e.rodz == Field(d, "rodz") && e.nazwa == Field(d, "nazwa") && e.pow == None
    ensures e.nazwadod == Nvl(Field(d, "nazwadod"), "")
  {
    TercEntry(Field(d, "woj"), Field(d, "pow"), Field(d, "gmi"), Field(d, "rodz"),
              Nvl(Field(d, "nazwadod"), ""), Field(d, "nazwa"), None)
  }

  /** `dct['key'] if dct['key'] else ''`. */
  function OrEmpty(t: Text): Text {
    if Truthy(t) then t else Some("")
  }

  /** The keys `from_dict` reads. */
  predicate HasFields(d: Record) {
    && "woj" in Keys(d) && "powiat" in Keys(d) && "gmi" in Keys(d)
    && "rodz" in Keys(d) && "nazwadod" in Keys(d) && "nazwa" in Keys(d)
  }

  /** `TercEntry.from_dict` as written: it reads the six keys and then calls
      the one-argument constructor with six keyword arguments, which raises
      `TypeError` every time. */
  function FromDictAsWritten(d: Record): (r: Result<TercEntry>)
    ensures r.Err?
    ensures HasFields(d) ==> r == Err(ConstructorSignature)
  {
    var _ :- Index(d, "woj");
    var _ :- Index(d, "powiat");
    var _ :- Index(d, "gmi");
    var _ :- Index(d, "rodz");
    var _ :- Index(d, "nazwadod");
    var _ :- Index(d, "nazwa");
    Err(ConstructorSignature)
  }

  /** `TercEntry.from_dict` as intended: an entry with the six fields, a
      falsy district, commune or kind read as `""`. */
  function FromDict(d: Record): (r: Result<TercEntry>)
    ensures r.Ok? <==> HasFields(d)
    ensures r.Err? ==> r.error == MissingKey
    ensures r.Ok? ==> r.value.woj == Field(d, "woj") && r.value.nazwa == Field(d, "nazwa")
    ensures r.Ok? ==> r.value.powiat == OrEmpty(Field(d, "powiat")) && r.value.gmi == OrEmpty(Field(d, "gmi"))
    ensures r.Ok? ==> r.value.rodz == OrEmpty(Field(d, "rodz"))
    ensures r.Ok? ==> r.value.nazwadod == Nvl(Field(d, "nazwadod"), "") && r.value.pow == None
  {
    var woj :- Index(d, "woj");
    var powiat :- Index(d, "powiat");
    var gmi :- Index(d, "gmi");
    var rodz :- Index(d, "rodz");
    var nazwadod :- Index(d, "nazwadod");
    var nazwa :- Index(d, "nazwa");
    Ok(TercEntry(woj, OrEmpty(powiat), OrEmpty(gmi), OrEmpty(rodz), Nvl(nazwadod, ""), nazwa, None))
  }

  /** The as-written `from_dict` never yields an entry where the intended
      one does. */
  lemma FromDictAsWrittenFails(d: Record)
    requires FromDict(d).Ok?
    ensures FromDictAsWritten(d) == Err(ConstructorSignature)
    ensures FromDictAsWritten(d) != FromDict(d)
  {
  }

  /** A segment's contribution to a code: its text when truthy, else nothing. */
  function Seg(t: Text): string {
    if Truthy(t) then t.value else ""
  }

  /** `"".join(y for y in parts if y)`: the truthy parts, concatenated. */
  function JoinTruthy(parts: seq<Text>): string {
    if |parts| == 0 then "" else Seg(parts[0]) + JoinTruthy(parts[1..])
  }

  /** The parts of the code: `woj`, `powiat` and, only when `gmi` is
      truthy, `gmi` and `rodz`. */
  function CodeParts(e: TercEntry): seq<Text> {
    [e.woj, e.powiat] + (if Truthy(e.gmi) then [e.gmi, e.rodz] else [])
  }

  /** `TercEntry.terc`. */
  function TercCode(e: TercEntry): (r: string)
    ensures r == JoinTruthy(CodeParts(e))
  {
    JoinCodeParts(e);
    Seg(e.woj) + Seg(e.powiat) + (if Truthy(e.gmi) then e.gmi.value + Seg(e.rodz) else "")
  }

  lemma JoinCodeParts(e: TercEntry)
    ensures JoinTruthy(CodeParts(e)) ==
      Seg(e.woj) + Seg(e.powiat) + (if Truthy(e.gmi) then e.gmi.value + Seg(e.rodz) else "")
  {
    var parts := CodeParts(e);
    var n := |parts|;
    assert JoinTruthy(parts[n..]) == "";
    if Truthy(e.gmi) {
      assert parts[3..] == [e.rodz] && parts[3..][1..] == parts[4..];
      assert JoinTruthy(parts[3..]) == Seg(e.rodz);
      assert parts[2..][1..] == parts[3..];
      assert JoinTruthy(parts[2..]) == e.gmi.value + Seg(e.rodz);
      assert parts[1..][1..] == parts[2..];
      assert JoinTruthy(parts[1..]) == Seg(e.powiat) + e.gmi.value + Seg(e.rodz);
    } else {
      assert parts[1..][1..] == parts[2..];
      assert JoinTruthy(parts[1..]) == Seg(e.powiat);
    }
  }

  /** `TercEntry.parent_terc`: `woj + powiat` for a commune, `woj` for a
      district, `""` otherwise; joining a `None` raises `TypeError`. */
  function ParentTerc(e: TercEntry): (r: Result<string>)
    ensures r.Err? <==>
      (Truthy(e.gmi) && (e.woj.None? || e.powiat.None?)) || (!Truthy(e.gmi) && Truthy(e.powiat) && e.woj.None?)
    ensures r.Err? ==> r.error == NoneValue
  {
    if Truthy(e.gmi) then
      if e.woj.None? || e.powiat.None? then Err(NoneValue) else Ok(e.woj.value + e.powiat.value)
    else if Truthy(e.powiat) then
      if e.woj.None? then Err(NoneValue) else Ok(e.woj.value)
    else Ok("")
  }

  /** The parent code is a prefix of the code, and a proper one unless both
      are empty. */
  lemma ParentIsPrefix(e: TercEntry)
    requires ParentTerc(e).Ok?
    ensures ParentTerc(e).value <= TercCode(e)
    ensures |ParentTerc(e).value| < |TercCode(e)| || TercCode(e) == ParentTerc(e).value == ""
  {
    var p := ParentTerc(e).value;
    if Truthy(e.gmi) {
      assert Seg(e.woj) == e.woj.value && Seg(e.powiat) == e.powiat.value;
      assert TercCode(e) == p + (e.gmi.value + Seg(e.rodz));
    } else if Truthy(e.powiat) {
      assert TercCode(e) == p + e.powiat.value;
    }
  }

  /** `_TERC_RODZAJ_MAPPING`: commune kind codes to their names. */
  const RODZAJ: Dict<string, string> := [
    ("1", "gmina miejska"),
    ("2", "gmina wiejska"),
    ("3", "gmina miejsko-wiejska"),
    ("4", "miasto w gminie miejsko-wiejskiej"),
    ("5", "obszar wiejski w gminie miejsko-wiejskiej"),
    ("8", "dzielnica m.st. Warszawa"),
    ("9", "delegatury w gminach miejskich")
  ]

  /** `TercEntry.rodz_nazwa`: the name of the commune kind (`None` for an
      unknown code); without a kind, the tier implied by the code length,
      `KeyError` for any length but 2 and 4. */
  function RodzNazwa(e: TercEntry): (r: Result<Option<string>>)
    ensures Truthy(e.rodz) ==> r == Ok(Get(RODZAJ, e.rodz.value))
    ensures !Truthy(e.rodz) && |TercCode(e)| == 2 ==> r == Ok(Some("województwo"))
    ensures !Truthy(e.rodz) && |TercCode(e)| == 4 ==> r == Ok(Some("powiat"))
    ensures r.Err? <==> !Truthy(e.rodz) && |TercCode(e)| != 2 && |TercCode(e)| != 4
  {
    if Truthy(e.rodz) then Ok(Get(RODZAJ, e.rodz.value))
    else if |TercCode(e)| == 2 then Ok(Some("województwo"))
    else if |TercCode(e)| == 4 then Ok(Some("powiat"))
    else Err(MissingKey)
  }

  /** A unit with neither kind nor commune is a province or a district:
      with a two-digit province code it is named the province tier and has
      no parent, and with a two-digit district code as well it is named the
      district tier and its parent is the province. */
  lemma RodzNazwaTier(e: TercEntry)
    requires !Truthy(e.rodz) && !Truthy(e.gmi)
    requires e.woj.Some? && |e.woj.value| == 2
    requires !Truthy(e.powiat) || |e.powiat.value| == 2
    ensures !Truthy(e.powiat) ==> RodzNazwa(e) == Ok(Some("województwo")) && ParentTerc(e) == Ok("")
    ensures Truthy(e.powiat) ==> RodzNazwa(e) == Ok(Some("powiat")) && ParentTerc(e) == Ok(e.woj.value)
  {
  }

  /** `TercEntry.update_from`: overlays the truthy ones among `woj`, `pow`,
      `rodz`, `nazwadod`, `nazwa`. The district lands in `pow`, so `powiat`
      and `gmi` never change. */
  function UpdateFrom(e: TercEntry, other: Record): (r: TercEntry)
    ensures r.powiat == e.powiat && r.gmi == e.gmi
    ensures r.woj == Overlay(e.woj, Field(other, "woj")) && r.pow == Overlay(e.pow, Field(other, "pow"))
    ensures r.rodz == Overlay(e.rodz, Field(other, "rodz")) && r.nazwa == Overlay(e.nazwa, Field(other, "nazwa"))
    ensures r.nazwadod == Overlay(Some(e.nazwadod), Field(other, "nazwadod")).value
  {
    var nd := Field(other, "nazwadod");
    e.(woj := Overlay(e.woj, Field(other, "woj")),
       pow := Overlay(e.pow, Field(other, "pow")),
       rodz := Overlay(e.rodz, Field(other, "rodz")),
       nazwadod := if Truthy(nd) then nd.value else e.nazwadod,
       nazwa := Overlay(e.nazwa, Field(other, "nazwa")))
  }

  /** Overlaying the same fields twice changes nothing more. */
  lemma UpdateFromIdempotent(e: TercEntry, other: Record)
    ensures UpdateFrom(UpdateFrom(e, other), other) == UpdateFrom(e, other)
  {
  }

  /** Only a new province or (for a commune) a new kind can change the code:
      a new district is written to `pow` and is lost for the code. */
  lemma UpdateFromKeepsCode(e: TercEntry, other: Record)
    requires !Truthy(Field(other, "woj"))
    requires !Truthy(e.gmi) || !Truthy(Field(other, "rodz"))
    ensures TercCode(UpdateFrom(e, other)) == TercCode(e)
  {
  }

  /** A change record that renames only the district does not move the unit. */
  lemma DistrictChangeIgnored(e: TercEntry)
    ensures TercCode(UpdateFrom(e, [("pow", Some("99"))])) == TercCode(e)
    ensures UpdateFrom(e, [("pow", Some("99"))]).pow == Some("99")
  {
    var other: Record := [("pow", Some("99"))];
    assert Field(other, "woj") == None;
    assert Field(other, "rodz") == None;
    assert Field(other, "pow") == Some("99");
  }

  type TercTable = Table<TercEntry>

  /** Every entry is stored under its own code. */
  predicate KeyedByTerc(t: TercTable) {
    forall k :: k in t ==> TercCode(t[k]) == k
  }

  /** `_handle_d`: the after half becomes a new entry, added under its code
      (overwriting an entry already there). */
  function HandleD(t: TercTable, after: Record): (r: Result<TercTable>)
    ensures r.Ok? <==> FromDict(after).Ok?
    ensures r.Ok? ==> r.value == t[TercCode(FromDict(after).value) := FromDict(after).value]
  {
    var e :- FromDict(after);
    Ok(t[TercCode(e) := e])
  }

  /** `_handle_u`: the entry under the code of the before half is deleted. */
  function HandleU(t: TercTable, before: Record): (r: Result<TercTable>)
    ensures r.Ok? <==> FromDict(before).Ok? && TercCode(FromDict(before).value) in t
    ensures r.Ok? ==> r.value == t - {TercCode(FromDict(before).value)}
  {
    var prior :- FromDict(before);
    Delete(t, TercCode(prior))
  }

  /** `_handle_m`: the entry under the before code is overlaid with the
      after half and stored under its (possibly new) code; the old code is
      deleted exactly when the code changed. */
  function HandleM(t: TercTable, before: Record, after: Record): (r: Result<TercTable>)
    ensures FromDict(before).Ok? && TercCode(FromDict(before).value) !in t ==> r == Err(ModifyNonexistent)
    ensures r.Ok? <==> FromDict(before).Ok? && TercCode(FromDict(before).value) in t
  {
    var prior :- FromDict(before);
    Modify(t, TercCode(prior), after)
  }

  /** The body of `_handle_m` once the before code `key` is known. */
  function Modify(t: TercTable, key: string, after: Record): Result<TercTable> {
    match Lookup(t, key, None)
    case None => Err(ModifyNonexistent)
    case Some(entry) =>
      // the before code was just found, so deleting it cannot fail
      Ok(Move(t, key, UpdateFrom(entry, after)))
  }

  /** The writes of `_handle_m` once the entry is updated: delete the old
      code when the code changed, then add under the new one. */
  function Move(t: TercTable, key: string, updated: TercEntry): TercTable {
    var t' := if key != TercCode(updated) then t - {key} else t;
    t'[TercCode(updated) := updated]
  }

  /** A modified entry is reachable under its new code and nowhere else it
      was: the before code is gone when the code changed, and every other
      entry is untouched. */
  lemma ModifyMoves(t: TercTable, before: Record, after: Record)
    requires HandleM(t, before, after).Ok?
    ensures var key := TercCode(FromDict(before).value);
            var updated := UpdateFrom(t[key], after);
            var t' := HandleM(t, before, after).value;
            && Lookup(t', TercCode(updated), None) == Some(updated)
            && (key != TercCode(updated) ==> key !in t')
            && (forall k :: k != key && k != TercCode(updated) ==> Lookup(t', k, None) == Lookup(t, k, None))
  {
    var key := TercCode(FromDict(before).value);
    var updated := UpdateFrom(t[key], after);
    ModifyStep(t, before, after);
    MoveFacts(t, key, updated);
  }

  lemma MoveFacts(t: TercTable, key: string, updated: TercEntry)
    ensures var t' := Move(t, key, updated);
            && Lookup(t', TercCode(updated), None) == Some(updated)
            && (key != TercCode(updated) ==> key !in t')
            && (forall k :: k != key && k != TercCode(updated) ==> Lookup(t', k, None) == Lookup(t, k, None))
  {
  }

  /** Adding under a code not yet present inserts exactly one entry, found
      under that code. */
  lemma AddInsertsOne(t: TercTable, after: Record)
    requires HandleD(t, after).Ok?
    requires TercCode(FromDict(after).value) !in t
    ensures HandleD(t, after).value.Keys == t.Keys + {TercCode(FromDict(after).value)}
    ensures |HandleD(t, after).value| == |t| + 1
    ensures Lookup(HandleD(t, after).value, TercCode(FromDict(after).value), None) == Some(FromDict(after).value)
  {
  }

  /** The operation letters `TerytCache.change_handlers` knows. */
  const OPS: set<string> := {"D", "U", "M"}

  /** One change record, dispatched on its operation letter. */
  function Apply(t: TercTable, c: Change): (o: Outcome<TercTable>)
    ensures (c.op.None? || c.op.value !in OPS) <==> o == Halted(t, UnknownOperation(c.op))
  {
    var before := UpdateRecordToDict(c.elems, "Przed");
    var after := UpdateRecordToDict(c.elems, "Po");
    match c.op
    case Some("D") => Lift(t, HandleD(t, after))
    case Some("U") => Lift(t, HandleU(t, before))
    case Some("M") => Lift(t, HandleM(t, before, after))
    case _ => Halted(t, UnknownOperation(c.op))
  }

  /** The dispatch as written: `_handle_d`, `_handle_u` and `_handle_m` each
      start with `TercEntry.from_dict`, which always raises, so every record
      raises before anything is written. */
  function ApplyAsWritten(t: TercTable, c: Change): (o: Outcome<TercTable>)
    ensures o.Halted? && o.state == t
    ensures (c.op.None? || c.op.value !in OPS) <==> o.error == UnknownOperation(c.op)
    ensures c.op == Some("D") && HasFields(UpdateRecordToDict(c.elems, "Po")) ==> o.error == ConstructorSignature
    ensures c.op in {Some("U"), Some("M")} && HasFields(UpdateRecordToDict(c.elems, "Przed")) ==> o.error == ConstructorSignature
  {
    var before := UpdateRecordToDict(c.elems, "Przed");
    var after := UpdateRecordToDict(c.elems, "Po");
    match c.op
    case Some("D") =>
      (match FromDictAsWritten(after)
       case Err(e) => Halted(t, e)
       case Ok(e) => Done(t[TercCode(e) := e]))
    case Some("U") =>
      (match FromDictAsWritten(before)
       case Err(e) => Halted(t, e)
       case Ok(prior) => Lift(t, Delete(t, TercCode(prior))))
    case Some("M") =>
      (match FromDictAsWritten(before)
       case Err(e) => Halted(t, e)
       case Ok(prior) => Lift(t, Modify(t, TercCode(prior), after)))
    case _ => Halted(t, UnknownOperation(c.op))
  }

  /** So, as written, a TERC delta never changes the table: replaying it
      leaves the table as it was, halting at the first record. */
  lemma {:induction false} ReplayAsWrittenChangesNothing(t: TercTable, changes: seq<Change>)
    ensures Delta.Replay(ApplyAsWritten, t, changes).state == t
    ensures |changes| > 0 ==> Delta.Replay(ApplyAsWritten, t, changes).Halted?
  {
    if |changes| > 0 {
      ReplayAsWrittenChangesNothing(t, changes[..|changes| - 1]);
    }
  }

  /** Every handler keeps each entry under its own code. */
  lemma ApplyKeepsKeying(t: TercTable, c: Change)
    requires KeyedByTerc(t)
    ensures KeyedByTerc(Apply(t, c).state)
  {
    var before := UpdateRecordToDict(c.elems, "Przed");
    var after := UpdateRecordToDict(c.elems, "Po");
    match c.op
    case Some("D") => HandlersKeepKeying(t, before, after);
    case Some("U") => HandlersKeepKeying(t, before, after);
    case Some("M") => HandlersKeepKeying(t, before, after);
    case _ =>
  }

  lemma HandlersKeepKeying(t: TercTable, before: Record, after: Record)
    requires KeyedByTerc(t)
    ensures HandleD(t, after).Ok? ==> KeyedByTerc(HandleD(t, after).value)
    ensures HandleU(t, before).Ok? ==> KeyedByTerc(HandleU(t, before).value)
    ensures HandleM(t, before, after).Ok? ==> KeyedByTerc(HandleM(t, before, after).value)
  {
    if HandleD(t, after).Ok? {
      StoreKeepsKeying(t, FromDict(after).value);
    }
    if HandleM(t, before, after).Ok? {
      ModifyKeepsKeying(t, before, after);
    }
  }

  lemma ModifyKeepsKeying(t: TercTable, before: Record, after: Record)
    requires KeyedByTerc(t)
    requires HandleM(t, before, after).Ok?
    ensures KeyedByTerc(HandleM(t, before, after).value)
  {
    var key := TercCode(FromDict(before).value);
    ModifyStep(t, before, after);
    MoveKeepsKeying(t, key, UpdateFrom(t[key], after));
  }

  /** A successful modification is the move of the updated entry. */
  lemma ModifyStep(t: TercTable, before: Record, after: Record)
    requires HandleM(t, before, after).Ok?
    ensures var key := TercCode(FromDict(before).value);
            HandleM(t, before, after) == Ok(Move(t, key, UpdateFrom(t[key], after)))
  {
    var key := TercCode(FromDict(before).value);
    assert HandleM(t, before, after) == Modify(t, key, after);
    assert Lookup(t, key, None) == Some(t[key]);
  }

  lemma MoveKeepsKeying(t: TercTable, key: string, updated: TercEntry)
    requires KeyedByTerc(t)
    ensures KeyedByTerc(Move(t, key, updated))
  {
    var t' := if key != TercCode(updated) then t - {key} else t;
    assert KeyedByTerc(t');
    StoreKeepsKeying(t', updated);
  }

  lemma StoreKeepsKeying(t: TercTable, e: TercEntry)
    requires KeyedByTerc(t)
    ensures KeyedByTerc(t[TercCode(e) := e])
  {
    var t' := t[TercCode(e) := e];
    forall k | k in t' ensures TercCode(t'[k]) == k {
      if k != TercCode(e) {
        assert t'[k] == t[k];
      }
    }
  }

  /** So does a whole delta, whatever record it stops at. */
  lemma ReplayKeepsKeying(t: TercTable, changes: seq<Change>)
    requires KeyedByTerc(t)
    ensures KeyedByTerc(Delta.Replay(Apply, t, changes).state)
  {
    forall x, c | KeyedByTerc(x) ensures KeyedByTerc(Apply(x, c).state) {
      ApplyKeepsKeying(x, c);
    }
    Delta.ReplayKeeps(Apply, KeyedByTerc, t, changes);
  }

  /** The unit `0214011` named `Przykład`, as the constructor builds it. */
  function Przyklad(): TercEntry {
    TercEntry(Some("02"), Some("14"), Some("01"), Some("1"), "", Some("Przykład"), None)
  }

  lemma PrzykladCode()
    ensures TercCode(Przyklad()) == "0214011"
  {
    var e := Przyklad();
    assert Truthy(e.woj) && Truthy(e.powiat) && Truthy(e.gmi) && Truthy(e.rodz);
    assert Seg(e.woj) == "02" && Seg(e.powiat) == "14" && Seg(e.rodz) == "1";
    assert "02" + "14" + ("01" + "1") == "0214011";
  }

  /** An after half that carries neither a province, a district, a kind nor
      an additional name renames the unit in place: same code, same key,
      nothing else touched. */
  lemma RenameInPlace(t: TercTable, before: Record, after: Record)
    requires FromDict(before).Ok? && TercCode(FromDict(before).value) in t
    requires KeyedByTerc(t)
    requires Field(after, "woj") == None && Field(after, "pow") == None
    requires Field(after, "rodz") == None && Field(after, "nazwadod") == None
    ensures var key := TercCode(FromDict(before).value);
            HandleM(t, before, after) == Ok(t[key := t[key].(nazwa := Overlay(t[key].nazwa, Field(after, "nazwa")))])
  {
    var key := TercCode(FromDict(before).value);
    UpdateFromKeepsCode(t[key], after);
    assert UpdateFrom(t[key], after) == t[key].(nazwa := Overlay(t[key].nazwa, Field(after, "nazwa")));
  }

  /** A `Modify` of the unit `0214011` named `Przykład` whose after half
      carries only `nazwa = "Nowy"` leaves the unit under `0214011`, renamed. */
  lemma RenameScenario(before: Record)
    requires FromDict(before).Ok? && TercCode(FromDict(before).value) == "0214011"
    ensures var t := map["0214011" := Przyklad()];
            HandleM(t, before, [("nazwa", Some("Nowy"))]) == Ok(t["0214011" := Przyklad().(nazwa := Some("Nowy"))])
  {
    var after: Record := [("nazwa", Some("Nowy"))];
    PrzykladCode();
    assert Field(after, "woj") == None && Field(after, "pow") == None && Field(after, "rodz") == None;
    assert Field(after, "nazwadod") == None && Field(after, "nazwa") == Some("Nowy");
    var t := map["0214011" := Przyklad()];
    RenameInPlace(t, before, after);
    assert Overlay(t["0214011"].nazwa, Field(after, "nazwa")) == Some("Nowy");
  }
}

=== FILE: ulic.dfy ===
/**
 * The ULIC cache: one `UlicMultiEntry` per street identifier, and the
 * delta handlers `D` (a street added to a locality), `U` (removed from
 * it), `M` (a member's fields changed) and `Z` (every member of a street
 * changed). A stored street is falsy when it has no members, so the
 * handlers treat an empty street like a missing one.
 */
module Ulic {
  import opened Base
  import opened Dicts
  import opened Records
  import opened Tables
  import opened Streets
  import opened Grouping
  import Delta

  type UlicTable = Table<UlicMultiEntry>

  /** Python truthiness of `cache.get(key)`: present and with members. */
  function Found(t: UlicTable, key: string): (r: Option<UlicMultiEntry>)
    ensures r.Some? <==> key in t && |t[key].entries| > 0
    ensures r.Some? ==> r.value == t[key]
  {
    match Lookup(t, key, None)
    case Some(m) => if |m.entries| > 0 then Some(m) else None
    case None => None
  }

  /** `_handle_d`: the after half becomes a member; it joins the stored
      street of its identifier, or starts a new one. */
  function HandleD(t: UlicTable, after: Record): (r: Result<UlicTable>)
    ensures r.Err? ==> !r.error.UnknownOperation?
    ensures var p := FromUpdate(after);
      r.Ok? <==> && p.Ok? && p.value.symul.Some?
                 && Cecha(p.value).Ok? && Nazwa(p.value).Ok?
                 && (Found(t, p.value.symul.value).Some? ==> t[p.value.symul.value].symul == p.value.symul)
    ensures r.Ok? ==>
      var e := FromUpdate(after).value;
      var key := e.symul.value;
      && key in r.value
      && Get(r.value[key].entries, e.sym) == Some(e)
      && (forall k :: k != key ==> Lookup(r.value, k, None) == Lookup(t, k, None))
  {
    match FromUpdate(after)
    case Err(err) => Err(err)
    case Ok(e) =>
      match e.symul
      case None => Err(NoneValue)
      case Some(key) => Join(t, key, e)
  }

  /** The writes of `_handle_d` once the member is built: it joins the
      street found under `key`, or starts a new one there. */
  function Join(t: UlicTable, key: string, e: UlicEntry): (r: Result<UlicTable>)
    ensures r.Err? ==> !r.error.UnknownOperation?
    ensures r.Ok? <==> Cecha(e).Ok? && Nazwa(e).Ok? && (Found(t, key).Some? ==> t[key].symul == e.symul)
    ensures r.Ok? ==>
      && key in r.value
      && Get(r.value[key].entries, e.sym) == Some(e)
      && (forall k :: k != key ==> Lookup(r.value, k, None) == Lookup(t, k, None))
  {
    match Found(t, key)
    case Some(m) =>
      (match AddEntry(m, e)
       case Err(err) => Err(err)
       case Ok(m') => AddEntryLookup(m, e, e.sym); Ok(t[key := m']))
    case None =>
      match New(e)
      case Err(err) => Err(err)
      case Ok(m) => Ok(t[key := m])
  }

  /** `_handle_u`: the member under the before half's locality symbol is
      removed from the street; a street left without members is deleted,
      otherwise it is stored again under its identifier. */
  function HandleU(t: UlicTable, before: Record): (r: Result<UlicTable>)
    ensures r.Err? ==> !r.error.UnknownOperation?
    ensures var p := FromUpdate(before);
      r.Ok? <==> && p.Ok? && p.value.symul.Some? && p.value.symul.value in t
                 && p.value.sym in Keys(t[p.value.symul.value].entries)
                 && (|t[p.value.symul.value].entries| == 1 || t[p.value.symul.value].symul.Some?)
  {
    match FromUpdate(before)
    case Err(err) => Err(err)
    case Ok(prior) =>
      match prior.symul
      case None => Err(NoneValue)
      case Some(key) =>
        match Lookup(t, key, None)
        case None => Err(NoneValue)
        case Some(m) =>
          match RemoveBySym(m, prior.sym)
          case Err(err) => Err(err)
          case Ok(m') =>
            if |m'.entries| == 0 then
              // the street was just found under `key`, so deleting it cannot fail
              Ok(t - {key})
            else
              match m'.symul
              case None => Err(NoneValue)
              case Some(key') => Ok(t[key' := m'])
  }

  /** `_handle_m`. The member under the before half's locality symbol is
      overlaid with the after half in place, under its old symbol. When its
      street identifier no longer matches the before half's, it is also
      moved: removed from the old street (deleted when empty) and added to
      the street of its identifier; the writes made before a failure stay. */
  function HandleM(t: UlicTable, before: Record, after: Record): (o: Outcome<UlicTable>)
    ensures FromUpdate(before).Ok? && !Truthy(FromUpdate(before).value.symul) ==> o == Halted(t, ModifyNonexistent)
    ensures var p := FromUpdate(before);
      p.Ok? && Truthy(p.value.symul) && Found(t, p.value.symul.value).None? ==> o == Halted(t, ModifyNonexistent)
    ensures o.Halted? ==> !o.error.UnknownOperation?
  {
    match FromUpdate(before)
    case Err(e) => Halted(t, e)
    case Ok(prior) =>
      var found := if Truthy(prior.symul) then Found(t, prior.symul.value) else None;
      match found
      case None => Halted(t, ModifyNonexistent)
      case Some(m) =>
        match Get(m.entries, prior.sym)
        case None => Halted(t, MissingKey)
        case Some(member) =>
          match UpdateFrom(member, after)
          case Err(e) => Halted(t, e)
          case Ok(updated) =>
            var m1 := m.(entries := Put(m.entries, prior.sym, updated));
            if prior.symul == updated.symul then
              match m1.symul
              case None => Halted(t, NoneValue)
              case Some(k) => Done(t[k := m1])
            else
              GetPut(m.entries, prior.sym, updated, prior.sym);
              MoveMember(t, prior, m1, updated)
  }

  /** The moving branch of `_handle_m`, once the member has been updated in
      place inside `m1`, the street found under the before identifier. */
  function MoveMember(t: UlicTable, prior: UlicEntry, m1: UlicMultiEntry, updated: UlicEntry): (o: Outcome<UlicTable>)
    requires Truthy(prior.symul) && prior.sym in Keys(m1.entries)
    ensures o.Halted? ==> !o.error.UnknownOperation?
    ensures o.Done? ==> && updated.symul.Some? && updated.symul.value in o.state
                        && Get(o.state[updated.symul.value].entries, updated.sym) == Some(updated)
    ensures updated.symul.None? ==> o.Halted? && o.error == NoneValue
    ensures forall k :: k != prior.symul.value && Some(k) != updated.symul ==>
      Lookup(o.state, k, None) == Lookup(t, k, None)
    ensures updated.symul != prior.symul ==>
      var m2 := RemoveBySym(m1, prior.sym).value;
      && (|m2.entries| == 0 ==> prior.symul.value !in o.state)
      && (|m2.entries| > 0 ==> prior.symul.value in o.state && o.state[prior.symul.value] == m2)
  {
    var key := prior.symul.value;
    var m2 := RemoveBySym(m1, prior.sym).value;
    var t1 := if |m2.entries| == 0 then t - {key} else t[key := m2];
    match updated.symul
    case None => Halted(t1, NoneValue)
    case Some(k) =>
      match Target(t1, k, updated)
      case Err(e) => Halted(t1, e)
      case Ok(m3) =>
        match m3.symul
        case None => Halted(t1, NoneValue)
        case Some(k3) => Done(t1[k3 := m3])
  }

  /** The street the moved member joins: the one found under its new
      identifier `k`, or a new one-member street. */
  function Target(t: UlicTable, k: string, updated: UlicEntry): (r: Result<UlicMultiEntry>)
    requires updated.symul == Some(k)
    ensures r.Ok? ==> r.value.symul == updated.symul && Get(r.value.entries, updated.sym) == Some(updated)
    ensures Found(t, k).Some? && r.Ok? ==> r.value == t[k].(entries := Put(t[k].entries, updated.sym, updated))
    ensures Found(t, k).None? && r.Ok? ==> r.value.entries == [(updated.sym, updated)]
    ensures r.Err? ==> !r.error.UnknownOperation?
  {
    match Found(t, k)
    case None => New(updated)
    case Some(m) =>
      match AddEntry(m, updated)
      case Err(e) => Err(e)
      case Ok(m') => AddEntryLookup(m, updated, updated.sym); Ok(m')
  }

  /** `update_from` on every member, in order; the members keep their keys. */
  function UpdateAll(entries: Dict<Text, UlicEntry>, after: Record): (r: Result<Dict<Text, UlicEntry>>)
    ensures r.Ok? ==> |r.value| == |entries| && Keys(r.value) == Keys(entries)
    ensures r.Ok? ==> forall i :: 0 <= i < |entries| ==> UpdateFrom(entries[i].1, after) == Ok(r.value[i].1)
    ensures r.Err? ==> !r.error.UnknownOperation?
  {
    if |entries| == 0 then Ok([])
    else
      var u :- UpdateFrom(entries[0].1, after);
      var rest :- UpdateAll(entries[1..], after);
      Ok([(entries[0].0, u)] + rest)
  }

  /** Updating the members fails exactly when the after half cannot be
      applied to any entry, and then fails on the first member. */
  lemma {:induction false} UpdateAllOk(entries: Dict<Text, UlicEntry>, after: Record)
    ensures UpdateAll(entries, after).Ok? <==> |entries| == 0 || UpdateFrom(entries[0].1, after).Ok?
  {
    if |entries| > 1 {
      UpdateFromUniform(entries[0].1, entries[1].1, after);
      UpdateAllOk(entries[1..], after);
    }
  }

  /** The loop of `_handle_z` on one street: every member is overlaid with
      the after half, and the street then takes the identifier, label and
      name of the last member. A street without members raises: the loop
      variable is never bound. */
  function ChangeAll(m: UlicMultiEntry, after: Record): (r: Result<UlicMultiEntry>)
    ensures r.Err? ==> !r.error.UnknownOperation?
    ensures r.Ok? ==> UpdateAll(m.entries, after).Ok? && r.value.entries == UpdateAll(m.entries, after).value
    ensures r.Ok? ==> |r.value.entries| > 0
    ensures r.Ok? ==> var last := r.value.entries[|r.value.entries| - 1].1;
      r.value.symul == last.symul && Cecha(last) == Ok(r.value.cecha) && Nazwa(last) == Ok(r.value.nazwa)
  {
    match UpdateAll(m.entries, after)
    case Err(e) => Err(e)
    case Ok(entries) =>
      if |entries| == 0 then Err(UnboundMember)
      else
        var last := entries[|entries| - 1].1;
        match Cecha(last)
        case Err(e) => Err(e)
        case Ok(cecha) =>
          match Nazwa(last)
          case Err(e) => Err(e)
          case Ok(nazwa) => Ok(UlicMultiEntry(last.symul, cecha, nazwa, entries))
  }

  /** `_handle_z`: the street under the before identifier is changed and
      stored under its (new) identifier. The before identifier is not
      deleted. */
  function HandleZ(t: UlicTable, before: Record, after: Record): (r: Result<UlicTable>)
    ensures r.Err? ==> !r.error.UnknownOperation?
    ensures var p := FromUpdate(before);
      r.Ok? <==> && p.Ok? && p.value.symul.Some? && p.value.symul.value in t
                 && ChangeAll(t[p.value.symul.value], after).Ok?
                 && ChangeAll(t[p.value.symul.value], after).value.symul.Some?
    ensures r.Ok? ==>
      var m' := ChangeAll(t[FromUpdate(before).value.symul.value], after).value;
      var key' := m'.symul.value;
      && key' in r.value && r.value[key'] == m'
      && (forall k :: k != key' ==> Lookup(r.value, k, None) == Lookup(t, k, None))
  {
    var prior :- FromUpdate(before);
    var key :- KeyOf(prior.symul);
    match Lookup(t, key, None)
    case None => Err(NoneValue)
    case Some(m) =>
      var m' :- ChangeAll(m, after);
      var key' :- KeyOf(m'.symul);
      Ok(t[key' := m'])
  }

  /** The operation letters `UlicCache.change_handlers` knows. */
  const OPS: set<string> := {"D", "M", "U", "Z"}

  /** One change record, dispatched on its operation letter. */
  function Apply(t: UlicTable, c: Change): (o: Outcome<UlicTable>)
    ensures (c.op.None? || c.op.value !in OPS) <==> o == Halted(t, UnknownOperation(c.op))
  {
    var before := UpdateRecordToDict(c.elems, "Przed");
    var after := UpdateRecordToDict(c.elems, "Po");
    match c.op
    case Some("D") => Lift(t, HandleD(t, after))
    case Some("M") => HandleM(t, before, after)
    case Some("U") => Lift(t, HandleU(t, before))
    case Some("Z") => Lift(t, HandleZ(t, before, after))
    case _ => Halted(t, UnknownOperation(c.op))
  }

  /** A stored street is well formed: it is stored under its own
      identifier, has members, no locality symbol twice, and every member
      belongs to it. */
  predicate Street(key: string, m: UlicMultiEntry) {
    && m.symul == Some(key)
    && |m.entries| > 0
    && UniqueKeys(m.entries)
    && Consistent(m)
  }

  predicate WellFormed(t: UlicTable) {
    forall k :: k in t ==> Street(k, t[k])
  }

  /** Storing a well-formed street under its identifier keeps the table
      well formed. */
  lemma StoreKeepsWellFormed(t: UlicTable, key: string, m: UlicMultiEntry)
    requires WellFormed(t) && Street(key, m)
    ensures WellFormed(t[key := m])
  {
  }

  /** A member that belongs to the street, put into a well-formed street,
      keeps it well formed. */
  lemma PutKeepsStreet(key: string, m: UlicMultiEntry, sym: Text, v: UlicEntry)
    requires Street(key, m) && v.symul == Some(key)
    ensures Street(key, m.(entries := Put(m.entries, sym, v)))
  {
    PutUnique(m.entries, sym, v);
    PutPairs(m.entries, sym, v);
    var r := Put(m.entries, sym, v);
    forall i | 0 <= i < |r| ensures r[i].1.symul == Some(key) {
      assert r[i] in r;
    }
  }

  lemma AddKeepsWellFormed(t: UlicTable, after: Record)
    requires WellFormed(t)
    ensures HandleD(t, after).Ok? ==> WellFormed(HandleD(t, after).value)
  {
    if HandleD(t, after).Ok? {
      var e := FromUpdate(after).value;
      var key := e.symul.value;
      assert HandleD(t, after) == Join(t, key, e);
      JoinKeepsWellFormed(t, key, e);
    }
  }

  lemma JoinKeepsWellFormed(t: UlicTable, key: string, e: UlicEntry)
    requires WellFormed(t) && e.symul == Some(key)
    ensures Join(t, key, e).Ok? ==> WellFormed(Join(t, key, e).value)
  {
    if Join(t, key, e).Ok? {
      match Found(t, key)
      case Some(m) =>
        PutKeepsStreet(key, m, e.sym, e);
        StoreKeepsWellFormed(t, key, AddEntry(m, e).value);
      case None =>
        StoreKeepsWellFormed(t, key, New(e).value);
    }
  }

  lemma RemoveKeepsWellFormed(t: UlicTable, before: Record)
    requires WellFormed(t)
    ensures HandleU(t, before).Ok? ==> WellFormed(HandleU(t, before).value)
  {
    if HandleU(t, before).Ok? {
      var prior := FromUpdate(before).value;
      var key := prior.symul.value;
      var m := t[key];
      var m' := RemoveBySym(m, prior.sym).value;
      if |m'.entries| != 0 {
        RemoveLookup(m, prior.sym, None);
        ConsistencyKept(m, prior, prior.sym, []);
        StoreKeepsWellFormed(t, key, m');
      }
    }
  }

  /** In a well-formed table a member always belongs to the street it is
      found in, so the moving branch of `_handle_m` is never taken: the
      member is updated in place and the street stays under its key. */
  lemma ModifyInPlace(t: UlicTable, before: Record, after: Record)
    requires WellFormed(t)
    requires FromUpdate(before).Ok? && Truthy(FromUpdate(before).value.symul)
    requires FromUpdate(before).value.symul.value in t
    ensures var prior := FromUpdate(before).value;
      var key := prior.symul.value;
      var m := t[key];
      match Get(m.entries, prior.sym)
      case None => HandleM(t, before, after) == Halted(t, MissingKey)
      case Some(member) =>
        match UpdateFrom(member, after)
        case Err(e) => HandleM(t, before, after) == Halted(t, e)
        case Ok(updated) =>
          && updated.symul == prior.symul
          && HandleM(t, before, after) == Done(t[key := m.(entries := Put(m.entries, prior.sym, updated))])
  {
    var prior := FromUpdate(before).value;
    var key := prior.symul.value;
    var m := t[key];
    if Get(m.entries, prior.sym).Some? {
      var member := Get(m.entries, prior.sym).value;
      assert (prior.sym, member) in m.entries;
      assert member.symul == Some(key);
    }
  }

  lemma ModifyKeepsWellFormed(t: UlicTable, before: Record, after: Record)
    requires WellFormed(t)
    ensures WellFormed(HandleM(t, before, after).state)
  {
    var prior := FromUpdate(before);
    if prior.Ok? && Truthy(prior.value.symul) && prior.value.symul.value in t {
      ModifyInPlace(t, before, after);
      var key := prior.value.symul.value;
      var m := t[key];
      match Get(m.entries, prior.value.sym)
      case None =>
      case Some(member) =>
        assert (prior.value.sym, member) in m.entries;
        match UpdateFrom(member, after)
        case Err(_) =>
        case Ok(updated) =>
          PutKeepsStreet(key, m, prior.value.sym, updated);
          StoreKeepsWellFormed(t, key, m.(entries := Put(m.entries, prior.value.sym, updated)));
    }
  }

  /** Updating the members of a well-formed street keeps their symbols
      and their street. */
  lemma UpdateAllKeepsStreet(key: string, m: UlicMultiEntry, after: Record)
    requires Street(key, m)
    requires UpdateAll(m.entries, after).Ok?
    ensures var entries := UpdateAll(m.entries, after).value;
      && UniqueKeys(entries)
      && forall i :: 0 <= i < |entries| ==> entries[i].1.symul == Some(key)
  {
    var entries := UpdateAll(m.entries, after).value;
    forall i | 0 <= i < |entries| ensures entries[i].1.symul == Some(key) {
      assert UpdateFrom(m.entries[i].1, after) == Ok(entries[i].1);
      assert m.entries[i] in m.entries;
    }
    forall i, j | 0 <= i < j < |entries| ensures entries[i].0 != entries[j].0 {
      assert Keys(entries)[i] == Keys(m.entries)[i];
      assert Keys(entries)[j] == Keys(m.entries)[j];
    }
  }

  /** On a well-formed street the loop of `_handle_z` keeps the street's
      identifier and its locality symbols, in order, and the result is a
      well-formed street again. */
  lemma ChangeAllKeepsStreet(key: string, m: UlicMultiEntry, after: Record)
    requires Street(key, m)
    requires ChangeAll(m, after).Ok?
    ensures Keys(ChangeAll(m, after).value.entries) == Keys(m.entries)
    ensures Street(key, ChangeAll(m, after).value)
  {
    UpdateAllKeepsStreet(key, m, after);
  }

  /** So in a well-formed table `_handle_z` stores the street back under
      the same identifier, and not deleting the before identifier loses
      nothing. */
  lemma ChangeAllInPlace(t: UlicTable, before: Record, after: Record)
    requires WellFormed(t)
    requires HandleZ(t, before, after).Ok?
    ensures var key := FromUpdate(before).value.symul.value;
      && ChangeAll(t[key], after).value.symul == Some(key)
      && HandleZ(t, before, after).value == t[key := ChangeAll(t[key], after).value]
      && HandleZ(t, before, after).value.Keys == t.Keys
  {
    var prior := FromUpdate(before).value;
    var key := prior.symul.value;
    var m' := ChangeAll(t[key], after).value;
    ChangeAllKeepsStreet(key, t[key], after);
    assert Lookup(t, key, None) == Some(t[key]);
    assert HandleZ(t, before, after) == Ok(t[key := m']);
  }

  lemma ChangeAllKeepsWellFormed(t: UlicTable, before: Record, after: Record)
    requires WellFormed(t)
    ensures HandleZ(t, before, after).Ok? ==> WellFormed(HandleZ(t, before, after).value)
  {
    if HandleZ(t, before, after).Ok? {
      var key := FromUpdate(before).value.symul.value;
      ChangeAllKeepsStreet(key, t[key], after);
      ChangeAllInPlace(t, before, after);
      StoreKeepsWellFormed(t, key, ChangeAll(t[key], after).value);
    }
  }

  /** Every handler keeps the table well formed, whether it completes or
      raises. */
  lemma ApplyKeepsWellFormed(t: UlicTable, c: Change)
    requires WellFormed(t)
    ensures WellFormed(Apply(t, c).state)
  {
    var before := UpdateRecordToDict(c.elems, "Przed");
    var after := UpdateRecordToDict(c.elems, "Po");
    match c.op
    case Some("D") => AddKeepsWellFormed(t, after);
    case Some("M") => ModifyKeepsWellFormed(t, before, after);
    case Some("U") => RemoveKeepsWellFormed(t, before);
    case Some("Z") => ChangeAllKeepsWellFormed(t, before, after);
    case _ =>
  }

  lemma ReplayKeepsWellFormed(t: UlicTable, changes: seq<Change>)
    requires WellFormed(t)
    ensures WellFormed(Delta.Replay(Apply, t, changes).state)
  {
    forall x, c | WellFormed(x) ensures WellFormed(Apply(x, c).state) {
      ApplyKeepsWellFormed(x, c);
    }
    Delta.ReplayKeeps(Apply, WellFormed, t, changes);
  }

  /** A street built from a list whose first member belongs to `key` is a
      well-formed street under `key`. */
  lemma StreetFromList(key: string, lst: seq<UlicEntry>)
    requires FromList(lst).Ok? && lst[0].symul == Some(key)
    ensures Street(key, FromList(lst).value)
  {
    FromListSpec(lst, lst[0].sym);
    LastValueNone(SymPairs(lst), lst[0].sym, 0);
    FromListMembers(lst);
  }

  /** `dict((key, UlicMultiEntry.from_list(value)) for ...)`: each group
      becomes a street, in order; the first group that cannot be built
      raises. */
  function Aggregates(groups: Dict<Text, seq<UlicEntry>>): (r: Result<Dict<Text, UlicMultiEntry>>)
    ensures r.Ok? ==> Keys(r.value) == Keys(groups)
    ensures r.Ok? ==> forall i :: 0 <= i < |groups| ==> FromList(groups[i].1) == Ok(r.value[i].1)
    ensures r.Ok? <==> forall i :: 0 <= i < |groups| ==> FromList(groups[i].1).Ok?
  {
    if |groups| == 0 then Ok([])
    else
      assert forall i :: 1 <= i < |groups| ==> groups[1..][i - 1] == groups[i];
      match FromList(groups[0].1)
      case Err(e) => Err(e)
      case Ok(m) =>
        match Aggregates(groups[1..])
        case Err(e) => Err(e)
        case Ok(rest) =>
          var r := [(groups[0].0, m)] + rest;
          assert Keys(r) == [groups[0].0] + Keys(rest);
          Ok(r)
  }

  function SymulOf(e: UlicEntry): Text {
    e.symul
  }

  function Itself(e: UlicEntry): UlicEntry {
    e
  }

  /** `UlicCache._data_to_cache_contents`: the catalogue rows grouped by
      street identifier, one street per group. */
  function Snapshot(rows: seq<UlicEntry>): (r: Result<Dict<Text, UlicMultiEntry>>)
    ensures r.Ok? ==> UniqueKeys(r.value)
  {
    var groups := GroupBy(rows, SymulOf, Itself);
    GroupByUnique(rows, SymulOf, Itself);
    var r := Aggregates(groups);
    if r.Ok? then
      assert forall i :: 0 <= i < |r.value| ==> r.value[i].0 == Keys(groups)[i];
      r
    else r
  }

  /** A snapshot whose rows all carry a street identifier loads into a
      well-formed table: every street is stored under its identifier and
      its members belong to it. */
  lemma SnapshotWellFormed(rows: seq<UlicEntry>)
    requires forall i :: 0 <= i < |rows| ==> rows[i].symul.Some?
    requires Snapshot(rows).Ok?
    ensures Reload(Fresh(), Snapshot(rows).value).Done?
    ensures WellFormed(Reload(Fresh(), Snapshot(rows).value).state)
  {
    var groups := GroupBy(rows, SymulOf, Itself);
    var contents := Snapshot(rows).value;
    GroupByUnique(rows, SymulOf, Itself);
    GroupsPartition(rows, SymulOf, Itself, None);
    assert forall i :: 0 <= i < |rows| ==> SymulOf(rows[i]) != None;
    forall i | 0 <= i < |contents| ensures contents[i].0.Some? {
      assert contents[i].0 == Keys(groups)[i];
    }
    var t := Reload(Fresh(), contents).state;
    forall k | k in t ensures Street(k, t[k]) {
      ReloadContents(Fresh(), contents, k);
      UniqueLastValue(contents, Some(k));
      var m := Get(contents, Some(k)).value;
      assert t[k] == m;
      var i :| 0 <= i < |contents| && contents[i] == (Some(k), m);
      assert groups[i].0 == Some(k) by {
        assert Keys(contents)[i] == Keys(groups)[i];
      }
      var group := groups[i].1;
      assert FromList(group) == Ok(m);
      UniqueGet(groups, Some(k), group);
      GroupByGet(rows, SymulOf, Itself, Some(k));
      SelectKeyed(rows, SymulOf, Itself, Some(k));
      assert group[0] in group;
      StreetFromList(k, group);
    }
  }

  /** In a well-formed table `_handle_d` extends the stored street with the
      new member, keeping its label and name, or starts a one-member street;
      no other street changes. */
  lemma AddExtendsOrCreates(t: UlicTable, after: Record)
    requires WellFormed(t)
    requires HandleD(t, after).Ok?
    ensures var e := FromUpdate(after).value;
      var key := e.symul.value;
      var r := HandleD(t, after).value;
      && (key in t ==> r[key] == t[key].(entries := Put(t[key].entries, e.sym, e)))
      && (key !in t ==> r[key] == New(e).value && r[key].entries == [(e.sym, e)])
      && r.Keys == t.Keys + {key}
  {
    var e := FromUpdate(after).value;
    var key := e.symul.value;
    assert HandleD(t, after) == Join(t, key, e);
    JoinExtendsOrCreates(t, key, e);
  }

  lemma JoinExtendsOrCreates(t: UlicTable, key: string, e: UlicEntry)
    requires WellFormed(t) && e.symul == Some(key)
    requires Join(t, key, e).Ok?
    ensures var r := Join(t, key, e).value;
      && (key in t ==> r[key] == t[key].(entries := Put(t[key].entries, e.sym, e)))
      && (key !in t ==> r[key] == New(e).value && r[key].entries == [(e.sym, e)])
      && r.Keys == t.Keys + {key}
  {
    var r := Join(t, key, e).value;
    if key in t {
      var m := t[key];
      assert Found(t, key) == Some(m);
      var m' := AddEntry(m, e).value;
      assert r == t[key := m'];
      assert m' == m.(entries := Put(m.entries, e.sym, e));
    } else {
      assert Found(t, key) == None;
      assert r == t[key := New(e).value];
    }
  }

  /** In a well-formed table `_handle_u` removes exactly the member: a
      street left empty is deleted, otherwise it keeps its other members,
      label and name under the same identifier; no other street changes. */
  lemma RemoveDeletesEmpty(t: UlicTable, before: Record)
    requires WellFormed(t)
    requires HandleU(t, before).Ok?
    ensures var prior := FromUpdate(before).value;
      var key := prior.symul.value;
      var m := t[key];
      var r := HandleU(t, before).value;
      && (|m.entries| == 1 ==> r == t - {key})
      && (|m.entries| > 1 ==> r == t[key := m.(entries := Del(m.entries, prior.sym).value)])
  {
    var prior := FromUpdate(before).value;
    var key := prior.symul.value;
    var m := t[key];
    assert Lookup(t, key, None) == Some(m);
    var m' := RemoveBySym(m, prior.sym).value;
    assert m' == m.(entries := Del(m.entries, prior.sym).value);
    assert m'.symul == Some(key);
    if |m.entries| == 1 {
      assert HandleU(t, before) == Ok(t - {key});
    } else {
      assert HandleU(t, before) == Ok(t[key := m']);
    }
  }

  /** In a well-formed table a `D` record is applied exactly when its
      after half builds a member with a street identifier whose label and
      name can be read. */
  lemma AddSucceeds(t: UlicTable, after: Record)
    requires WellFormed(t)
    ensures var p := FromUpdate(after);
      HandleD(t, after).Ok? <==> p.Ok? && p.value.symul.Some? && Cecha(p.value).Ok? && Nazwa(p.value).Ok?
  {
  }

  /** In a well-formed table a `U` record is applied exactly when its
      before half names a member of a stored street. */
  lemma RemoveSucceeds(t: UlicTable, before: Record)
    requires WellFormed(t)
    ensures var p := FromUpdate(before);
      HandleU(t, before).Ok? <==>
        p.Ok? && p.value.symul.Some? && p.value.symul.value in t && p.value.sym in Keys(t[p.value.symul.value].entries)
  {
  }

  /** In a well-formed table a `Z` record is applied exactly when its
      before half names a stored street whose members all take the update. */
  lemma ChangeSucceeds(t: UlicTable, before: Record, after: Record)
    requires WellFormed(t)
    ensures var p := FromUpdate(before);
      HandleZ(t, before, after).Ok? <==>
        p.Ok? && p.value.symul.Some? && p.value.symul.value in t && ChangeAll(t[p.value.symul.value], after).Ok?
  {
    var p := FromUpdate(before);
    if p.Ok? && p.value.symul.Some? && p.value.symul.value in t && ChangeAll(t[p.value.symul.value], after).Ok? {
      var key := p.value.symul.value;
      ChangeAllKeepsStreet(key, t[key], after);
    }
  }

  /** A one-member street gains a member of another locality: the street
      then has two members, each found under its locality symbol. */
  lemma AddSecondMember(t: UlicTable, after: Record, key: string)
    requires WellFormed(t) && key in t && |t[key].entries| == 1
    requires FromUpdate(after).Ok? && FromUpdate(after).value.symul == Some(key)
    requires Cecha(FromUpdate(after).value).Ok? && Nazwa(FromUpdate(after).value).Ok?
    requires FromUpdate(after).value.sym != t[key].entries[0].0
    ensures HandleD(t, after).Ok?
    ensures var e := FromUpdate(after).value;
      var r := HandleD(t, after).value;
      && key in r && |r[key].entries| == 2
      && Get(r[key].entries, t[key].entries[0].0) == Some(t[key].entries[0].1)
      && Get(r[key].entries, e.sym) == Some(e)
  {
    var e := FromUpdate(after).value;
    var first := t[key].entries[0];
    AddExtendsOrCreates(t, after);
    assert Keys(t[key].entries) == [first.0];
    assert Get(t[key].entries, first.0) == Some(first.1);
    GetPut(t[key].entries, e.sym, e, first.0);
    GetPut(t[key].entries, e.sym, e, e.sym);
  }

  /** A change of a member's locality symbol is applied to the member but
      the member stays filed under its old symbol. */
  lemma MemberKeptUnderOldSymbol(t: UlicTable, before: Record, after: Record)
    requires WellFormed(t)
    requires FromUpdate(before).Ok? && Truthy(FromUpdate(before).value.symul)
    requires HandleM(t, before, after).Done?
    requires Truthy(Field(Rename(after), "sym")) && Field(Rename(after), "sym") != FromUpdate(before).value.sym
    ensures var prior := FromUpdate(before).value;
      var r := HandleM(t, before, after).state;
      && prior.symul.value in r
      && var member := Get(r[prior.symul.value].entries, prior.sym);
         member.Some? && member.value.sym == Field(Rename(after), "sym") && member.value.sym != prior.sym
  {
    var prior := FromUpdate(before).value;
    ModifyInPlace(t, before, after);
    var key := prior.symul.value;
    var m := t[key];
    assert Get(m.entries, prior.sym).Some?;
    var member := Get(m.entries, prior.sym).value;
    assert UpdateFrom(member, after).Ok?;
    var updated := UpdateFrom(member, after).value;
    var r := t[key := m.(entries := Put(m.entries, prior.sym, updated))];
    assert HandleM(t, before, after).state == r;
    GetPut(m.entries, prior.sym, updated, prior.sym);
    assert updated.sym == Overlay(member.sym, Field(Rename(after), "sym"));
  }
}
